=== FILE: README.md ===
# insurance-risk-analytics in Dafny

A Dafny model of the analysis scripts of *insurance-risk-analytics*, a
pandas pipeline over a car-insurance portfolio (one row per policy and
month, with premium, claims, vehicle and client columns). The model keeps
the scripts' own table logic and treats the statistics, machine-learning
and plotting libraries as parameters.

- **Frames** (`frames.dfy`, `cells.dfy`): a DataFrame is `Frame(names,
  kinds, rows)`. Each row maps every column name to a `Cell`: missing, a
  number, a string, a month-resolution date, or a boolean. Column dtypes
  are `Numeric | Flag | DateTime | Object | Categorical`. Numbers are exact
  reals. A NaN or infinite result is `None` (`Wrappers.Ratio`). A raised
  exception is a `Result` failure naming the Python exception class.
- **Hypothesis testing** (`hypothesis.dfy`, `HypothesisTester`):
  - the `ClaimOccurred` and `Margin` columns;
  - the claim-frequency, claim-severity and average-margin KPIs;
  - the "Calculate metrics first." gate, a two-state tester value;
  - the chi-square and Welch t-test verdicts, with their row filters and
    the exactly-two-groups check;
  - the interpretation text.
- **Preprocessing** (`preprocessing.dfy`, `PreprocessData`):
  - dropping the two sparse columns;
  - filling the risk flags with "No";
  - the sorted missing-value report;
  - the choice of columns converted to `category`, with the list exactly
    as written.
- **EDA** (`eda.dfy`, `ExploratoryDataAnalysis`):
  - overall and per-segment loss ratios;
  - the monthly premium and claim totals;
  - mean claim severity per vehicle make;
  - the choice of the five most frequent postal codes that get a Spearman
    correlation.
- **Feature engineering** (`features.dfy`, `FeatureEngineering`):
  - the `HasClaim` label;
  - `VehicleAge` with its 2015 fallback year;
  - dropping the date columns;
  - `get_dummies(drop_first=True)` one-hot encoding;
  - the frequency and severity datasets cut from a train/test partition.
- **Feature importance** (`importance.dfy`, `FeatureInterpreter`):
  - the SHAP explainer chosen from the model's class name;
  - positive-class selection;
  - the mean absolute attribution per feature;
  - the ranked top-N table.

The library routines enter as values:
- the chi-square and Welch p-values, and the p-value formatting
  (`Hypothesis.StatLib`);
- Spearman's rank correlation (`Eda.Spearman`);
- `shap_values` (`Importance.Shap`);
- the row labels `train_test_split` returns (`train`, `test`).

## Model

| member | source | states |
|---|---|---|
| Wrappers.Ratio | scripts/eda.py:30 | A float division is NaN or infinite exactly when the divisor is zero. |
| Sorting.SortDesc | scripts/data_preprocessing.py:105 | `sort_values(ascending=False)` gives a non-increasing order that is a permutation of its input. |
| Sorting.SortedMembers | scripts/data_preprocessing.py:105 | Sorting keeps exactly the elements it is given. |
| Sorting.PrefixOutranks | scripts/eda.py:69 | Taking the first `n` of a descending order, as `nlargest` and `head` do, leaves out nothing ranked above an element kept. |
| Cells.Levels | scripts/eda.py:35 | Group keys are the distinct observed non-missing values, in pandas' sort order. |
| Cells.Unique | scripts/hypothesis_testing.py:42 | `dropna().unique()` lists every known value once and nothing else, in order of first appearance. |
| Strings.ContainsMeansOccurs | scripts/feature_importance.py:16 | Python's `sub in s` holds exactly when some window of `s` equals `sub`. |
| Seqs.Head | scripts/feature_importance.py:42 | `head(n)` keeps the first `n` rows (all but the last `-n` when `n` is negative) as a prefix. |
| Frames.DropColumns | scripts/data_preprocessing.py:111 | `drop(columns=..., errors='ignore')` removes exactly the named columns that are present and keeps every row's other cells. |
| Hypothesis.NewTester | scripts/hypothesis_testing.py:5-7 | A new tester holds its data and has not calculated metrics. |
| Hypothesis.FlagTotals | scripts/hypothesis_testing.py:19 | The claim flags sum to the number of rows with a positive claim, and every flag is counted. |
| Hypothesis.Frequency | scripts/hypothesis_testing.py:19 | The mean of `ClaimOccurred` is the number of positive-claim rows over the number of rows, NaN for an empty table. |
| Hypothesis.Severity | scripts/hypothesis_testing.py:20 | Averaging `TotalClaims` over the flagged rows gives the mean claim over the positive-claim rows, and 0 when there are none. |
| Hypothesis.WithKpiColumns | scripts/hypothesis_testing.py:15-16 | Each row gets `ClaimOccurred` 1 or 0 by whether its claim is positive, and `Margin` = premium − claims. Both columns are numeric and the row count is kept. |
| Hypothesis.KpiColumns | scripts/hypothesis_testing.py:15-16 | The new columns read back as the claim flags and the margins of the original monetary columns. |
| Hypothesis.KpiColumnsRows | scripts/hypothesis_testing.py:15-16 | Every row gains the two KPI cells and keeps all its other cells. |
| Hypothesis.CalculateMetrics | scripts/hypothesis_testing.py:11-28 | Succeeds exactly when both monetary columns exist; otherwise it is a KeyError, with `TotalClaims` checked first. On success the tester is ready and the KPIs are the reference `KpisOf` of the two columns. |
| Hypothesis.MetricsColumns | scripts/hypothesis_testing.py:15-24 | After `calculate_metrics` the tester is marked ready, the row count and the other columns' dtypes are kept, and every row is updated as `KpiRow` says. |
| Hypothesis.KpiArithmetic | scripts/hypothesis_testing.py:19-20 | At most every row has a claim, so the frequency lies in [0, 1]. The severity mean is positive when there is a claim. There are no claim rows exactly when no claim is positive. |
| Hypothesis.KpiRangesOf | scripts/hypothesis_testing.py:19-28 | Frequency is NaN exactly for an empty table and otherwise lies in [0, 1]. Severity is never negative and is 0 exactly when no row has a positive claim. |
| Hypothesis.MarginTotals | scripts/hypothesis_testing.py:16 | Over complete columns, the margins sum to total premium minus total claims, one per row. |
| Hypothesis.MeanOfCompleteMargins | scripts/hypothesis_testing.py:21-22 | Over complete columns, the average margin is (total premium − total claims) / rows. |
| Hypothesis.KpisExample | scripts/hypothesis_testing.py:15-28 | Premiums 100 and 200 with claims 0 and 50 give frequency 0.5, severity 50 and average margin 125. |
| Hypothesis.ExampleClaimRows | scripts/hypothesis_testing.py:20 | In the example only the second row has a claim, of 50. |
| Hypothesis.ChiSquareTest | scripts/hypothesis_testing.py:32-39 | A missing feature or `ClaimOccurred` column is a KeyError. Otherwise it succeeds when scipy returns a p-value, and `Reject_H0` holds exactly when p < 0.05. |
| Hypothesis.GroupRows | scripts/hypothesis_testing.py:46-47 | A group's rows are exactly the rows whose feature equals the group value. |
| Hypothesis.TTest | scripts/hypothesis_testing.py:40-54 | Fails with the "requires exactly 2 groups" ValueError unless the feature has exactly two distinct non-missing values. On success the groups are those two values in order of first appearance. The two samples are the value column over each group's rows. The result carries both sample means and Welch's p-value of the two samples, and `Reject_H0` holds exactly when p < 0.05. |
| Hypothesis.TTestSamplesPartition | scripts/hypothesis_testing.py:43-47 | The two t-test samples split the rows with a known group: each such row is in exactly one sample, and no other row is in either. |
| Hypothesis.TwoGroupsCover | scripts/hypothesis_testing.py:43-47 | With exactly two distinct groups, every known cell equals one of them. |
| Hypothesis.Interpret | scripts/hypothesis_testing.py:58-65 | The interpretation starts "Reject H₀" exactly when `Reject_H0` holds and "Fail to reject H₀" otherwise. It names the feature and the formatted p-value. |
| Hypothesis.RowsWith | scripts/hypothesis_testing.py:75 | `isin` keeps exactly the rows whose cell is one of the values, once each and in their original order. Nothing else changes. |
| Hypothesis.TestProvinceRisk | scripts/hypothesis_testing.py:67-70 | Refused with "Calculate metrics first." exactly when metrics are not calculated. Otherwise it is the interpreted Province chi-square test, or that test's error. |
| Hypothesis.TestZipcodeRisk | scripts/hypothesis_testing.py:72-76 | Gated the same way. Otherwise it is the interpreted chi-square test on the rows of the two postal codes only, or that test's error. |
| Hypothesis.TestZipcodeMargin | scripts/hypothesis_testing.py:78-82 | Gated the same way. Otherwise it is the interpreted Margin t-test on the rows of the two postal codes only. |
| Hypothesis.TestGenderRisk | scripts/hypothesis_testing.py:84-90 | Gated the same way. Otherwise both tests run on the Male/Female rows only, and the first failure is raised. |
| Hypothesis.TestsNeedMetrics | scripts/hypothesis_testing.py:68-86 | Before `calculate_metrics`, all four tests fail with "Calculate metrics first.". |
| Hypothesis.MetricsUnlockTests | scripts/hypothesis_testing.py:24 | After a successful `calculate_metrics`, no test fails for want of metrics, whatever its arguments. |
| Hypothesis.FilteredValues | scripts/hypothesis_testing.py:81 | After the filter, the filtered column holds only the given values. |
| Hypothesis.GroupsOfPair | scripts/hypothesis_testing.py:43-45 | Two distinct groups drawn from two values are exactly those values. |
| Hypothesis.PairGroups | scripts/hypothesis_testing.py:42-45 | Cells drawn from two values that have exactly two distinct values contain both, and the two differ. |
| Hypothesis.FilteredPairGroups | scripts/hypothesis_testing.py:81-82 | A t-test on rows filtered to two values succeeds only if the values differ, and its groups are then those values. |
| Hypothesis.ZipMarginGroups | scripts/hypothesis_testing.py:78-82 | A successful margin test compares exactly the two given postal codes, and they differ. |
| Hypothesis.SameZipMarginFails | scripts/hypothesis_testing.py:44-45 | Comparing a postal code with itself raises ValueError. |
| Hypothesis.GenderGroups | scripts/hypothesis_testing.py:87-89 | A successful gender t-test compares exactly "Male" with "Female". |
| Preprocessing.FillNo | scripts/data_preprocessing.py:121 | `fillna('No')` turns missing cells into "No" and keeps the others. A non-text column holding a gap becomes `object`. A `category` column lacking "No" raises TypeError, whether or not it has a gap. |
| Preprocessing.FillFlags | scripts/data_preprocessing.py:118-121 | The flag loop keeps the columns, the row count and validity, and its only failure is the new-category TypeError. |
| Preprocessing.SameAfterFill | scripts/data_preprocessing.py:119-121 | Filling one flag does not change whether another would reject the fill. |
| Preprocessing.FillFlagsOutcome | scripts/data_preprocessing.py:118-121 | The loop fails exactly when some present flag rejects the fill. |
| Preprocessing.FillFlagsRows | scripts/data_preprocessing.py:118-121 | Every row is filled flag by flag, and columns outside the flags keep their dtype. |
| Preprocessing.HandleMissingValues | scripts/data_preprocessing.py:107-123 | The repaired frame is valid. Its only failure is the new-category TypeError. |
| Preprocessing.HandleMissingValuesOutcome | scripts/data_preprocessing.py:118-121 | It raises exactly when a present risk flag is a `category` column without a "No" category, gap or not. |
| Preprocessing.HandledFrame | scripts/data_preprocessing.py:107-123 | `NumberOfVehiclesInFleet` and `CrossBorder` are gone (absent ones are no error). In present risk flags every missing cell becomes "No" and every known cell is kept. Rows, other columns, their dtypes and their cells are unchanged. |
| Preprocessing.MissingCount | scripts/data_preprocessing.py:97 | The missing count is at most the row count, and positive exactly when the column has a gap. |
| Preprocessing.Round2Bounds | scripts/data_preprocessing.py:98 | Rounding a percentage to two places keeps it in [0, 100]. |
| Preprocessing.MissingPercent | scripts/data_preprocessing.py:98 | count / rows × 100, rounded to two places, lies in [0, 100]. |
| Preprocessing.Entry | scripts/data_preprocessing.py:97-98 | A report line names its column, has a count between 1 and the row count, and has a percentage in [0, 100]. |
| Preprocessing.MissingEntries | scripts/data_preprocessing.py:97-103 | The filtered report holds a line for every column with a gap, and only such lines. Distinct column names give distinct lines. |
| Preprocessing.CheckMissingValues | scripts/data_preprocessing.py:92-105 | The report is ordered by non-increasing percentage. It lists exactly the columns with a missing cell, each once, with its own count and percentage. |
| Preprocessing.ReportIsFunctional | scripts/data_preprocessing.py:97-105 | No column is reported at two positions, and every percentage lies in [0, 100]. |
| Preprocessing.ConvertKinds | scripts/data_preprocessing.py:84-87 | The conversion loop makes a column `category` exactly when it is listed and `object`. Every other dtype is kept. |
| Preprocessing.PresentColumns | scripts/data_preprocessing.py:82 | The list is filtered to the columns present in the frame. |
| Preprocessing.ConvertCategoricals | scripts/data_preprocessing.py:82-87 | Rows and names are unchanged. A column ends `category` exactly when it was `category` or is listed, present and `object`. All other dtypes are kept. |
| Preprocessing.ConvertDataTypes | scripts/data_preprocessing.py:65-87 | Raises KeyError for the first of `PostalCode`, `TransactionMonth`, `VehicleIntroDate` and `CapitalOutstanding` that is absent, and succeeds exactly when all four exist. With the list exactly as written, names and cells are kept and exactly the listed, present `object` columns become `category`. |
| Preprocessing.WrittenListSkipsTwoColumns | scripts/data_preprocessing.py:78 | As written, a successful conversion never changes the dtype of `StatutoryRiskType` or `WrittenOff`. |
| Preprocessing.ConvertDataTypesIntended | scripts/data_preprocessing.py:65-87 | The same KeyErrors. With the comma restored, exactly the listed, present `object` columns become `category`. |
| Preprocessing.IntendedListConvertsAll | scripts/data_preprocessing.py:72-87 | With the comma restored, a successful conversion makes every listed `object` column present `category`, these two included. |
| Eda.GroupSum | scripts/eda.py:35-37 | The sum over a group's rows equals the reference sum over the rows with that key. |
| Eda.GroupTotals | scripts/eda.py:35-39 | The grouped table has one row per observed non-missing key, in sorted order. Each row holds the premium and claim sums over its rows and their ratio. |
| Eda.GroupsPartition | scripts/eda.py:35-37 | Summing group by group equals summing once over the rows whose key is among the groups. |
| Eda.SumInKnown | scripts/eda.py:35-37 | When the groups are exactly the known keys, that sum is the total over the rows with a known key. |
| Eda.KnownTotalOfComplete | scripts/eda.py:30 | With no missing key, the known-key total is the column total. |
| Eda.TableSums | scripts/eda.py:35-37 | A table of group sums adds up to the sum over the rows of its keys. |
| Eda.GroupsAddUp | scripts/eda.py:30-39 | A segment's premiums and claims add up to the totals over rows with a known key, and to the overall totals when no key is missing. |
| Eda.CalculateLossRatios | scripts/eda.py:26-42 | `overall` = total claims / total premium, even with no segments, and NaN exactly when the premium total is 0. Exactly the requested, present columns get a segment, each summarising its groups. A missing monetary column is a KeyError. |
| Eda.SegmentsCoverPortfolio | scripts/eda.py:30-40 | For a segment column with no gap, the segment table adds up to the overall premium and claim totals. |
| Eda.ClaimedGroup | scripts/eda.py:62-63 | Grouping the positive-claim rows by make gives each make its claim count and amount. |
| Eda.ClaimedAmounts | scripts/eda.py:62-64 | A make with a positive claim has every claim counted and a positive total. |
| Eda.Severity | scripts/eda.py:62-64 | A make's severity is its total positive claims over its number of positive claims, and it is positive. |
| Eda.MakeGroups | scripts/eda.py:61-63 | `groupby('make')` on the claimed rows has a group for every category of a categorical `make` (`observed=False`), and otherwise for every make among the claimed rows, in sorted order. |
| Eda.SeverityOrNaN | scripts/eda.py:61-64 | A group's `mean()` is NaN exactly when the make has no positive claim. Otherwise it is the make's positive claims over their number, and positive. |
| Eda.SeverityTable | scripts/eda.py:61-64 | There is one row per group in level order: every category of a categorical `make`, otherwise every make with a positive claim. Each row holds the make's mean positive claim, or NaN when it has none; NaN occurs only for a categorical `make`. |
| Eda.MakeSeverities | scripts/eda.py:61-66 | `make_severity` is the group table rearranged into non-increasing order, NaN last. Each entry is one of the groups, no make appears twice, and each carries the mean of its positive claims, or NaN when it has none. Only a categorical `make` yields NaN entries. |
| Eda.EveryClaimedMakeListed | scripts/eda.py:61-66 | Every make with a positive claim appears in `make_severity`, and so does every category of a categorical `make`. |
| Eda.NaNLast | scripts/eda.py:65 | `sort_values(ascending=False)` puts every NaN entry after every entry with a severity. |
| Eda.GroupSize | scripts/eda.py:69 | A value's group has one row per occurrence. |
| Eda.Tally | scripts/eda.py:69 | Every observed postal code gets the number of rows holding it. |
| Eda.ValueCounts | scripts/eda.py:69 | `value_counts()` is the tally rearranged into non-increasing order. Each entry is an observed code with its number of rows, and no code appears twice. |
| Eda.EveryValueCounted | scripts/eda.py:69 | Every known postal code appears in the counts. |
| Eda.TopZipsAreMostFrequent | scripts/eda.py:69 | At most five codes are selected, each with its true count. No code left out occurs on more rows than any selected one. |
| Eda.ZipMonthly | scripts/eda.py:73-77 | A postal code's monthly table sums premiums and claims by month over that code's rows only. |
| Eda.Correlations | scripts/eda.py:70-79 | Every correlated code is one of the top codes with more than one month, with the Spearman value of its monthly sums. Every top code with more than one month is correlated. |
| Eda.TopZipsDistinct | scripts/eda.py:69 | `value_counts().nlargest(5).index` holds no code twice. |
| Eda.CorrelatedOnce | scripts/eda.py:66-79 | Over the five most frequent codes, no code is correlated twice, as the dict keyed by code gives. |
| Eda.CorrelationsInOrder | scripts/eda.py:70-79 | The correlated codes are exactly the top codes spanning more than one month, in `top_zips` order; distinct top codes give distinct entries. |
| Frames.FirstAbsent | scripts/eda.py:54-73 | Finds the first of the columns `bivariate_analysis` reads that is absent, or none. |
| Eda.BivariateAnalysis | scripts/eda.py:44-85 | Succeeds exactly when its five columns exist, else it is a KeyError for the first one read. The monthly summary has the per-month sums and ratios. `make_severity` is `MakeSeverities`, with NaN entries exactly when `make` is categorical. The correlations are taken over the top five postal codes. |
| Features.MaxYear | scripts/feature_engineering.py:29 | `dt.year.max()` is NaN exactly when no timestamp is known. Otherwise it bounds every known year and is attained. |
| Features.ReferenceYear | scripts/feature_engineering.py:28-31 | Ages are measured from the latest transaction year when `TransactionMonth` is a datetime column, and from 2015 otherwise. |
| Features.Ages | scripts/feature_engineering.py:33 | Each row's age is the reference year minus its registration year, NaN when either is unknown. |
| Features.Derive | scripts/feature_engineering.py:19-36 | Succeeds exactly when `TotalClaims` and `RegistrationYear` are numeric wherever present; otherwise it is a TypeError, the comparison checked first. `HasClaim` is added only with `TotalClaims` and `VehicleAge` only with `RegistrationYear`. Both date columns are dropped if present. |
| Features.TextualColumns | scripts/feature_engineering.py:39 | `select_dtypes(['category', 'object'])` picks exactly the text columns, once each. |
| Features.IndicatorLevels | scripts/feature_engineering.py:40 | With `drop_first=True`, every observed category but the first gets an indicator. |
| Features.Categories | scripts/feature_engineering.py:39-40 | Exactly the text columns are encoded, each with its indicator categories. |
| Features.Indicators | scripts/feature_engineering.py:40 | The indicator labels are one per encoded column and indicator category, none repeated. |
| Features.EncodeRow | scripts/feature_engineering.py:40 | An encoded row replaces each text cell by its indicators, each true exactly when the row holds that category. It keeps every other cell. |
| Features.EncodedNames | scripts/feature_engineering.py:40 | The encoded columns are the columns that are not text followed by the indicators, none repeated. |
| Features.Encode | scripts/feature_engineering.py:40 | `get_dummies` keeps the row count and gives the encoded dtypes: boolean indicators, other dtypes kept. Every row is encoded as `EncodeRow` says. |
| Features.EncodedColumns | scripts/feature_engineering.py:39-40 | After encoding no text column remains. The columns are the former columns that were not text, with their dtypes, plus the indicators. |
| Features.DecodeFinds | scripts/feature_engineering.py:40 | Reading indicators back finds the category whose indicator is set, or the dropped first category. |
| Features.EncodingIsFaithful | scripts/feature_engineering.py:40 | Decoding an encoded row gives back every known category it held (round trip). |
| Features.MissingLooksLikeFirst | scripts/feature_engineering.py:40 | A missing value and the dropped first category both leave every indicator false. |
| Features.CreateFeatures | scripts/feature_engineering.py:15-43 | Raises TypeError when the label or age cannot be computed. Otherwise it raises `get_dummies`' "No objects to concatenate" ValueError exactly when no column other than the two dates exists. On success the result keeps the row count, has no text column, and has neither `TransactionMonth` nor `VehicleIntroDate`. |
| Features.DerivedHasColumn | scripts/feature_engineering.py:23-40 | After deriving and dropping the dates, a column is left exactly when the input had one besides the two dates. |
| Features.EncodingKeeps | scripts/feature_engineering.py:40 | A column that is not text passes through the encoding with its dtype and cells. |
| Features.DerivedLabel | scripts/feature_engineering.py:24-25 | With `TotalClaims` present, `HasClaim` is a numeric column holding each row's claim flag. |
| Features.DerivedAge | scripts/feature_engineering.py:32-33 | With `RegistrationYear` present, `VehicleAge` is a numeric column holding each row's age. |
| Features.CreatedLabel | scripts/feature_engineering.py:24-25 | In the created features, `HasClaim` is 1 exactly on rows with a positive claim and 0 on all others. |
| Features.CreatedAge | scripts/feature_engineering.py:28-33 | In the created features, `VehicleAge` is the reference year minus the registration year. |
| Features.SeverityPart | scripts/feature_engineering.py:67-70 | The severity set holds exactly the given labels with a positive claim, each as often as it was given. Each has its features without the targets and its claim, which is positive. |
| Features.Datasets | scripts/feature_engineering.py:52-77 | The feature matrices hold the labelled rows without either target column. With the frequency target, they follow the split and carry its labels. Without it, both sides are the whole frame and the labels are None. With the severity target, each side's severity set is its positive-claim rows; without it, all four severity outputs are None. |
| Features.PrepareModelingData | scripts/feature_engineering.py:45-80 | Raises TypeError exactly when a present severity target is not numeric (the `> 0` comparison). Otherwise it returns the datasets above. |
| Features.SeverityRowsOf | scripts/feature_engineering.py:67-69 | Each severity row carries a label of its side of the split and the same features as that side's row under that label. |
| Features.SeverityRowsAreSplitRows | scripts/feature_engineering.py:67-75 | The severity training and test sets keep row identity with the frequency training and test matrices. |
| Importance.ChooseExplainer | scripts/feature_importance.py:15-22 | A name containing "XGB" or "RandomForest" gets the tree explainer, checked first. Else a name containing "Linear" or "Logistic" gets the linear explainer with the test features as background. Anything else gets the generic one. |
| Importance.ExplainerByWindow | scripts/feature_importance.py:16-18 | The same dispatch stated over substring windows of the class name. |
| Importance.TreeModelsExplainer | scripts/feature_importance.py:16-17 | `XGBClassifier`, `XGBRegressor`, `RandomForestClassifier` and `RandomForestRegressor` get the tree explainer. |
| Importance.PositiveClass | scripts/feature_importance.py:27-28 | A list of more than one per-class array is replaced by element 1, and a single array is used as is. Other lists make the reduction fail. |
| Importance.MeanAbsOf | scripts/feature_importance.py:31 | A feature's score is NaN exactly when there are no rows, and otherwise non-negative. |
| Importance.MeanAbsScores | scripts/feature_importance.py:31 | There is one score per attribution column. |
| Importance.MeanAbs | scripts/feature_importance.py:31 | The row-by-row accumulation computes every feature's mean absolute attribution. |
| Importance.AbsSumZero | scripts/feature_importance.py:31 | A column's absolute sum is zero exactly when every entry in it is. |
| Importance.ZeroScore | scripts/feature_importance.py:31 | A feature scores exactly 0 when it has rows and all its attributions are 0. |
| Importance.Ranked | scripts/feature_importance.py:32-35 | The sorted table is non-increasing in score and a permutation of the features paired with their scores. |
| Importance.ShapSummary | scripts/feature_importance.py:12-42 | Propagates shap's error and the error of the class selection (a list of at most one array). Fails with ValueError when the attributions are not one column per feature. Otherwise it returns the first `top_n` rows of the ranked table (as many as `min(top_n, features)`, in non-increasing order) and the attributions used. |
| Importance.RankedFeatures | scripts/feature_importance.py:32-35 | Every feature appears in the ranked table with its own score, and every entry is such a feature. |
| Importance.TopOutranksRest | scripts/feature_importance.py:35-42 | A feature left out of the top `n` scores no higher than any feature kept. |

## Left out

- I/O and display are not modelled, because they only print or read files:
  - `descriptive_statistics` (scripts/eda.py:10-24) computes floating-point describe, median, standard deviation and CV tables.
  - `understand_data` and `explore_by_columns` (scripts/data_preprocessing.py:16-63) only print or display.
  - Every `print` is left out.
- scripts/utils.py, scripts/plot.py and scripts/models.py are not part of this model. They cover file I/O, chart rendering and model fitting; plot.py's loss-ratio logic repeats eda.py.
- The library routines are parameters and are not modelled:
  - scipy's chi-square and Welch p-values;
  - Spearman's correlation;
  - shap's attributions;
  - `shap.summary_plot` (a side effect). A failure of the plot itself, e.g. on zero test rows, is not modelled.
- `train_test_split`: the model takes the two label lists it returns. Shuffling, `random_state`, stratification and its errors (such as a class with one member) are left out, and `test_size` has no effect.
- Dates are kept to the month (`Date(year, month)`). Day and time of day are not represented, so two timestamps in the same month fall into one group in the `groupby('TransactionMonth')` calls at scripts/eda.py:52-56 and 73-77, where pandas groups by exact timestamp.
- The pandas behaviour modelled is that of pandas 2 without copy-on-write: `groupby` keeps unobserved categories unless `observed=True`, text columns are `object`, and `Categorical.fillna` checks the fill value against the categories even when there is nothing to fill.
- Floating point is not modelled. All arithmetic is on exact reals, and `round(x, 2)` rounds the exact value half to even. NaN attributions inside a SHAP array are not represented.
- Sorting ties: `SortDesc` promises nothing about the order of equal keys. pandas' default sort is not stable, and `nlargest(5)` keeps the first of equal counts.
- `Cells.Levels`: a `category` column's declared but unobserved categories are not represented; a column's categories are taken to be its observed values. This is exact for `observed=True` in scripts/eda.py:35. For the `observed=False` grouping of `make` at scripts/eda.py:61-63, categories that no row holds are missing from `make_severity`.
- Preprocessing.ConvertDataTypes: of lines 67-70 only the KeyError for an absent column is modelled. The `astype(str)`, `to_datetime(format='mixed')` and `to_numeric(errors='coerce')` conversions themselves are pandas parsing and rendering, so the model keeps those cells and dtypes as they were. Parse errors of `to_datetime` are not modelled. The method mutates its argument and returns None, while the model returns the converted frame.
- Features.CreateFeatures: requires every column label to be a plain header. A frame that already holds a label shaped like an indicator could collide with `get_dummies` output, and the model cannot represent that.
- Features.Encode: the same plain-header requirement applies. On a frame with no column it returns the empty frame, where `get_dummies` raises "No objects to concatenate"; `CreateFeatures`, its one caller, raises that error before encoding.
- Features.Derive: the TypeErrors are decided by dtype. An `object` column holding only numbers, or a boolean column, is treated as an error; pandas would compute with it.
- Features.PrepareModelingData: the same dtype rule decides the severity TypeError, and every such error carries one message.
- Features.Datasets: the severity labels are stated by membership and multiplicity: exactly the side's labels with a positive claim, each as often as on that side. Their order, which follows the split, is not stated.
- Hypothesis.NewTester: requires `TotalClaims` and `TotalPremium` to be numeric where present. With text there, `calculate_metrics` would raise TypeError, which is not modelled.
- Eda.BivariateAnalysis: a missing aggregation column is a KeyError naming that column. pandas words it as "Column(s) [...] do not exist".
- Eda.BivariateAnalysis: `TotalClaims` and `TotalPremium` are read as numbers. Text or date cells in them, where pandas' sum or `> 0` raises TypeError, are skipped, and boolean cells are not counted as 0 or 1.
- Eda.CalculateLossRatios: the same reading of `TotalClaims` and `TotalPremium` as numbers; pandas' TypeError on non-numeric sums is not modelled.
- Eda.CalculateLossRatios: a segment column named "overall" would overwrite `results['overall']` in the source. The model keeps the overall ratio and the segments apart.
- Hypothesis.CalculateMetrics: when `TotalPremium` is absent, the source has already added `ClaimOccurred` to the data before the KeyError. The model returns the error and no data.
- Importance.PositiveClass: a one-element list fails with pandas' "Per-column arrays must each be 1-dimensional" ValueError. An empty list fails inside the plot and is reported as `LibraryError`.

## Findings

| source | as written | input that shows it | evidently intended | confidence | as-written member | corrected member |
|---|---|---|---|---|---|---|
| scripts/data_preprocessing.py:78 | `'StatutoryRiskType' 'WrittenOff'` has no comma between them, so Python joins them into the single entry `'StatutoryRiskTypeWrittenOff'` | a frame with an `object` column `WrittenOff` (or `StatutoryRiskType`): it stays `object` after `convert_data_types` | both columns listed separately and converted to `category` like the others | high; not executed | Preprocessing.WrittenListSkipsTwoColumns | Preprocessing.IntendedListConvertsAll |

=== FILE: cells.dfy ===
/** Cell values of a pandas column and the order pandas sorts them in.

    A cell is a number (every numeric dtype, ints included), a string, a
    month-resolution timestamp, a boolean (what `get_dummies` produces) or
    missing (NaN, NaT, None). */
module Cells {
  import opened Seqs

  datatype Cell =
    | Missing
    | Num(x: real)
    | Text(s: string)
    | Date(year: int, month: int)
    | Bool(b: bool)

  /** `value > 0` on a numeric cell; NaN compares false. */
  predicate Positive(c: Cell) {
    c.Num? && c.x > 0.0
  }

  /** `(TotalClaims > 0).astype(int)` for one cell: 1 for a positive claim, 0 otherwise (NaN included). */
  function Occurrence(claim: Cell): Cell {
    if Positive(claim) then Num(1.0) else Num(0.0)
  }

  /** Python's string comparison: code point by code point, a proper prefix first. */
  predicate StrLt(a: string, b: string)
    decreases |a|
  {
    if |a| == 0 then |b| > 0
    else |b| > 0 && (a[0] < b[0] || (a[0] == b[0] && StrLt(a[1..], b[1..])))
  }

  lemma {:induction false} StrLtIrreflexive(a: string)
    ensures !StrLt(a, a)
    decreases |a|
  {
    if |a| > 0 {
      StrLtIrreflexive(a[1..]);
    }
  }

  lemma {:induction false} StrLtTransitive(a: string, b: string, c: string)
    requires StrLt(a, b) && StrLt(b, c)
    ensures StrLt(a, c)
    decreases |a|
  {
    if |a| > 0 && a[0] == b[0] && b[0] == c[0] {
      StrLtTransitive(a[1..], b[1..], c[1..]);
    }
  }

  lemma {:induction false} StrLtTotal(a: string, b: string)
    requires a != b
    ensures StrLt(a, b) || StrLt(b, a)
    decreases |a|
  {
    if |a| > 0 && |b| > 0 && a[0] == b[0] {
      assert a == [a[0]] + a[1..] && b == [b[0]] + b[1..];
      StrLtTotal(a[1..], b[1..]);
    }
  }

  function Rank(c: Cell): nat {
    match c
    case Missing => 0
    case Num(_) => 1
    case Text(_) => 2
    case Date(_, _) => 3
    case Bool(_) => 4
  }

  /** The order group keys and category levels are sorted in: numbers by value,
      strings lexicographically, timestamps chronologically, False before True.
      Cells of different constructors are ordered by a fixed rank. */
  predicate CellLt(a: Cell, b: Cell) {
    if Rank(a) != Rank(b) then Rank(a) < Rank(b)
    else match a
      case Missing => false
      case Num(x) => x < b.x
      case Text(s) => StrLt(s, b.s)
      case Date(y, m) => y < b.year || (y == b.year && m < b.month)
      case Bool(v) => !v && b.b
  }

  lemma CellLtIrreflexive(a: Cell)
    ensures !CellLt(a, a)
  {
    if a.Text? {
      StrLtIrreflexive(a.s);
    }
  }

  lemma CellLtTransitive(a: Cell, b: Cell, c: Cell)
    requires CellLt(a, b) && CellLt(b, c)
    ensures CellLt(a, c)
  {
    if a.Text? && b.Text? && c.Text? {
      StrLtTransitive(a.s, b.s, c.s);
    }
  }

  lemma CellLtTotal(a: Cell, b: Cell)
    requires a != b
    ensures CellLt(a, b) || CellLt(b, a)
  {
    if a.Text? && b.Text? {
      StrLtTotal(a.s, b.s);
    }
  }

  predicate StrictlySorted(s: seq<Cell>) {
    forall i, j :: 0 <= i < j < |s| ==> CellLt(s[i], s[j])
  }

  lemma StrictlySortedIsDistinct(s: seq<Cell>)
    requires StrictlySorted(s)
    ensures Distinct(s)
  {
    forall i, j | 0 <= i < j < |s|
      ensures s[i] != s[j]
    {
      CellLtIrreflexive(s[i]);
    }
  }

  /** Adds one value to a strictly sorted list of levels, keeping it strictly sorted. */
  function InsertLevel(c: Cell, s: seq<Cell>): (r: seq<Cell>)
    requires StrictlySorted(s)
    ensures StrictlySorted(r)
    ensures forall x :: x in r <==> x in s || x == c
  {
    if |s| == 0 then [c]
    else if c == s[0] then s
    else if CellLt(c, s[0]) then
      assert forall j :: 0 <= j < |s| ==> CellLt(c, s[j]) by {
        forall j | 0 <= j < |s| ensures CellLt(c, s[j]) {
          if j > 0 { CellLtTransitive(c, s[0], s[j]); }
        }
      }
      [c] + s
    else
      CellLtTotal(c, s[0]);
      var t := InsertLevel(c, s[1..]);
      assert forall x :: x in s[1..] ==> CellLt(s[0], x);
      [s[0]] + t
  }

  /** The sorted distinct non-missing values of a column: the group keys of a
      `groupby` and the categories `get_dummies` builds indicators for. */
  function Levels(cells: seq<Cell>): (r: seq<Cell>)
    ensures StrictlySorted(r)
    ensures forall x :: x in r <==> x in cells && x != Missing
  {
    if |cells| == 0 then []
    else
      var rest := Levels(cells[..|cells| - 1]);
      assert cells == cells[..|cells| - 1] + [cells[|cells| - 1]];
      if cells[|cells| - 1] == Missing then rest
      else InsertLevel(cells[|cells| - 1], rest)
  }

  /** The position of the first cell equal to `x`, or `|cells|` when no
      cell is. */
  function FirstAt(cells: seq<Cell>, x: Cell): (k: nat)
    ensures k <= |cells| && (k < |cells| <==> x in cells)
    ensures k < |cells| ==> cells[k] == x
    ensures forall j :: 0 <= j < k ==> cells[j] != x
  {
    if |cells| == 0 || cells[0] == x then 0
    else
      var k := FirstAt(cells[1..], x);
      assert forall j :: 1 <= j <= k ==> cells[j] == cells[1..][j - 1];
      1 + k
  }

  /** A cell appended after the others leaves every earlier first
      occurrence where it was. */
  lemma FirstAtExtend(cells: seq<Cell>, c: Cell, x: Cell)
    requires x in cells
    ensures FirstAt(cells + [c], x) == FirstAt(cells, x)
  {
    var k := FirstAt(cells, x);
    assert (cells + [c])[k] == x;
    forall j | 0 <= j < k ensures (cells + [c])[j] != x {
      assert (cells + [c])[j] == cells[j];
    }
  }

  /** The distinct non-missing values in order of first appearance, as
      `dropna().unique()` returns them. */
  function Unique(cells: seq<Cell>): (r: seq<Cell>)
    ensures Distinct(r)
    ensures forall x :: x in r <==> x in cells && x != Missing
    ensures forall i, j :: 0 <= i < j < |r| ==> FirstAt(cells, r[i]) < FirstAt(cells, r[j])
  {
    if |cells| == 0 then []
    else
      var pre := cells[..|cells| - 1];
      var rest := Unique(pre);
      var last := cells[|cells| - 1];
      assert cells == pre + [last];
      forall x | x in rest ensures FirstAt(cells, x) == FirstAt(pre, x) < |pre| {
        FirstAtExtend(pre, last, x);
      }
      if last == Missing || last in rest then rest
      else
        assert FirstAt(cells, last) == |pre|;
        rest + [last]
  }
}

=== FILE: eda.dfy ===
/** `ExploratoryDataAnalysis` (scripts/eda.py): the portfolio loss ratio, loss
    ratios per segment, and the bivariate summaries (monthly totals, claim
    severity per vehicle make, premium/claim rank correlation in the busiest
    postal codes). pandas' Spearman correlation is received as a parameter. */
module Eda {
  import opened Wrappers
  import opened Seqs
  import opened Cells
  import opened Frames
  import opened Sorting

  const Make := Col("make")

  /** `nlargest(5)`: how many postal codes the correlation pass looks at. */
  const TopZips := 5

  /** The group test of `groupby`: a row belongs to group `k` when its key equals `k`. */
  function Is(k: Cell): Cell -> bool {
    c => c == k
  }

  // ---------------------------------------------------------------------------
  // Grouped sums

  /** Reference definition: the sum of `values` over the rows whose key is
      `k`, NaN values skipped. */
  function SumWhere(values: seq<Cell>, keys: seq<Cell>, k: Cell): real
    requires |values| == |keys|
  {
    if |keys| == 0 then 0.0
    else
      var n := |keys| - 1;
      SumWhere(values[..n], keys[..n], k) + (if keys[n] == k && values[n].Num? then values[n].x else 0.0)
  }

  /** Reference definition: the sum of `values` over the rows whose key is
      known, the rows `groupby` assigns to some group. */
  function KnownTotal(values: seq<Cell>, keys: seq<Cell>): real
    requires |values| == |keys|
  {
    if |keys| == 0 then 0.0
    else
      var n := |keys| - 1;
      KnownTotal(values[..n], keys[..n]) + (if keys[n] != Missing && values[n].Num? then values[n].x else 0.0)
  }

  lemma PositionsStep(keys: seq<Cell>, k: Cell)
    requires |keys| > 0
    ensures var n := |keys| - 1;
      Positions(keys, Is(k)) == if keys[n] == k then Positions(keys[..n], Is(k)) + [n] else Positions(keys[..n], Is(k))
  {
  }

  lemma PickPrefix(values: seq<Cell>, ids: seq<nat>, n: nat)
    requires n <= |values| && InRange(ids, n)
    ensures Pick(values, ids) == Pick(values[..n], ids)
  {
  }

  lemma PickAppend(values: seq<Cell>, ids: seq<nat>, n: nat)
    requires n < |values| && InRange(ids, n)
    ensures Pick(values, ids + [n]) == Pick(values[..n], ids) + [values[n]]
  {
  }

  lemma TotalAppend(cells: seq<Cell>, c: Cell)
    ensures Total(cells + [c]) == Total(cells) + (if c.Num? then c.x else 0.0)
  {
    assert (cells + [c])[..|cells|] == cells;
  }

  /** One row more: the group's sum grows by the last value exactly when the
      last key is `k`. */
  lemma GroupSumStep(values: seq<Cell>, keys: seq<Cell>, k: Cell, ids: seq<nat>, all: seq<nat>)
    requires |values| == |keys| > 0
    requires InRange(ids, |keys| - 1)
    requires Total(Pick(values[..|keys| - 1], ids)) == SumWhere(values[..|keys| - 1], keys[..|keys| - 1], k)
    requires all == if keys[|keys| - 1] == k then ids + [|keys| - 1] else ids
    ensures Total(Pick(values, all)) == SumWhere(values, keys, k)
  {
    var n := |keys| - 1;
    if keys[n] == k {
      PickAppend(values, ids, n);
      TotalAppend(Pick(values[..n], ids), values[n]);
    } else {
      PickPrefix(values, ids, n);
    }
  }

  /** Selecting a group's rows and summing them is the reference sum. */
  lemma {:induction false} GroupSum(values: seq<Cell>, keys: seq<Cell>, k: Cell)
    requires |values| == |keys|
    ensures Total(Pick(values, Positions(keys, Is(k)))) == SumWhere(values, keys, k)
  {
    if |keys| > 0 {
      var n := |keys| - 1;
      GroupSum(values[..n], keys[..n], k);
      PositionsStep(keys, k);
      GroupSumStep(values, keys, k, Positions(keys[..n], Is(k)), Positions(keys, Is(k)));
    }
  }

  /** One row of `groupby(key).agg(TotalPremium=sum, TotalClaims=sum)` with
      `LossRatio = TotalClaims / TotalPremium` added; a zero premium makes the
      ratio inf or NaN, here `None`. */
  datatype Totals = Totals(key: Cell, premium: real, claims: real, lossRatio: Option<real>)

  function KeysOf(t: seq<Totals>): (r: seq<Cell>)
    ensures |r| == |t| && forall j :: 0 <= j < |t| ==> r[j] == t[j].key
  {
    seq(|t|, j requires 0 <= j < |t| => t[j].key)
  }

  /** `t` is the grouped summary of the rows: one row per known key, keys in
      sorted order, each with its group's premium and claim sums and their
      ratio. */
  predicate Summarises(t: seq<Totals>, premiums: seq<Cell>, claims: seq<Cell>, keys: seq<Cell>)
    requires |premiums| == |keys| && |claims| == |keys|
  {
    && KeysOf(t) == Levels(keys)
    && forall j :: 0 <= j < |t| ==>
         && t[j].premium == SumWhere(premiums, keys, t[j].key)
         && t[j].claims == SumWhere(claims, keys, t[j].key)
         && t[j].lossRatio == Ratio(t[j].claims, t[j].premium)
  }

  /** The aggregate of one group: its rows selected, then summed. */
  function Group(premiums: seq<Cell>, claims: seq<Cell>, keys: seq<Cell>, k: Cell): (t: Totals)
    requires |premiums| == |keys| && |claims| == |keys|
    ensures t.key == k
    ensures t.premium == SumWhere(premiums, keys, k) && t.claims == SumWhere(claims, keys, k)
    ensures t.lossRatio == Ratio(t.claims, t.premium)
  {
    var rows := Positions(keys, Is(k));
    GroupSum(premiums, keys, k);
    GroupSum(claims, keys, k);
    var premium := Total(Pick(premiums, rows));
    var claimed := Total(Pick(claims, rows));
    Totals(k, premium, claimed, Ratio(claimed, premium))
  }

  /** `groupby(key).agg(...)` followed by the loss ratio column. */
  function GroupTotals(premiums: seq<Cell>, claims: seq<Cell>, keys: seq<Cell>): (t: seq<Totals>)
    requires |premiums| == |keys| && |claims| == |keys|
    ensures Summarises(t, premiums, claims, keys)
  {
    var levels := Levels(keys);
    var t := seq(|levels|, j requires 0 <= j < |levels| => Group(premiums, claims, keys, levels[j]));
    assert KeysOf(t) == levels;
    t
  }

  // ---------------------------------------------------------------------------
  // The groups partition the rows with a known key

  function SumIn(values: seq<Cell>, keys: seq<Cell>, ls: seq<Cell>): real
    requires |values| == |keys|
  {
    if |keys| == 0 then 0.0
    else
      var n := |keys| - 1;
      SumIn(values[..n], keys[..n], ls) + (if keys[n] in ls && values[n].Num? then values[n].x else 0.0)
  }

  function SumLevels(values: seq<Cell>, keys: seq<Cell>, ls: seq<Cell>): real
    requires |values| == |keys|
  {
    if |ls| == 0 then 0.0
    else SumLevels(values, keys, ls[..|ls| - 1]) + SumWhere(values, keys, ls[|ls| - 1])
  }

  lemma {:induction false} SumLevelsOfNothing(values: seq<Cell>, keys: seq<Cell>, ls: seq<Cell>)
    requires |values| == |keys| == 0
    ensures SumLevels(values, keys, ls) == 0.0
  {
    if |ls| > 0 {
      SumLevelsOfNothing(values, keys, ls[..|ls| - 1]);
    }
  }

  /** Adding a row adds its value to exactly one of a list of distinct groups. */
  lemma {:induction false} SumLevelsStep(values: seq<Cell>, keys: seq<Cell>, ls: seq<Cell>)
    requires |values| == |keys| > 0 && Distinct(ls)
    ensures var n := |keys| - 1;
      SumLevels(values, keys, ls) ==
        SumLevels(values[..n], keys[..n], ls) + (if keys[n] in ls && values[n].Num? then values[n].x else 0.0)
  {
    if |ls| > 0 {
      var m := |ls| - 1;
      SumLevelsStep(values, keys, ls[..m]);
      assert ls == ls[..m] + [ls[m]];
      forall i | 0 <= i < m ensures ls[i] != ls[m] { }
      assert ls[m] !in ls[..m];
    }
  }

  lemma {:induction false} GroupsPartition(values: seq<Cell>, keys: seq<Cell>, ls: seq<Cell>)
    requires |values| == |keys| && Distinct(ls)
    ensures SumLevels(values, keys, ls) == SumIn(values, keys, ls)
  {
    if |keys| == 0 {
      SumLevelsOfNothing(values, keys, ls);
    } else {
      var n := |keys| - 1;
      SumLevelsStep(values, keys, ls);
      GroupsPartition(values[..n], keys[..n], ls);
    }
  }

  lemma {:induction false} SumInKnown(values: seq<Cell>, keys: seq<Cell>, ls: seq<Cell>)
    requires |values| == |keys|
    requires forall i :: 0 <= i < |keys| ==> (keys[i] in ls <==> keys[i] != Missing)
    ensures SumIn(values, keys, ls) == KnownTotal(values, keys)
  {
    if |keys| > 0 {
      var n := |keys| - 1;
      SumInKnown(values[..n], keys[..n], ls);
    }
  }

  /** With no missing key every row is known. */
  lemma {:induction false} KnownTotalOfComplete(values: seq<Cell>, keys: seq<Cell>)
    requires |values| == |keys| && Missing !in keys
    ensures KnownTotal(values, keys) == Total(values)
  {
    if |keys| > 0 {
      var n := |keys| - 1;
      assert keys[n] in keys;
      KnownTotalOfComplete(values[..n], keys[..n]);
    }
  }

  function PremiumSum(t: seq<Totals>): real {
    if |t| == 0 then 0.0 else PremiumSum(t[..|t| - 1]) + t[|t| - 1].premium
  }

  function ClaimSum(t: seq<Totals>): real {
    if |t| == 0 then 0.0 else ClaimSum(t[..|t| - 1]) + t[|t| - 1].claims
  }

  lemma {:induction false} TableSums(t: seq<Totals>, premiums: seq<Cell>, claims: seq<Cell>, keys: seq<Cell>)
    requires |premiums| == |keys| && |claims| == |keys|
    requires forall j :: 0 <= j < |t| ==>
      t[j].premium == SumWhere(premiums, keys, t[j].key) && t[j].claims == SumWhere(claims, keys, t[j].key)
    ensures PremiumSum(t) == SumLevels(premiums, keys, KeysOf(t))
    ensures ClaimSum(t) == SumLevels(claims, keys, KeysOf(t))
  {
    if |t| > 0 {
      var m := |t| - 1;
      TableSums(t[..m], premiums, claims, keys);
      assert KeysOf(t)[..m] == KeysOf(t[..m]);
    }
  }

  /** The groups split the rows with a known key: the segment premiums and
      claims add up to the premium and claims over those rows, and to the
      column totals when the key column has no missing value. */
  lemma GroupsAddUp(t: seq<Totals>, premiums: seq<Cell>, claims: seq<Cell>, keys: seq<Cell>)
    requires |premiums| == |keys| && |claims| == |keys|
    requires Summarises(t, premiums, claims, keys)
    ensures PremiumSum(t) == KnownTotal(premiums, keys)
    ensures ClaimSum(t) == KnownTotal(claims, keys)
    ensures Missing !in keys ==> PremiumSum(t) == Total(premiums) && ClaimSum(t) == Total(claims)
  {
    var ls := Levels(keys);
    StrictlySortedIsDistinct(ls);
    TableSums(t, premiums, claims, keys);
    GroupsPartition(premiums, keys, ls);
    GroupsPartition(claims, keys, ls);
    SumInKnown(premiums, keys, ls);
    SumInKnown(claims, keys, ls);
    if Missing !in keys {
      KnownTotalOfComplete(premiums, keys);
      KnownTotalOfComplete(claims, keys);
    }
  }

  // ---------------------------------------------------------------------------
  // calculate_loss_ratios

  /** The overall ratio and one grouped table per segment column. */
  datatype LossRatios = LossRatios(overall: Option<real>, segments: map<string, seq<Totals>>)

  /** `calculate_loss_ratios(segment_cols)`: the portfolio loss ratio, then a
      grouped table for each requested column the frame has; requested
      columns it lacks are skipped. */
  function CalculateLossRatios(f: Frame, segmentCols: seq<string>): (r: Result<LossRatios>)
    requires Valid(f)
    ensures r.Success? <==> Has(f, TotalClaims) && Has(f, TotalPremium)
    ensures !Has(f, TotalClaims) ==> r == Failure(KeyError("TotalClaims"))
    ensures Has(f, TotalClaims) && !Has(f, TotalPremium) ==> r == Failure(KeyError("TotalPremium"))
    ensures r.Success? ==>
      var premiums := Column(f, TotalPremium);
      var claims := Column(f, TotalClaims);
      && r.value.overall == Ratio(Total(claims), Total(premiums))
      && (r.value.overall.None? <==> Total(premiums) == 0.0)
      && r.value.segments.Keys == (set c | c in segmentCols && Has(f, Col(c)))
      && forall c :: c in r.value.segments ==> Summarises(r.value.segments[c], premiums, claims, Column(f, Col(c)))
  {
    if !Has(f, TotalClaims) then Failure(KeyError("TotalClaims"))
    else if !Has(f, TotalPremium) then Failure(KeyError("TotalPremium"))
    else
      var premiums := Column(f, TotalPremium);
      var claims := Column(f, TotalClaims);
      var segments := map c | c in segmentCols && Has(f, Col(c)) :: GroupTotals(premiums, claims, Column(f, Col(c)));
      Success(LossRatios(Ratio(Total(claims), Total(premiums)), segments))
  }

  /** When a segment column has no missing value, its segments split the whole
      portfolio: their premiums and claims add up to the overall sums. */
  lemma SegmentsCoverPortfolio(f: Frame, segmentCols: seq<string>, c: string)
    requires Valid(f) && CalculateLossRatios(f, segmentCols).Success?
    requires c in segmentCols && Has(f, Col(c)) && Missing !in Column(f, Col(c))
    ensures var t := CalculateLossRatios(f, segmentCols).value.segments[c];
      && PremiumSum(t) == Total(Column(f, TotalPremium))
      && ClaimSum(t) == Total(Column(f, TotalClaims))
  {
    var t := CalculateLossRatios(f, segmentCols).value.segments[c];
    GroupsAddUp(t, Column(f, TotalPremium), Column(f, TotalClaims), Column(f, Col(c)));
  }

  // ---------------------------------------------------------------------------
  // bivariate_analysis: claim severity per make

  /** The make of each row with a positive claim, missing elsewhere: the rows
      `TotalClaims > 0` drops belong to no group. */
  function ClaimedMakes(claims: seq<Cell>, makes: seq<Cell>): (r: seq<Cell>)
    requires |claims| == |makes|
    ensures |r| == |makes|
    ensures forall i :: 0 <= i < |r| ==> r[i] == if Positive(claims[i]) then makes[i] else Missing
  {
    seq(|makes|, i requires 0 <= i < |makes| => if Positive(claims[i]) then makes[i] else Missing)
  }

  /** Reference definition: the number of rows of make `m` with a positive claim. */
  function ClaimCount(claims: seq<Cell>, makes: seq<Cell>, m: Cell): nat
    requires |claims| == |makes|
  {
    if |makes| == 0 then 0
    else
      var n := |makes| - 1;
      ClaimCount(claims[..n], makes[..n], m) + (if makes[n] == m && Positive(claims[n]) then 1 else 0)
  }

  /** Reference definition: the positive claims of make `m`, summed. */
  function ClaimAmount(claims: seq<Cell>, makes: seq<Cell>, m: Cell): real
    requires |claims| == |makes|
  {
    if |makes| == 0 then 0.0
    else
      var n := |makes| - 1;
      ClaimAmount(claims[..n], makes[..n], m) + (if makes[n] == m && Positive(claims[n]) then claims[n].x else 0.0)
  }

  /** The group of a known make among the claimed rows holds exactly that
      make's positive claims. */
  lemma {:induction false} ClaimedGroup(claims: seq<Cell>, makes: seq<Cell>, m: Cell)
    requires |claims| == |makes| && m != Missing
    ensures |Positions(ClaimedMakes(claims, makes), Is(m))| == ClaimCount(claims, makes, m)
    ensures SumWhere(claims, ClaimedMakes(claims, makes), m) == ClaimAmount(claims, makes, m)
  {
    if |makes| > 0 {
      var n := |makes| - 1;
      var keyed := ClaimedMakes(claims, makes);
      assert keyed[..n] == ClaimedMakes(claims[..n], makes[..n]);
      ClaimedGroup(claims[..n], makes[..n], m);
    }
  }

  /** The claimed rows of a make that has one: all positive, counted and
      summed by the reference definitions. */
  lemma ClaimedAmounts(claims: seq<Cell>, makes: seq<Cell>, m: Cell)
    requires |claims| == |makes| && m != Missing && m in ClaimedMakes(claims, makes)
    ensures var amounts := Pick(claims, Positions(ClaimedMakes(claims, makes), Is(m)));
      && Present(amounts) == ClaimCount(claims, makes, m) > 0
      && Total(amounts) == ClaimAmount(claims, makes, m) > 0.0
  {
    var keyed := ClaimedMakes(claims, makes);
    var ids := Positions(keyed, Is(m));
    var amounts := Pick(claims, ids);
    assert forall j :: 0 <= j < |amounts| ==> Positive(amounts[j]);
    assert ids != [] by {
      var i :| 0 <= i < |keyed| && keyed[i] == m;
      assert i in ids;
    }
    AllPositiveTotals(amounts);
    GroupSum(claims, keyed, m);
    ClaimedGroup(claims, makes, m);
  }

  lemma PositiveQuotient(a: real, b: real)
    requires a > 0.0 && b > 0.0
    ensures a / b > 0.0
  {
  }

  /** One make's average claim over its rows with a positive claim. */
  function Severity(claims: seq<Cell>, makes: seq<Cell>, m: Cell): (s: real)
    requires |claims| == |makes| && m != Missing && m in ClaimedMakes(claims, makes)
    ensures ClaimCount(claims, makes, m) > 0
    ensures s == ClaimAmount(claims, makes, m) / ClaimCount(claims, makes, m) as real
    ensures s > 0.0
  {
    var amounts := Pick(claims, Positions(ClaimedMakes(claims, makes), Is(m)));
    ClaimedAmounts(claims, makes, m);
    PositiveQuotient(ClaimAmount(claims, makes, m), ClaimCount(claims, makes, m) as real);
    Mean(amounts).value
  }

  /** A make without a positive claim has an empty group among the claimed rows. */
  lemma UnclaimedMake(claims: seq<Cell>, makes: seq<Cell>, m: Cell)
    requires |claims| == |makes| && m != Missing && m !in ClaimedMakes(claims, makes)
    ensures ClaimCount(claims, makes, m) == 0
  {
    var keyed := ClaimedMakes(claims, makes);
    var ids := Positions(keyed, Is(m));
    ClaimedGroup(claims, makes, m);
    forall j | 0 <= j < |ids| ensures keyed[ids[j]] == m {
      assert ids[j] in ids;
    }
    assert |ids| == 0;
  }

  /** The `mean()` of one make's group: the mean of its positive claims, or
      NaN (`None`) when it has none. */
  function SeverityOrNaN(claims: seq<Cell>, makes: seq<Cell>, m: Cell): (s: Option<real>)
    requires |claims| == |makes| && m != Missing
    ensures s.None? <==> ClaimCount(claims, makes, m) == 0
    ensures m in ClaimedMakes(claims, makes) ==> s.Some?
    ensures s.Some? ==> s.value > 0.0 && s.value == ClaimAmount(claims, makes, m) / ClaimCount(claims, makes, m) as real
  {
    if m in ClaimedMakes(claims, makes) then Some(Severity(claims, makes, m))
    else
      UnclaimedMake(claims, makes, m);
      None
  }

  /** One row of the make severity series. */
  datatype MakeSeverity = MakeSeverity(make: Cell, severity: Option<real>)

  /** The sort key: `sort_values` puts NaN last, and every mean of positive
      claims is above -1. */
  function SeverityOf(e: MakeSeverity): real {
    if e.severity.Some? then e.severity.value else -1.0
  }

  function MakesOf(r: seq<MakeSeverity>): (ms: seq<Cell>)
    ensures |ms| == |r| && forall j :: 0 <= j < |r| ==> ms[j] == r[j].make
  {
    seq(|r|, j requires 0 <= j < |r| => r[j].make)
  }

  /** `e` is the entry of a known make: the mean of that make's positive
      claims, or NaN when it has none. */
  predicate Describes(claims: seq<Cell>, makes: seq<Cell>, e: MakeSeverity)
    requires |claims| == |makes|
  {
    && e.make != Missing
    && (ClaimCount(claims, makes, e.make) == 0 ==> e.severity.None?)
    && (ClaimCount(claims, makes, e.make) > 0 ==>
          && e.severity == Some(ClaimAmount(claims, makes, e.make) / ClaimCount(claims, makes, e.make) as real)
          && e.severity.value > 0.0)
  }

  /** The groups of `groupby('make')` on the claimed rows: every category
      when `make` is categorical (`observed=False`), otherwise the makes that
      occur among the claimed rows. */
  function MakeGroups(claims: seq<Cell>, makes: seq<Cell>, categorical: bool): (g: seq<Cell>)
    requires |claims| == |makes|
    ensures StrictlySorted(g)
    ensures forall m :: m in g <==> m != Missing && (if categorical then m in makes else m in ClaimedMakes(claims, makes))
  {
    if categorical then Levels(makes) else Levels(ClaimedMakes(claims, makes))
  }

  /** One entry per group, in level order. */
  function SeverityTable(claims: seq<Cell>, makes: seq<Cell>, categorical: bool): (t: seq<MakeSeverity>)
    requires |claims| == |makes|
    ensures MakesOf(t) == MakeGroups(claims, makes, categorical)
    ensures forall j :: 0 <= j < |t| ==> Describes(claims, makes, t[j])
    ensures !categorical ==> forall j :: 0 <= j < |t| ==> t[j].severity.Some?
  {
    var groups := MakeGroups(claims, makes, categorical);
    assert forall j :: 0 <= j < |groups| ==> groups[j] in groups;
    var t := seq(|groups|, j requires 0 <= j < |groups| => MakeSeverity(groups[j], SeverityOrNaN(claims, makes, groups[j])));
    assert MakesOf(t) == groups;
    t
  }

  /** `data[TotalClaims > 0].groupby('make')['TotalClaims'].mean()` sorted
      largest first with NaN last: each entry the mean of one make's positive
      claims, NaN only for a category without one. */
  function MakeSeverities(claims: seq<Cell>, makes: seq<Cell>, categorical: bool): (r: seq<MakeSeverity>)
    requires |claims| == |makes|
    ensures NonIncreasing(r, SeverityOf)
    ensures multiset(r) == multiset(SeverityTable(claims, makes, categorical))
    ensures forall e :: e in r ==> e.make in MakeGroups(claims, makes, categorical) && Describes(claims, makes, e)
    ensures forall i, j :: 0 <= i < j < |r| ==> r[i].make != r[j].make
    ensures !categorical ==> forall e :: e in r ==> e.severity.Some?
  {
    var t := SeverityTable(claims, makes, categorical);
    var r := SortDesc(t, SeverityOf);
    SortedMembers(t, SeverityOf);
    TableIsDistinct(claims, makes, categorical);
    PermutationKeepsDistinct(t, r);
    MakesDistinct(claims, makes, r);
    r
  }

  /** The table has no entry twice: its makes are strictly sorted. */
  lemma TableIsDistinct(claims: seq<Cell>, makes: seq<Cell>, categorical: bool)
    requires |claims| == |makes|
    ensures Distinct(SeverityTable(claims, makes, categorical))
  {
    var t := SeverityTable(claims, makes, categorical);
    StrictlySortedIsDistinct(MakesOf(t));
    forall i, j | 0 <= i < j < |t| ensures t[i] != t[j] {
      assert MakesOf(t)[i] != MakesOf(t)[j];
    }
  }

  /** Distinct entries that describe their makes name distinct makes, since
      an entry is determined by its make. */
  lemma MakesDistinct(claims: seq<Cell>, makes: seq<Cell>, r: seq<MakeSeverity>)
    requires |claims| == |makes| && Distinct(r)
    requires forall e :: e in r ==> Describes(claims, makes, e)
    ensures forall i, j :: 0 <= i < j < |r| ==> r[i].make != r[j].make
  {
    forall i, j | 0 <= i < j < |r| ensures r[i].make != r[j].make {
      assert r[i] != r[j];
      assert r[i] in r && r[j] in r;
    }
  }

  /** Every group has an entry. */
  lemma GroupListed(claims: seq<Cell>, makes: seq<Cell>, categorical: bool, m: Cell)
    requires |claims| == |makes| && m in MakeGroups(claims, makes, categorical)
    ensures exists e :: e in MakeSeverities(claims, makes, categorical) && e.make == m
  {
    var t := SeverityTable(claims, makes, categorical);
    var groups := MakeGroups(claims, makes, categorical);
    var j :| 0 <= j < |groups| && groups[j] == m;
    assert MakesOf(t)[j] == t[j].make;
    SortedMembers(t, SeverityOf);
    assert t[j] in MakeSeverities(claims, makes, categorical);
  }

  /** Every make with a positive claim has an entry, and so does every
      category of a categorical `make`. */
  lemma EveryClaimedMakeListed(claims: seq<Cell>, makes: seq<Cell>, categorical: bool, i: nat)
    requires |claims| == |makes| && i < |makes| && makes[i] != Missing
    requires categorical || Positive(claims[i])
    ensures exists e :: e in MakeSeverities(claims, makes, categorical) && e.make == makes[i]
  {
    var keyed := ClaimedMakes(claims, makes);
    assert makes[i] in makes;
    if !categorical {
      assert keyed[i] == makes[i] && keyed[i] in keyed;
    }
    assert makes[i] in MakeGroups(claims, makes, categorical);
    GroupListed(claims, makes, categorical, makes[i]);
  }

  /** NaN entries come last: after an entry without a severity there is no
      entry with one. */
  lemma NaNLast(claims: seq<Cell>, makes: seq<Cell>, categorical: bool, i: nat, j: nat)
    requires |claims| == |makes|
    requires var r := MakeSeverities(claims, makes, categorical); i < j < |r| && r[i].severity.None?
    ensures MakeSeverities(claims, makes, categorical)[j].severity.None?
  {
    var r := MakeSeverities(claims, makes, categorical);
    assert r[j] in r;
  }

  // ---------------------------------------------------------------------------
  // bivariate_analysis: postal codes

  /** One entry of `value_counts()`. */
  datatype ZipCount = ZipCount(zip: Cell, count: nat)

  function CountOf(e: ZipCount): real {
    e.count as real
  }

  function ZipsOf(r: seq<ZipCount>): (zs: seq<Cell>)
    ensures |zs| == |r| && forall j :: 0 <= j < |r| ==> zs[j] == r[j].zip
  {
    seq(|r|, j requires 0 <= j < |r| => r[j].zip)
  }

  /** Reference definition: the number of rows holding `x`. */
  function Occurrences(cells: seq<Cell>, x: Cell): nat {
    if |cells| == 0 then 0
    else Occurrences(cells[..|cells| - 1], x) + (if cells[|cells| - 1] == x then 1 else 0)
  }

  /** A group has one row per occurrence of its key. */
  lemma {:induction false} GroupSize(cells: seq<Cell>, x: Cell)
    ensures |Positions(cells, Is(x))| == Occurrences(cells, x)
  {
    if |cells| > 0 {
      GroupSize(cells[..|cells| - 1], x);
    }
  }

  /** `e` counts the rows of a known value. */
  predicate Tallies(cells: seq<Cell>, e: ZipCount) {
    e.zip in cells && e.zip != Missing && e.count == Occurrences(cells, e.zip)
  }

  /** The size of each group, in level order. */
  function Tally(cells: seq<Cell>): (t: seq<ZipCount>)
    ensures ZipsOf(t) == Levels(cells)
    ensures forall j :: 0 <= j < |t| ==> Tallies(cells, t[j])
  {
    var levels := Levels(cells);
    var t := seq(|levels|, j requires 0 <= j < |levels| => ZipCount(levels[j], |Positions(cells, Is(levels[j]))|));
    assert ZipsOf(t) == levels;
    assert forall j :: 0 <= j < |t| ==> Tallies(cells, t[j]) by {
      forall j | 0 <= j < |t| ensures Tallies(cells, t[j]) {
        GroupSize(cells, levels[j]);
      }
    }
    t
  }

  /** `value_counts()`: every known value with the number of rows holding it,
      most frequent first. */
  function ValueCounts(cells: seq<Cell>): (r: seq<ZipCount>)
    ensures NonIncreasing(r, CountOf)
    ensures multiset(r) == multiset(Tally(cells))
    ensures forall e :: e in r ==> Tallies(cells, e)
    ensures forall i, j :: 0 <= i < j < |r| ==> r[i].zip != r[j].zip
  {
    var t := Tally(cells);
    var r := SortDesc(t, CountOf);
    SortedMembers(t, CountOf);
    TallyIsDistinct(cells);
    PermutationKeepsDistinct(t, r);
    ZipsDistinct(cells, r);
    r
  }

  /** The tally has no entry twice: its codes are strictly sorted. */
  lemma TallyIsDistinct(cells: seq<Cell>)
    ensures Distinct(Tally(cells))
  {
    var t := Tally(cells);
    StrictlySortedIsDistinct(ZipsOf(t));
    forall i, j | 0 <= i < j < |t| ensures t[i] != t[j] {
      assert ZipsOf(t)[i] != ZipsOf(t)[j];
    }
  }

  /** Distinct counts of the same cells name distinct codes, since a count is
      determined by its code. */
  lemma ZipsDistinct(cells: seq<Cell>, r: seq<ZipCount>)
    requires Distinct(r)
    requires forall e :: e in r ==> Tallies(cells, e)
    ensures forall i, j :: 0 <= i < j < |r| ==> r[i].zip != r[j].zip
  {
    forall i, j | 0 <= i < j < |r| ensures r[i].zip != r[j].zip {
      assert r[i] != r[j];
      assert r[i] in r && r[j] in r;
    }
  }

  /** Every known value is counted. */
  lemma EveryValueCounted(cells: seq<Cell>, x: Cell)
    requires x in cells && x != Missing
    ensures exists e :: e in ValueCounts(cells) && e.zip == x
  {
    var t := Tally(cells);
    var levels := Levels(cells);
    assert x in levels;
    var j :| 0 <= j < |levels| && levels[j] == x;
    assert ZipsOf(t)[j] == t[j].zip;
    SortedMembers(t, CountOf);
    assert t[j] in ValueCounts(cells);
  }

  /** `value_counts().nlargest(5)`. */
  function TopZipCodes(cells: seq<Cell>): seq<ZipCount> {
    Head(ValueCounts(cells), TopZips)
  }

  /** The selected postal codes are at most five known values, and no value
      left out occurs on more rows than any selected one. */
  lemma TopZipsAreMostFrequent(cells: seq<Cell>, e: ZipCount, x: Cell)
    requires e in TopZipCodes(cells) && x in cells && x != Missing && x !in ZipsOf(TopZipCodes(cells))
    ensures |TopZipCodes(cells)| <= TopZips
    ensures Tallies(cells, e)
    ensures Occurrences(cells, x) <= e.count
  {
    var all := ValueCounts(cells);
    var top := TopZipCodes(cells);
    EveryValueCounted(cells, x);
    var d :| d in all && d.zip == x;
    forall q | 0 <= q < |top| ensures top[q] != d {
      assert ZipsOf(top)[q] == top[q].zip;
    }
    assert top == all[..|top|];
    PrefixOutranks(all, CountOf, |top|, e, d);
  }

  /** The monthly premium and claim sums of the rows with postal code `z`. */
  function ZipMonthly(premiums: seq<Cell>, claims: seq<Cell>, months: seq<Cell>, zips: seq<Cell>, z: Cell): (m: seq<Totals>)
    requires |premiums| == |zips| && |claims| == |zips| && |months| == |zips|
    ensures var ids := Positions(zips, Is(z));
      Summarises(m, Pick(premiums, ids), Pick(claims, ids), Pick(months, ids))
  {
    var ids := Positions(zips, Is(z));
    GroupTotals(Pick(premiums, ids), Pick(claims, ids), Pick(months, ids))
  }

  function PremiumsOf(t: seq<Totals>): (r: seq<real>)
    ensures |r| == |t| && forall j :: 0 <= j < |t| ==> r[j] == t[j].premium
  {
    seq(|t|, j requires 0 <= j < |t| => t[j].premium)
  }

  function ClaimsOf(t: seq<Totals>): (r: seq<real>)
    ensures |r| == |t| && forall j :: 0 <= j < |t| ==> r[j] == t[j].claims
  {
    seq(|t|, j requires 0 <= j < |t| => t[j].claims)
  }

  /** `Series.corr(other, method='spearman')`; `None` stands for NaN. */
  type Spearman = (seq<real>, seq<real>) -> Option<real>

  /** One entry of the correlation series. */
  datatype ZipCorrelation = ZipCorrelation(zip: Cell, rho: Option<real>)

  function CorrelatedZips(r: seq<ZipCorrelation>): (zs: seq<Cell>)
    ensures |zs| == |r| && forall j :: 0 <= j < |r| ==> zs[j] == r[j].zip
  {
    seq(|r|, j requires 0 <= j < |r| => r[j].zip)
  }

  /** `e` holds the rank correlation of the monthly premiums and claims of
      its postal code, whose rows span more than one month. */
  predicate Correlated(spearman: Spearman, premiums: seq<Cell>, claims: seq<Cell>, months: seq<Cell>,
                       zips: seq<Cell>, e: ZipCorrelation)
    requires |premiums| == |zips| && |claims| == |zips| && |months| == |zips|
  {
    var m := ZipMonthly(premiums, claims, months, zips, e.zip);
    |m| > 1 && e.rho == spearman(PremiumsOf(m), ClaimsOf(m))
  }

  /** Whether a postal code's rows span more than one month, the condition
      under which it gets a correlation. */
  function SpansMonths(premiums: seq<Cell>, claims: seq<Cell>, months: seq<Cell>, zips: seq<Cell>): Cell -> bool {
    z => |premiums| == |zips| && |claims| == |zips| && |months| == |zips|
      && |ZipMonthly(premiums, claims, months, zips, z)| > 1
  }

  /** The selected postal codes are distinct. */
  lemma TopZipsDistinct(cells: seq<Cell>)
    ensures Distinct(ZipsOf(TopZipCodes(cells)))
  {
    var all := ValueCounts(cells);
    var top := TopZipCodes(cells);
    forall i, j | 0 <= i < j < |top| ensures ZipsOf(top)[i] != ZipsOf(top)[j] {
      assert top[i] == all[i] && top[j] == all[j];
    }
  }

  /** The loop over the selected postal codes: a code gets the rank
      correlation of its monthly premiums and claims exactly when its rows
      span more than one month. */
  function Correlations(spearman: Spearman, premiums: seq<Cell>, claims: seq<Cell>, months: seq<Cell>,
                        zips: seq<Cell>, top: seq<ZipCount>): (r: seq<ZipCorrelation>)
    requires |premiums| == |zips| && |claims| == |zips| && |months| == |zips|
    ensures forall e :: e in r ==> e.zip in ZipsOf(top) && Correlated(spearman, premiums, claims, months, zips, e)
    ensures forall j :: 0 <= j < |top| && |ZipMonthly(premiums, claims, months, zips, top[j].zip)| > 1 ==>
      top[j].zip in CorrelatedZips(r)
  {
    if |top| == 0 then []
    else
      var z := top[0].zip;
      var m := ZipMonthly(premiums, claims, months, zips, z);
      var rest := Correlations(spearman, premiums, claims, months, zips, top[1..]);
      assert ZipsOf(top) == [z] + ZipsOf(top[1..]);
      if |m| > 1 then
        var e := ZipCorrelation(z, spearman(PremiumsOf(m), ClaimsOf(m)));
        assert Correlated(spearman, premiums, claims, months, zips, e);
        var r := [e] + rest;
        assert CorrelatedZips(r) == [z] + CorrelatedZips(rest);
        r
      else rest
  }

  /** The correlated codes are the selected codes whose rows span more than
      one month, in selection order and as often as selected: the dict built
      over `top_zips` has one key per qualifying code. */
  lemma {:induction false} CorrelationsInOrder(spearman: Spearman, premiums: seq<Cell>, claims: seq<Cell>, months: seq<Cell>,
                                               zips: seq<Cell>, top: seq<ZipCount>)
    requires |premiums| == |zips| && |claims| == |zips| && |months| == |zips|
    ensures CorrelatedZips(Correlations(spearman, premiums, claims, months, zips, top))
      == Filter(ZipsOf(top), SpansMonths(premiums, claims, months, zips))
    ensures Distinct(ZipsOf(top)) ==> Distinct(CorrelatedZips(Correlations(spearman, premiums, claims, months, zips, top)))
  {
    var keep := SpansMonths(premiums, claims, months, zips);
    var r := Correlations(spearman, premiums, claims, months, zips, top);
    if |top| > 0 {
      var z := top[0].zip;
      var rest := Correlations(spearman, premiums, claims, months, zips, top[1..]);
      var head := if keep(z) then [z] else [];
      assert CorrelatedZips(r) == head + CorrelatedZips(rest) by {
        CorrelationsCons(spearman, premiums, claims, months, zips, top);
        assert keep(z) == (|ZipMonthly(premiums, claims, months, zips, z)| > 1);
      }
      CorrelationsInOrder(spearman, premiums, claims, months, zips, top[1..]);
      FilterCons(ZipsOf(top), keep);
      assert ZipsOf(top)[1..] == ZipsOf(top[1..]);
    }
  }

  /** One step of the loop: the first code is correlated exactly when its rows
      span more than one month. */
  lemma CorrelationsCons(spearman: Spearman, premiums: seq<Cell>, claims: seq<Cell>, months: seq<Cell>,
                         zips: seq<Cell>, top: seq<ZipCount>)
    requires |premiums| == |zips| && |claims| == |zips| && |months| == |zips| && |top| > 0
    ensures CorrelatedZips(Correlations(spearman, premiums, claims, months, zips, top))
      == (if |ZipMonthly(premiums, claims, months, zips, top[0].zip)| > 1 then [top[0].zip] else [])
         + CorrelatedZips(Correlations(spearman, premiums, claims, months, zips, top[1..]))
  {
    var r := Correlations(spearman, premiums, claims, months, zips, top);
    var rest := Correlations(spearman, premiums, claims, months, zips, top[1..]);
    if |ZipMonthly(premiums, claims, months, zips, top[0].zip)| > 1 {
      assert r == [r[0]] + rest && r[0].zip == top[0].zip;
      ZipsCons(r[0], rest);
    } else {
      assert r == rest;
    }
  }

  lemma ZipsCons(e: ZipCorrelation, rest: seq<ZipCorrelation>)
    ensures CorrelatedZips([e] + rest) == [e.zip] + CorrelatedZips(rest)
  {
    var a := CorrelatedZips([e] + rest);
    var b := [e.zip] + CorrelatedZips(rest);
    forall j | 0 <= j < |a| ensures a[j] == b[j] {
      if j > 0 {
        assert ([e] + rest)[j] == rest[j - 1];
      }
    }
  }

  /** Every selected code is correlated at most once. */
  lemma CorrelatedOnce(spearman: Spearman, premiums: seq<Cell>, claims: seq<Cell>, months: seq<Cell>, zips: seq<Cell>)
    requires |premiums| == |zips| && |claims| == |zips| && |months| == |zips|
    ensures Distinct(CorrelatedZips(Correlations(spearman, premiums, claims, months, zips, TopZipCodes(zips))))
  {
    TopZipsDistinct(zips);
    CorrelationsInOrder(spearman, premiums, claims, months, zips, TopZipCodes(zips));
  }

  // ---------------------------------------------------------------------------
  // bivariate_analysis

  /** The columns `bivariate_analysis` reads, in the order it first reads them. */
  const BivariateColumns := ["TransactionMonth", "TotalPremium", "TotalClaims", "make", "PostalCode"]

  datatype Bivariate = Bivariate(monthly: seq<Totals>, makeSeverity: seq<MakeSeverity>, zipCorrelations: seq<ZipCorrelation>)

  /** `bivariate_analysis()`: the monthly summary, the severity per make and
      the correlations in the five most frequent postal codes. */
  function BivariateAnalysis(f: Frame, spearman: Spearman): (r: Result<Bivariate>)
    requires Valid(f)
    ensures r.Success? <==> forall c :: c in BivariateColumns ==> Has(f, Col(c))
    ensures r.Failure? ==> exists j :: (0 <= j < |BivariateColumns| && r.error == KeyError(BivariateColumns[j])
      && !Has(f, Col(BivariateColumns[j])) && forall i :: 0 <= i < j ==> Has(f, Col(BivariateColumns[i])))
    ensures r.Success? ==>
      var premiums := Column(f, TotalPremium);
      var claims := Column(f, TotalClaims);
      var months := Column(f, TransactionMonth);
      var zips := Column(f, PostalCode);
      && Summarises(r.value.monthly, premiums, claims, months)
      && r.value.makeSeverity == MakeSeverities(claims, Column(f, Make), f.kinds[Make] == Categorical)
      && r.value.zipCorrelations == Correlations(spearman, premiums, claims, months, zips, TopZipCodes(zips))
  {
    var absent := FirstAbsent(f, BivariateColumns);
    if absent.Some? then Failure(KeyError(absent.value))
    else
      assert BivariateColumns[0] == "TransactionMonth" && BivariateColumns[1] == "TotalPremium";
      assert BivariateColumns[2] == "TotalClaims" && BivariateColumns[3] == "make" && BivariateColumns[4] == "PostalCode";
      var premiums := Column(f, TotalPremium);
      var claims := Column(f, TotalClaims);
      var months := Column(f, TransactionMonth);
      var zips := Column(f, PostalCode);
      Success(Bivariate(
        GroupTotals(premiums, claims, months),
        MakeSeverities(claims, Column(f, Make), f.kinds[Make] == Categorical),
        Correlations(spearman, premiums, claims, months, zips, TopZipCodes(zips))))
  }
}

=== FILE: features.dfy ===
/** `FeatureEngineering` (scripts/feature_engineering.py): the derived claim
    label and vehicle age, the one-hot encoding of text columns, and the
    frequency/severity datasets cut from a train/test partition.

    The partition itself comes from scikit-learn's `train_test_split`, whose
    shuffling and stratification are not modelled: the model receives the
    two lists of row labels it returns. */
module Features {
  import opened Wrappers
  import opened Seqs
  import opened Cells
  import opened Frames

  const HasClaim := Col("HasClaim")
  const RegistrationYear := Col("RegistrationYear")
  const VehicleAge := Col("VehicleAge")
  const VehicleIntroDate := Col("VehicleIntroDate")

  /** The reference year used when `TransactionMonth` is not a datetime column. */
  const FallbackYear := 2015

  /** The raw date columns dropped after the features are derived. */
  const DateColumns: set<Name> := {TransactionMonth, VehicleIntroDate}

  const ComparisonError := TypeError("'>' not supported between instances of 'str' and 'int'")
  const SubtractionError := TypeError("unsupported operand type(s) for -: 'int' and 'str'")

  // ---------------------------------------------------------------------------
  // Vehicle age

  /** `dt.year.max()`: the latest year among the timestamps, NaT skipped;
      `None` (NaN) when there is none. */
  function MaxYear(cells: seq<Cell>): (r: Option<int>)
    ensures r.None? <==> forall i :: 0 <= i < |cells| ==> !cells[i].Date?
    ensures r.Some? ==> forall i :: 0 <= i < |cells| && cells[i].Date? ==> cells[i].year <= r.value
    ensures r.Some? ==> exists i :: 0 <= i < |cells| && cells[i].Date? && cells[i].year == r.value
  {
    if |cells| == 0 then None
    else
      var n := |cells| - 1;
      var rest := MaxYear(cells[..n]);
      assert forall i :: 0 <= i < n ==> cells[..n][i] == cells[i];
      if !cells[n].Date? then rest
      else if rest.Some? && rest.value >= cells[n].year then rest
      else Some(cells[n].year)
  }

  /** The year vehicle ages are measured from: the latest transaction year
      when `TransactionMonth` is a datetime column, 2015 otherwise. */
  function ReferenceYear(f: Frame): (r: Option<int>)
    requires Valid(f)
    ensures !(Has(f, TransactionMonth) && f.kinds[TransactionMonth] == DateTime) ==> r == Some(FallbackYear)
    ensures Has(f, TransactionMonth) && f.kinds[TransactionMonth] == DateTime ==> r == MaxYear(Column(f, TransactionMonth))
  {
    if Has(f, TransactionMonth) && f.kinds[TransactionMonth] == DateTime then MaxYear(Column(f, TransactionMonth))
    else Some(FallbackYear)
  }

  /** `current_year - RegistrationYear` for one row; NaN on either side gives NaN. */
  function AgeOf(year: Option<int>, registered: Cell): Cell {
    if year.Some? && registered.Num? then Num(year.value as real - registered.x) else Missing
  }

  function Ages(year: Option<int>, registered: seq<Cell>): (r: seq<Cell>)
    ensures |r| == |registered| && forall i :: 0 <= i < |r| ==> r[i] == AgeOf(year, registered[i])
  {
    seq(|registered|, i requires 0 <= i < |registered| => AgeOf(year, registered[i]))
  }

  // ---------------------------------------------------------------------------
  // Feature creation before encoding

  /** One row after the label and the age are set and the date columns dropped. */
  function DerivedRow(row: Row, labelled: bool, aged: bool, year: Option<int>): Row
    requires labelled ==> TotalClaims in row
    requires aged ==> RegistrationYear in row
  {
    var r1 := if labelled then row[HasClaim := Occurrence(row[TotalClaims])] else row;
    var r2 := if aged then r1[VehicleAge := AgeOf(year, row[RegistrationYear])] else r1;
    r2 - DateColumns
  }

  /** The column types after the same steps: both new columns are numeric. */
  function DerivedKinds(kinds: map<Name, Kind>, labelled: bool, aged: bool): map<Name, Kind> {
    var k1 := if labelled then kinds[HasClaim := Numeric] else kinds;
    var k2 := if aged then k1[VehicleAge := Numeric] else k1;
    k2 - DateColumns
  }

  /** The feature-creation steps before encoding: `HasClaim` when `TotalClaims`
      exists, `VehicleAge` when `RegistrationYear` exists, then the date
      columns dropped (absent ones ignored). Comparing or subtracting a column
      that is not numeric raises `TypeError`. */
  function Derive(f: Frame): (r: Result<Frame>)
    requires Valid(f)
    ensures r.Success? <==>
      && (Has(f, TotalClaims) ==> f.kinds[TotalClaims] == Numeric)
      && (Has(f, RegistrationYear) ==> f.kinds[RegistrationYear] == Numeric)
    ensures Has(f, TotalClaims) && f.kinds[TotalClaims] != Numeric ==> r == Failure(ComparisonError)
    ensures r.Failure? ==> r.error.TypeError?
    ensures r.Success? ==>
      && Valid(r.value) && |r.value.rows| == |f.rows|
      && r.value.kinds == DerivedKinds(f.kinds, Has(f, TotalClaims), Has(f, RegistrationYear))
      && forall i :: 0 <= i < |f.rows| ==>
           r.value.rows[i] == DerivedRow(f.rows[i], Has(f, TotalClaims), Has(f, RegistrationYear), ReferenceYear(f))
  {
    if Has(f, TotalClaims) && f.kinds[TotalClaims] != Numeric then Failure(ComparisonError)
    else if Has(f, RegistrationYear) && f.kinds[RegistrationYear] != Numeric then Failure(SubtractionError)
    else
      var year := ReferenceYear(f);
      var f1 := if Has(f, TotalClaims) then WithColumn(f, HasClaim, Numeric, ClaimFlags(Column(f, TotalClaims))) else f;
      var f2 := if Has(f, RegistrationYear) then WithColumn(f1, VehicleAge, Numeric, Ages(year, Column(f, RegistrationYear))) else f1;
      Success(DropColumns(f2, DateColumns))
  }

  // ---------------------------------------------------------------------------
  // One-hot encoding

  /** Every column label is a plain header, as in a frame read from a file;
      the indicator labels encoding creates are then new. */
  predicate Plain(f: Frame) {
    forall n :: n in f.kinds ==> n.Col?
  }

  /** The columns `select_dtypes(include=['category', 'object'])` picks, in
      column order. */
  function TextualColumns(f: Frame): (cs: seq<Name>)
    requires Valid(f)
    ensures Distinct(cs)
    ensures forall n :: n in cs <==> Has(f, n) && IsTextual(f.kinds[n])
  {
    Filter(f.names, n => n in f.kinds && IsTextual(f.kinds[n]))
  }

  /** The categories of a column that get an indicator: all of them but the
      first (`drop_first=True`). */
  function IndicatorLevels(f: Frame, c: Name): (ls: seq<Cell>)
    requires Valid(f) && Has(f, c)
    ensures Distinct(ls)
    ensures forall v :: v in ls <==> v in Levels(Column(f, c)) && v != Levels(Column(f, c))[0]
  {
    var all := Levels(Column(f, c));
    StrictlySortedIsDistinct(all);
    if |all| == 0 then []
    else
      assert all == [all[0]] + all[1..];
      all[1..]
  }

  /** The categories that get an indicator, for every text column. */
  function Categories(f: Frame): (cats: map<Name, seq<Cell>>)
    requires Valid(f)
    ensures forall c :: c in cats <==> Has(f, c) && IsTextual(f.kinds[c])
    ensures forall c :: c in cats ==> cats[c] == IndicatorLevels(f, c) && Distinct(cats[c])
  {
    map c | c in f.kinds && IsTextual(f.kinds[c]) :: IndicatorLevels(f, c)
  }

  /** `n` is the indicator of one of the categories. */
  predicate IsIndicator(cats: map<Name, seq<Cell>>, n: Name) {
    n.Dummy? && n.base in cats && n.level in cats[n.base]
  }

  /** The indicator labels of one column, categories in order. */
  function DummiesOf(c: Name, ls: seq<Cell>): (r: seq<Name>)
    ensures forall n :: n in r <==> n.Dummy? && n.base == c && n.level in ls
    ensures Distinct(ls) ==> Distinct(r)
  {
    if |ls| == 0 then []
    else
      var rest := DummiesOf(c, ls[1..]);
      assert forall v :: v in ls <==> v == ls[0] || v in ls[1..];
      if Distinct(ls) then
        assert ls[0] !in ls[1..];
        [Dummy(c, ls[0])] + rest
      else [Dummy(c, ls[0])] + rest
  }

  /** The indicator labels, column by column. */
  function Indicators(cats: map<Name, seq<Cell>>, cs: seq<Name>): (r: seq<Name>)
    requires forall c :: c in cs ==> c in cats
    ensures forall n :: n in r <==> n.Dummy? && n.base in cs && n.level in cats[n.base]
    ensures Distinct(cs) && (forall c :: c in cs ==> Distinct(cats[c])) ==> Distinct(r)
  {
    if |cs| == 0 then []
    else
      var here := DummiesOf(cs[0], cats[cs[0]]);
      var rest := Indicators(cats, cs[1..]);
      assert forall c :: c in cs <==> c == cs[0] || c in cs[1..];
      if Distinct(cs) && (forall c :: c in cs ==> Distinct(cats[c])) then
        assert cs[0] !in cs[1..];
        assert Distinct(cs[1..]);
        assert forall n :: n in rest ==> n.base != cs[0];
        DistinctConcat(here, rest);
        here + rest
      else here + rest
  }

  /** One row after `get_dummies(columns=cs, drop_first=True)`: the encoded
      columns are replaced by their indicators, each true exactly when the
      row holds that category (a missing value sets none). */
  function EncodeRow(cats: map<Name, seq<Cell>>, row: Row): (r: Row)
    requires forall c :: c in cats ==> c in row
    ensures forall n :: n in r <==> (n in row && n !in cats && !IsIndicator(cats, n)) || IsIndicator(cats, n)
    ensures forall n :: n in r && !IsIndicator(cats, n) ==> r[n] == row[n]
    ensures forall n :: n in r && IsIndicator(cats, n) ==> r[n] == Bool(row[n.base] == n.level)
  {
    var keys := (row.Keys - cats.Keys) + set c, v | c in cats && v in cats[c] :: Dummy(c, v);
    map n | n in keys :: if IsIndicator(cats, n) then Bool(row[n.base] == n.level) else row[n]
  }

  /** An encoded row fits the encoded column types: indicators are booleans,
      the other cells keep the type they had. */
  lemma EncodedRowFits(kinds: map<Name, Kind>, cats: map<Name, seq<Cell>>, row: Row, encoded: map<Name, Kind>)
    requires RowFits(kinds, row) && forall c :: c in cats ==> c in kinds
    requires forall n :: n in encoded <==> (n in kinds && n !in cats && !IsIndicator(cats, n)) || IsIndicator(cats, n)
    requires forall n :: n in encoded ==> encoded[n] == if IsIndicator(cats, n) then Flag else kinds[n]
    ensures RowFits(encoded, EncodeRow(cats, row))
  {
  }

  /** The encoded column order: the columns that are not encoded, then the
      indicators. */
  function EncodedNames(d: Frame): (names: seq<Name>)
    requires Valid(d) && Plain(d)
    ensures Distinct(names)
    ensures forall n :: n in names <==> (n in d.kinds && n !in Categories(d) && !IsIndicator(Categories(d), n)) || IsIndicator(Categories(d), n)
  {
    var cats := Categories(d);
    var ind := Indicators(cats, TextualColumns(d));
    var kept := Without(d.names, cats.Keys);
    assert forall n :: n in kept ==> n.Col?;
    assert forall n :: n in ind ==> n.Dummy?;
    DistinctConcat(kept, ind);
    kept + ind
  }

  function EncodedKinds(d: Frame): (kinds: map<Name, Kind>)
    requires Valid(d) && Plain(d)
    ensures forall n :: n in kinds <==> n in EncodedNames(d)
    ensures forall n :: n in kinds ==> kinds[n] == if IsIndicator(Categories(d), n) then Flag else d.kinds[n]
  {
    var cats := Categories(d);
    map n | n in EncodedNames(d) :: if IsIndicator(cats, n) then Flag else d.kinds[n]
  }

  function EncodedRows(cats: map<Name, seq<Cell>>, rows: seq<Row>): (r: seq<Row>)
    requires forall i :: 0 <= i < |rows| ==> forall c :: c in cats ==> c in rows[i]
    ensures |r| == |rows| && forall i :: 0 <= i < |rows| ==> r[i] == EncodeRow(cats, rows[i])
  {
    seq(|rows|, i requires 0 <= i < |rows| => EncodeRow(cats, rows[i]))
  }

  /** `pd.get_dummies(df, columns=<text columns>, drop_first=True)`: the other
      columns keep their order and contents, the indicator columns follow. */
  function Encode(d: Frame): (g: Frame)
    requires Valid(d) && Plain(d)
    ensures Valid(g) && |g.rows| == |d.rows|
    ensures g.kinds == EncodedKinds(d)
    ensures forall i :: 0 <= i < |d.rows| ==> g.rows[i] == EncodeRow(Categories(d), d.rows[i])
  {
    var cats := Categories(d);
    var kinds := EncodedKinds(d);
    assert forall i :: 0 <= i < |d.rows| ==> RowFits(d.kinds, d.rows[i]);
    var rows := EncodedRows(cats, d.rows);
    assert forall i :: 0 <= i < |rows| ==> RowFits(kinds, rows[i]) by {
      forall i | 0 <= i < |rows| ensures RowFits(kinds, rows[i]) {
        EncodedRowFits(d.kinds, cats, d.rows[i], kinds);
      }
    }
    Frame(EncodedNames(d), kinds, rows)
  }

  /** After encoding no text column is left; the columns are the ones that
      were not text, with their types, and the indicators. */
  lemma EncodedColumns(d: Frame)
    requires Valid(d) && Plain(d)
    ensures var g := Encode(d);
      && (forall n :: Has(g, n) ==> !IsTextual(g.kinds[n]))
      && (forall n :: Has(g, n) <==> (Has(d, n) && !IsTextual(d.kinds[n])) || IsIndicator(Categories(d), n))
      && (forall n :: Has(g, n) && Has(d, n) ==> g.kinds[n] == d.kinds[n])
  {
  }

  /** Reading a category back from the indicators: the first category whose
      indicator is set, or the dropped first category when none is. */
  function Decode(r: Row, c: Name, ls: seq<Cell>, first: Cell): Cell
    requires forall v :: v in ls ==> Dummy(c, v) in r
  {
    if |ls| == 0 then first
    else if r[Dummy(c, ls[0])] == Bool(true) then ls[0]
    else Decode(r, c, ls[1..], first)
  }

  lemma {:induction false} DecodeFinds(r: Row, c: Name, ls: seq<Cell>, first: Cell, x: Cell)
    requires forall v :: v in ls ==> Dummy(c, v) in r && r[Dummy(c, v)] == Bool(v == x)
    ensures Decode(r, c, ls, first) == if x in ls then x else first
  {
    if |ls| > 0 {
      assert forall v :: v in ls[1..] ==> v in ls;
      DecodeFinds(r, c, ls[1..], first, x);
    }
  }

  /** The indicators of a text column determine every known value: decoding
      an encoded row gives back the category it held. */
  lemma EncodingIsFaithful(d: Frame, i: nat, c: Name)
    requires Valid(d) && Plain(d) && i < |d.rows|
    requires Has(d, c) && IsTextual(d.kinds[c]) && d.rows[i][c] != Missing
    ensures var all := Levels(Column(d, c));
      && |all| > 0
      && (forall v :: v in IndicatorLevels(d, c) ==> Dummy(c, v) in Encode(d).rows[i])
      && Decode(Encode(d).rows[i], c, IndicatorLevels(d, c), all[0]) == d.rows[i][c]
  {
    var all := Levels(Column(d, c));
    var x := d.rows[i][c];
    assert Column(d, c)[i] == x;
    assert x in all;
    var cats := Categories(d);
    var r := Encode(d).rows[i];
    assert forall v :: v in cats[c] ==> IsIndicator(cats, Dummy(c, v));
    DecodeFinds(r, c, cats[c], all[0], x);
  }

  /** A missing value and the first category encode alike: both leave every
      indicator of the column unset. */
  lemma MissingLooksLikeFirst(d: Frame, i: nat, c: Name)
    requires Valid(d) && Plain(d) && i < |d.rows|
    requires Has(d, c) && IsTextual(d.kinds[c])
    requires var all := Levels(Column(d, c));
      d.rows[i][c] == Missing || (|all| > 0 && d.rows[i][c] == all[0])
    ensures forall v :: v in IndicatorLevels(d, c) ==>
      Dummy(c, v) in Encode(d).rows[i] && Encode(d).rows[i][Dummy(c, v)] == Bool(false)
  {
    var cats := Categories(d);
    assert forall v :: v in cats[c] ==> IsIndicator(cats, Dummy(c, v));
  }

  // ---------------------------------------------------------------------------
  // create_features

  /** The conditions under which the derived columns can be computed. */
  predicate Derivable(f: Frame) {
    && (TotalClaims in f.kinds ==> f.kinds[TotalClaims] == Numeric)
    && (RegistrationYear in f.kinds ==> f.kinds[RegistrationYear] == Numeric)
  }

  /** Some column survives the date drop. Without one `get_dummies` has
      nothing to concatenate. */
  predicate KeepsAColumn(f: Frame) {
    exists n :: n in f.kinds && n !in DateColumns
  }

  const NoObjects := ValueError("No objects to concatenate")

  /** The derived frame has a column exactly when the input has one besides
      the dates: the new columns come with `TotalClaims` and
      `RegistrationYear`, which are kept. */
  lemma DerivedHasColumn(f: Frame)
    requires Valid(f) && Derivable(f)
    ensures |Derive(f).value.names| > 0 <==> KeepsAColumn(f)
  {
    var d := Derive(f).value;
    DerivedKindsKeep(f.kinds, Has(f, TotalClaims), Has(f, RegistrationYear));
    if |d.names| > 0 {
      assert d.names[0] in d.kinds;
    }
    if KeepsAColumn(f) {
      var n :| n in d.kinds;
      assert n in d.names;
    }
  }

  /** The derived dtypes have a column exactly when the input has one besides
      the dates. */
  lemma DerivedKindsKeep(kinds: map<Name, Kind>, labelled: bool, aged: bool)
    requires labelled ==> TotalClaims in kinds
    requires aged ==> RegistrationYear in kinds
    ensures (exists n :: n in DerivedKinds(kinds, labelled, aged)) <==> exists n :: n in kinds && n !in DateColumns
  {
    var k := DerivedKinds(kinds, labelled, aged);
    if n :| n in k {
      if n in kinds {
        assert n !in DateColumns;
      } else if n == HasClaim {
        assert TotalClaims in kinds && TotalClaims !in DateColumns;
      } else {
        assert RegistrationYear in kinds && RegistrationYear !in DateColumns;
      }
    }
    if n :| n in kinds && n !in DateColumns {
      assert n in k;
    }
  }

  /** `create_features()`: derive the label and the age, drop the raw dates,
      then one-hot encode every text column. A comparison or subtraction on a
      non-numeric column raises `TypeError`; with no column left `get_dummies`
      raises `ValueError`. */
  function CreateFeatures(f: Frame): (r: Result<Frame>)
    requires Valid(f) && Plain(f)
    ensures r.Success? <==> Derivable(f) && KeepsAColumn(f)
    ensures !Derivable(f) ==> r.Failure? && r.error.TypeError?
    ensures Derivable(f) && !KeepsAColumn(f) ==> r == Failure(NoObjects)
    ensures r.Success? ==>
      && Valid(r.value) && |r.value.rows| == |f.rows|
      && (forall n :: Has(r.value, n) ==> !IsTextual(r.value.kinds[n]))
      && !Has(r.value, TransactionMonth) && !Has(r.value, VehicleIntroDate)
  {
    var d :- Derive(f);
    DerivedHasColumn(f);
    if |d.names| == 0 then Failure(NoObjects)
    else
      DerivedPlain(f);
      EncodedColumns(d);
      Success(Encode(d))
  }

  /** Column `n` of `g` has kind `k` and holds `v` on row `i`. */
  predicate Carries(g: Frame, n: Name, k: Kind, i: nat, v: Cell) {
    Has(g, n) && g.kinds[n] == k && i < |g.rows| && n in g.rows[i] && g.rows[i][n] == v
  }

  /** A column that is not text passes through the encoding unchanged. */
  lemma EncodingKeeps(d: Frame, n: Name, i: nat)
    requires Valid(d) && Plain(d) && Has(d, n) && !IsTextual(d.kinds[n]) && i < |d.rows|
    ensures Carries(Encode(d), n, d.kinds[n], i, d.rows[i][n])
  {
    EncodedColumns(d);
    assert RowFits(d.kinds, d.rows[i]);
    assert !IsIndicator(Categories(d), n);
  }

  /** A numeric column of the derived frame survives the encoding. */
  lemma NumericThroughEncoding(f: Frame, n: Name, i: nat, v: Cell)
    requires Valid(f) && Plain(f) && Derivable(f)
    requires Carries(Derive(f).value, n, Numeric, i, v)
    ensures Carries(Encode(Derive(f).value), n, Numeric, i, v)
  {
    DerivedPlain(f);
    EncodingKeeps(Derive(f).value, n, i);
  }

  lemma DerivedPlain(f: Frame)
    requires Valid(f) && Plain(f) && Derivable(f)
    ensures Plain(Derive(f).value)
  {
  }

  lemma DerivedLabel(f: Frame, i: nat)
    requires Valid(f) && Derivable(f) && Has(f, TotalClaims) && i < |f.rows|
    ensures Carries(Derive(f).value, HasClaim, Numeric, i, Occurrence(f.rows[i][TotalClaims]))
  {
  }

  lemma DerivedAge(f: Frame, i: nat)
    requires Valid(f) && Derivable(f) && Has(f, RegistrationYear) && i < |f.rows|
    ensures Carries(Derive(f).value, VehicleAge, Numeric, i, AgeOf(ReferenceYear(f), f.rows[i][RegistrationYear]))
  {
  }

  /** `HasClaim` is 1 on the rows with a positive claim and 0 on all others. */
  lemma CreatedLabel(f: Frame, i: nat)
    requires Valid(f) && Plain(f) && Derivable(f) && Has(f, TotalClaims) && i < |f.rows|
    ensures CreateFeatures(f).Success?
    ensures Carries(CreateFeatures(f).value, HasClaim, Numeric, i, Occurrence(f.rows[i][TotalClaims]))
  {
    DerivedLabel(f, i);
    NumericThroughEncoding(f, HasClaim, i, Occurrence(f.rows[i][TotalClaims]));
  }

  /** `VehicleAge` is the reference year minus the registration year, NaN when
      either is unknown. */
  lemma CreatedAge(f: Frame, i: nat)
    requires Valid(f) && Plain(f) && Derivable(f) && Has(f, RegistrationYear) && i < |f.rows|
    ensures CreateFeatures(f).Success?
    ensures Carries(CreateFeatures(f).value, VehicleAge, Numeric, i, AgeOf(ReferenceYear(f), f.rows[i][RegistrationYear]))
  {
    DerivedAge(f, i);
    NumericThroughEncoding(f, VehicleAge, i, AgeOf(ReferenceYear(f), f.rows[i][RegistrationYear]));
  }

  // ---------------------------------------------------------------------------
  // prepare_modeling_data

  /** A feature matrix, the row labels it carries and, for a severity set,
      its labels. */
  datatype Part = Part(index: seq<nat>, x: Frame, y: seq<Cell>)

  /** The eight results of `prepare_modeling_data`: the frequency matrices
      with their row labels, the frequency labels, and the two severity sets. */
  datatype Prepared = Prepared(
    trainIndex: seq<nat>, xTrain: Frame, testIndex: seq<nat>, xTest: Frame,
    yFreqTrain: Option<seq<Cell>>, yFreqTest: Option<seq<Cell>>,
    sevTrain: Option<Part>, sevTest: Option<Part>)

  /** `x` holds the rows of `f` labelled `index`, in that order, without the
      columns in `drop`. */
  predicate RowsOf(f: Frame, drop: set<Name>, index: seq<nat>, x: Frame) {
    && InRange(index, |f.rows|)
    && x.kinds == f.kinds - drop
    && |x.rows| == |index|
    && forall j :: 0 <= j < |index| ==> x.rows[j] == f.rows[index[j]] - drop
  }

  /** `p` is the severity set cut from the rows labelled `index`: exactly
      those with a positive claim, each as often as `index` holds it, with
      their features and their claims. */
  ghost predicate SeveritySet(f: Frame, drop: set<Name>, claims: seq<Cell>, index: seq<nat>, p: Part)
    requires |claims| == |f.rows|
  {
    && RowsOf(f, drop, p.index, p.x)
    && |p.index| <= |index|
    && (forall k: nat :: k in p.index <==> k in index && k < |claims| && Positive(claims[k]))
    && (forall k: nat :: multiset(p.index)[k] == if k < |claims| && Positive(claims[k]) then multiset(index)[k] else 0)
    && |p.y| == |p.index|
    && forall j :: 0 <= j < |p.y| ==> p.y[j] == claims[p.index[j]] && Positive(p.y[j])
  }

  /** `y_sev.loc[index]`, its positive entries, and `X.loc` of their labels. */
  function SeverityPart(f: Frame, drop: set<Name>, x: Frame, claims: seq<Cell>, index: seq<nat>): (p: Part)
    requires Valid(f) && x == DropColumns(f, drop) && |claims| == |f.rows| && InRange(index, |f.rows|)
    ensures SeveritySet(f, drop, claims, index, p)
  {
    var keep: nat -> bool := (k: nat) => k < |claims| && Positive(claims[k]);
    var ids := Filter<nat>(index, keep);
    assert InRange(ids, |f.rows|);
    assert forall k: nat :: multiset(ids)[k] == if keep(k) then multiset(index)[k] else 0 by {
      forall k: nat ensures multiset(ids)[k] == if keep(k) then multiset(index)[k] else 0 {
        FilterCount<nat>(index, keep, k);
      }
    }
    Part(ids, SelectRows(x, ids), Pick(claims, ids))
  }

  /** The severity set of one side, when the severity target exists. */
  function SeveritySide(f: Frame, drop: set<Name>, x: Frame, targetSev: string, index: seq<nat>): (p: Option<Part>)
    requires Valid(f) && x == DropColumns(f, drop) && InRange(index, |f.rows|)
    ensures Has(f, Col(targetSev)) ==> p.Some? && SeveritySet(f, drop, Column(f, Col(targetSev)), index, p.value)
    ensures !Has(f, Col(targetSev)) ==> p.None?
  {
    if Has(f, Col(targetSev)) then Some(SeverityPart(f, drop, x, Column(f, Col(targetSev)), index)) else None
  }

  /** The eight datasets `prepare_modeling_data(target_freq, target_sev)`
      builds once the severity comparison can be made. `train` and `test` are
      the row labels `train_test_split` assigns to each side; they are used
      only when the frequency target exists. */
  function Datasets(f: Frame, targetFreq: string, targetSev: string, train: seq<nat>, test: seq<nat>): (r: Prepared)
    requires Valid(f) && InRange(train, |f.rows|) && InRange(test, |f.rows|)
    ensures var drop := {Col(targetFreq), Col(targetSev)};
      && RowsOf(f, drop, r.trainIndex, r.xTrain) && RowsOf(f, drop, r.testIndex, r.xTest)
      && (Has(f, Col(targetFreq)) ==>
            && r.trainIndex == train && r.testIndex == test
            && r.yFreqTrain == Some(Pick(Column(f, Col(targetFreq)), train))
            && r.yFreqTest == Some(Pick(Column(f, Col(targetFreq)), test)))
      && (!Has(f, Col(targetFreq)) ==>
            && r.trainIndex == Range(|f.rows|) && r.testIndex == Range(|f.rows|)
            && r.xTrain == r.xTest && r.yFreqTrain.None? && r.yFreqTest.None?)
      && (Has(f, Col(targetSev)) ==>
            && r.sevTrain.Some? && SeveritySet(f, drop, Column(f, Col(targetSev)), r.trainIndex, r.sevTrain.value)
            && r.sevTest.Some? && SeveritySet(f, drop, Column(f, Col(targetSev)), r.testIndex, r.sevTest.value))
      && (!Has(f, Col(targetSev)) ==> r.sevTrain.None? && r.sevTest.None?)
  {
    var drop := {Col(targetFreq), Col(targetSev)};
    var x := DropColumns(f, drop);
    var n := |f.rows|;
    var trainIndex := if Has(f, Col(targetFreq)) then train else Range(n);
    var testIndex := if Has(f, Col(targetFreq)) then test else Range(n);
    var yTrain := if Has(f, Col(targetFreq)) then Some(Pick(Column(f, Col(targetFreq)), train)) else None;
    var yTest := if Has(f, Col(targetFreq)) then Some(Pick(Column(f, Col(targetFreq)), test)) else None;
    Prepared(trainIndex, SelectRows(x, trainIndex), testIndex, SelectRows(x, testIndex), yTrain, yTest,
      SeveritySide(f, drop, x, targetSev, trainIndex), SeveritySide(f, drop, x, targetSev, testIndex))
  }

  /** `prepare_modeling_data(target_freq, target_sev)`: the severity target,
      when present, is compared with 0, which raises `TypeError` unless the
      column is numeric. */
  function PrepareModelingData(f: Frame, targetFreq: string, targetSev: string, train: seq<nat>, test: seq<nat>): (r: Result<Prepared>)
    requires Valid(f) && InRange(train, |f.rows|) && InRange(test, |f.rows|)
    ensures r.Success? <==> (Has(f, Col(targetSev)) ==> f.kinds[Col(targetSev)] == Numeric)
    ensures r.Failure? ==> r.error == ComparisonError
    ensures r.Success? ==> r.value == Datasets(f, targetFreq, targetSev, train, test)
  {
    if Has(f, Col(targetSev)) && f.kinds[Col(targetSev)] != Numeric then Failure(ComparisonError)
    else Success(Datasets(f, targetFreq, targetSev, train, test))
  }

  /** The severity set `p` keeps the row identities of `x`: each of its
      labels is a label of `x`, and a row of either under the same label has
      the same features. */
  predicate KeepsIdentity(index: seq<nat>, x: Frame, p: Part) {
    && |x.rows| == |index| && |p.x.rows| == |p.index|
    && (forall j :: 0 <= j < |p.index| ==> p.index[j] in index)
    && forall j, k :: 0 <= j < |p.index| && 0 <= k < |index| && index[k] == p.index[j] ==>
         x.rows[k] == p.x.rows[j]
  }

  lemma SeverityRowsOf(f: Frame, drop: set<Name>, claims: seq<Cell>, index: seq<nat>, x: Frame, p: Part)
    requires |claims| == |f.rows| && RowsOf(f, drop, index, x) && SeveritySet(f, drop, claims, index, p)
    ensures KeepsIdentity(index, x, p)
  {
    forall j | 0 <= j < |p.index| ensures p.index[j] in index {
      assert p.index[j] in p.index;
    }
  }

  /** The severity sets keep row identity: every severity training (test) row
      is a row of the frequency training (test) matrix, under the same label. */
  lemma SeverityRowsAreSplitRows(f: Frame, targetFreq: string, targetSev: string, train: seq<nat>, test: seq<nat>)
    requires Valid(f) && InRange(train, |f.rows|) && InRange(test, |f.rows|) && Has(f, Col(targetSev))
    ensures var r := Datasets(f, targetFreq, targetSev, train, test);
      && KeepsIdentity(r.trainIndex, r.xTrain, r.sevTrain.value)
      && KeepsIdentity(r.testIndex, r.xTest, r.sevTest.value)
  {
    var r := Datasets(f, targetFreq, targetSev, train, test);
    var drop := {Col(targetFreq), Col(targetSev)};
    var claims := Column(f, Col(targetSev));
    SeverityRowsOf(f, drop, claims, r.trainIndex, r.xTrain, r.sevTrain.value);
    SeverityRowsOf(f, drop, claims, r.testIndex, r.xTest, r.sevTest.value);
  }
}

=== FILE: frames.dfy ===
/** An in-memory pandas DataFrame: ordered, uniquely named, typed columns over
    a sequence of rows. A row maps every column name to its cell; row position
    stands for the (unique) index label. */
module Frames {
  import opened Wrappers
  import opened Seqs
  import opened Cells

  /** A column label. `Dummy(base, level)` is the indicator column `get_dummies`
      names "<base>_<level>". */
  datatype Name = Col(header: string) | Dummy(base: Name, level: Cell)

  /** The dtypes the modelled code branches on: number, bool, datetime64,
      object (any Python value, usually strings) and category. */
  datatype Kind = Numeric | Flag | DateTime | Object | Categorical

  type Row = map<Name, Cell>

  datatype Frame = Frame(names: seq<Name>, kinds: map<Name, Kind>, rows: seq<Row>)

  /** The portfolio columns several scripts read. */
  const TotalPremium := Col("TotalPremium")
  const TotalClaims := Col("TotalClaims")
  const TransactionMonth := Col("TransactionMonth")
  const PostalCode := Col("PostalCode")

  /** The cells a column of the given dtype can hold. */
  predicate Fits(k: Kind, c: Cell) {
    match k
    case Numeric => c.Missing? || c.Num?
    case Flag => c.Bool?
    case DateTime => c.Missing? || c.Date?
    case Object => true
    case Categorical => true
  }

  /** `select_dtypes(include=['category', 'object'])`. */
  predicate IsTextual(k: Kind) {
    k == Object || k == Categorical
  }

  predicate RowFits(kinds: map<Name, Kind>, r: Row) {
    r.Keys == kinds.Keys && forall n :: n in r ==> Fits(kinds[n], r[n])
  }

  ghost predicate Valid(f: Frame) {
    && Distinct(f.names)
    && (forall n :: n in f.kinds <==> n in f.names)
    && forall i :: 0 <= i < |f.rows| ==> RowFits(f.kinds, f.rows[i])
  }

  /** `name in df.columns`. */
  predicate Has(f: Frame, n: Name) {
    n in f.kinds
  }

  predicate NumericColumn(f: Frame, n: Name) {
    n in f.kinds && f.kinds[n] == Numeric
  }

  function Column(f: Frame, n: Name): (c: seq<Cell>)
    requires Valid(f) && Has(f, n)
    ensures |c| == |f.rows|
    ensures forall i :: 0 <= i < |c| ==> c[i] == f.rows[i][n]
  {
    seq(|f.rows|, i requires 0 <= i < |f.rows| => f.rows[i][n])
  }

  function Without(names: seq<Name>, drop: set<Name>): (r: seq<Name>)
    ensures forall n :: n in r <==> n in names && n !in drop
    ensures Distinct(names) ==> Distinct(r)
  {
    if |names| == 0 then []
    else
      assert names == [names[0]] + names[1..];
      if names[0] in drop then Without(names[1..], drop)
      else [names[0]] + Without(names[1..], drop)
  }

  /** `df.drop(columns=..., errors='ignore')`: absent names are skipped. */
  function DropColumns(f: Frame, drop: set<Name>): (g: Frame)
    requires Valid(f)
    ensures Valid(g)
    ensures g.names == Without(f.names, drop)
    ensures g.kinds == f.kinds - drop
    ensures |g.rows| == |f.rows|
    ensures forall i :: 0 <= i < |g.rows| ==> g.rows[i] == f.rows[i] - drop
  {
    Frame(Without(f.names, drop), f.kinds - drop,
          seq(|f.rows|, i requires 0 <= i < |f.rows| => f.rows[i] - drop))
  }

  /** `df[n] = cells`: an existing column is overwritten in place, a new one
      is appended after the last column. */
  function WithColumn(f: Frame, n: Name, k: Kind, cells: seq<Cell>): (g: Frame)
    requires Valid(f) && |cells| == |f.rows|
    requires forall i :: 0 <= i < |cells| ==> Fits(k, cells[i])
    ensures Valid(g)
    ensures g.names == if Has(f, n) then f.names else f.names + [n]
    ensures g.kinds == f.kinds[n := k]
    ensures |g.rows| == |f.rows|
    ensures forall i :: 0 <= i < |g.rows| ==> g.rows[i] == f.rows[i][n := cells[i]]
  {
    var names := if Has(f, n) then f.names else f.names + [n];
    assert Distinct(names);
    var g := Frame(names, f.kinds[n := k],
                   seq(|f.rows|, i requires 0 <= i < |f.rows| => f.rows[i][n := cells[i]]));
    assert forall i :: 0 <= i < |g.rows| ==> RowFits(g.kinds, g.rows[i]) by {
      forall i | 0 <= i < |g.rows| ensures RowFits(g.kinds, g.rows[i]) {
        assert RowFits(f.kinds, f.rows[i]);
      }
    }
    g
  }

  lemma ColumnAfterWithColumn(f: Frame, n: Name, k: Kind, cells: seq<Cell>, m: Name)
    requires Valid(f) && |cells| == |f.rows|
    requires forall i :: 0 <= i < |cells| ==> Fits(k, cells[i])
    requires m == n || Has(f, m)
    ensures Column(WithColumn(f, n, k, cells), m) == if m == n then cells else Column(f, m)
  {
  }

  predicate InRange(ids: seq<nat>, n: nat) {
    forall j :: 0 <= j < |ids| ==> ids[j] < n
  }

  /** `df.loc[ids]`: the rows with the given index labels, in the given order. */
  function SelectRows(f: Frame, ids: seq<nat>): (g: Frame)
    requires Valid(f) && InRange(ids, |f.rows|)
    ensures Valid(g)
    ensures g.names == f.names && g.kinds == f.kinds
    ensures |g.rows| == |ids|
    ensures forall j :: 0 <= j < |ids| ==> g.rows[j] == f.rows[ids[j]]
  {
    Frame(f.names, f.kinds, seq(|ids|, j requires 0 <= j < |ids| => f.rows[ids[j]]))
  }

  predicate Increasing(ids: seq<nat>) {
    forall i, j :: 0 <= i < j < |ids| ==> ids[i] < ids[j]
  }

  /** The positions of the cells satisfying `keep`, in increasing order. */
  function Positions(cells: seq<Cell>, keep: Cell -> bool): (ids: seq<nat>)
    ensures InRange(ids, |cells|) && Increasing(ids) && Distinct(ids)
    ensures forall i: nat :: i in ids <==> i < |cells| && keep(cells[i])
  {
    if |cells| == 0 then []
    else
      var k := |cells| - 1;
      var rest := Positions(cells[..k], keep);
      if keep(cells[k]) then rest + [k] else rest
  }

  /** The positions of the rows whose cell in column `n` satisfies `keep`:
      the rows a boolean mask `df[keep(df[n])]` retains, in order. */
  function Where(f: Frame, n: Name, keep: Cell -> bool): (ids: seq<nat>)
    requires Valid(f) && Has(f, n)
    ensures InRange(ids, |f.rows|) && Increasing(ids) && Distinct(ids)
    ensures forall i: nat :: i in ids <==> i < |f.rows| && keep(f.rows[i][n])
  {
    Positions(Column(f, n), keep)
  }

  /** The cells at the given positions. */
  function Pick(cells: seq<Cell>, ids: seq<nat>): (r: seq<Cell>)
    requires InRange(ids, |cells|)
    ensures |r| == |ids| && forall j :: 0 <= j < |ids| ==> r[j] == cells[ids[j]]
  {
    seq(|ids|, j requires 0 <= j < |ids| => cells[ids[j]])
  }

  /** `Series.sum()`: NaN cells are skipped and the empty sum is 0. */
  function Total(cells: seq<Cell>): real {
    if |cells| == 0 then 0.0
    else Total(cells[..|cells| - 1]) + (if cells[|cells| - 1].Num? then cells[|cells| - 1].x else 0.0)
  }

  /** `Series.count()`: the number of non-missing numeric cells. */
  function Present(cells: seq<Cell>): nat {
    if |cells| == 0 then 0
    else Present(cells[..|cells| - 1]) + (if cells[|cells| - 1].Num? then 1 else 0)
  }

  /** `Series.mean()`: NaN cells are skipped; with nothing left the mean is NaN. */
  function Mean(cells: seq<Cell>): Option<real> {
    Ratio(Total(cells), Present(cells) as real)
  }

  /** A column of positive claims has every cell counted and a positive sum. */
  lemma {:induction false} AllPositiveTotals(cells: seq<Cell>)
    requires forall i :: 0 <= i < |cells| ==> Positive(cells[i])
    ensures Present(cells) == |cells|
    ensures |cells| > 0 ==> Total(cells) > 0.0
  {
    if |cells| > 0 {
      AllPositiveTotals(cells[..|cells| - 1]);
    }
  }

  /** `(claims > 0).astype(int)`: the claim indicator of every row. */
  function ClaimFlags(claims: seq<Cell>): (r: seq<Cell>)
    ensures |r| == |claims| && forall i :: 0 <= i < |r| ==> r[i] == Occurrence(claims[i])
  {
    seq(|claims|, i requires 0 <= i < |claims| => Occurrence(claims[i]))
  }

  /** The first of `cols` the frame lacks: the one pandas raises `KeyError` for. */
  function FirstAbsent(f: Frame, cols: seq<string>): (r: Option<string>)
    ensures r.None? <==> forall c :: c in cols ==> Has(f, Col(c))
    ensures r.Some? ==> exists j :: (0 <= j < |cols| && cols[j] == r.value && !Has(f, Col(cols[j]))
      && forall i :: 0 <= i < j ==> Has(f, Col(cols[i])))
  {
    if |cols| == 0 then None
    else if !Has(f, Col(cols[0])) then Some(cols[0])
    else
      assert forall c :: c in cols ==> c == cols[0] || c in cols[1..];
      FirstAbsent(f, cols[1..])
  }
}

=== FILE: hypothesis.dfy ===
/** `HypothesisTester` (scripts/hypothesis_testing.py): claim KPIs, the
    "metrics first" gate, and the verdict and interpretation of each test.

    The tester is a two-state value: a new tester has `metricsCalculated`
    false, `CalculateMetrics` returns one with it true, and the tests only
    read it. The p-values come from the statistics library, which the model
    receives as a `StatLib` value applied to exactly the columns the source
    hands to scipy. */
module Hypothesis {
  import opened Wrappers
  import opened Seqs
  import opened Cells
  import opened Frames
  import opened Strings

  const ClaimOccurred := Col("ClaimOccurred")
  const Margin := Col("Margin")
  const Gender := Col("Gender")

  /** The fixed significance level of every test. */
  const Alpha: real := 0.05

  const NotReady := RuntimeError("Calculate metrics first.")

  const RejectPrefix := "Reject H\U{2080}"
  const FailPrefix := "Fail to reject H\U{2080}"

  datatype Tester = Tester(data: Frame, metricsCalculated: bool)

  /** The monetary columns, where present, are numeric; once metrics are
      calculated both exist and so do the numeric KPI columns. */
  ghost predicate Consistent(t: Tester) {
    && Valid(t.data)
    && (Has(t.data, TotalClaims) ==> NumericColumn(t.data, TotalClaims))
    && (Has(t.data, TotalPremium) ==> NumericColumn(t.data, TotalPremium))
    && (t.metricsCalculated ==>
          && Has(t.data, TotalClaims) && Has(t.data, TotalPremium)
          && NumericColumn(t.data, ClaimOccurred) && NumericColumn(t.data, Margin))
  }

  /** `HypothesisTester(data)`: a working copy, metrics not yet calculated. */
  function NewTester(data: Frame): (t: Tester)
    requires Valid(data)
    requires Has(data, TotalClaims) ==> NumericColumn(data, TotalClaims)
    requires Has(data, TotalPremium) ==> NumericColumn(data, TotalPremium)
    ensures Consistent(t) && !t.metricsCalculated && t.data == data
  {
    Tester(data, false)
  }

  // ---------------------------------------------------------------------
  // KPIs

  /** `TotalPremium - TotalClaims` for one row; NaN on either side gives NaN. */
  function MarginOf(premium: Cell, claim: Cell): Cell {
    if premium.Num? && claim.Num? then Num(premium.x - claim.x) else Missing
  }

  function Margins(premiums: seq<Cell>, claims: seq<Cell>): (r: seq<Cell>)
    requires |premiums| == |claims|
    ensures |r| == |claims| && forall i :: 0 <= i < |r| ==> r[i] == MarginOf(premiums[i], claims[i])
  {
    seq(|claims|, i requires 0 <= i < |claims| => MarginOf(premiums[i], claims[i]))
  }

  /** Claim frequency (mean of the flag; NaN for an empty table), claim
      severity (mean claim over claim rows, 0 without claims) and mean margin. */
  datatype Kpis = Kpis(claimFrequency: Option<real>, claimSeverity: real, averageMargin: Option<real>)

  datatype Metrics = Metrics(tester: Tester, kpis: Kpis)

  /** The rows with a claim, found from the claim amounts themselves. */
  function ClaimRows(claims: seq<Cell>): (ids: seq<nat>)
    ensures InRange(ids, |claims|) && Distinct(ids)
    ensures forall i: nat :: i in ids <==> i < |claims| && Positive(claims[i])
  {
    Positions(claims, Positive)
  }

  lemma {:induction false} FlagTotals(claims: seq<Cell>)
    ensures Total(ClaimFlags(claims)) == |ClaimRows(claims)| as real
    ensures Present(ClaimFlags(claims)) == |claims|
  {
    if |claims| > 0 {
      var k := |claims| - 1;
      assert ClaimFlags(claims)[..k] == ClaimFlags(claims[..k]);
      FlagTotals(claims[..k]);
    }
  }

  lemma {:induction false} PositionsAgree(a: seq<Cell>, p: Cell -> bool, b: seq<Cell>, q: Cell -> bool)
    requires |a| == |b| && forall i :: 0 <= i < |a| ==> p(a[i]) == q(b[i])
    ensures Positions(a, p) == Positions(b, q)
  {
    if |a| > 0 {
      var k := |a| - 1;
      PositionsAgree(a[..k], p, b[..k], q);
    }
  }

  /** `ClaimOccurred.mean()`: the fraction of rows with a positive claim. */
  function Frequency(flags: seq<Cell>, ghost claims: seq<Cell>): (f: Option<real>)
    requires flags == ClaimFlags(claims)
    ensures f == Ratio(|ClaimRows(claims)| as real, |claims| as real)
  {
    FlagTotals(claims);
    Mean(flags)
  }

  /** `TotalClaims` averaged over the rows flagged `ClaimOccurred == 1`, or 0
      when the flags sum to 0. */
  function Severity(flags: seq<Cell>, claims: seq<Cell>): (s: real)
    requires flags == ClaimFlags(claims)
    ensures var k := |ClaimRows(claims)|;
      s == if k == 0 then 0.0 else Total(Pick(claims, ClaimRows(claims))) / k as real
  {
    FlagTotals(claims);
    if Total(flags) != 0.0 then
      var amounts := Pick(claims, Positions(flags, c => c == Num(1.0)));
      PositionsAgree(flags, c => c == Num(1.0), claims, Positive);
      AllPositiveTotals(amounts);
      Total(amounts) / Present(amounts) as real
    else 0.0
  }

  /** How `calculate_metrics` changes one row: the two KPI columns are set
      and every other cell is kept. */
  predicate KpiRow(before: Row, after: Row) {
    && TotalClaims in before && TotalPremium in before
    && ClaimOccurred in after && Margin in after
    && (after[ClaimOccurred] == Num(1.0) <==> Positive(before[TotalClaims]))
    && (after[ClaimOccurred] == Num(0.0) <==> !Positive(before[TotalClaims]))
    && after[Margin] == MarginOf(before[TotalPremium], before[TotalClaims])
    && forall n :: n in before && n != ClaimOccurred && n != Margin ==> n in after && after[n] == before[n]
  }

  lemma KpiRowOf(before: Row, flag: Cell, margin: Cell)
    requires TotalClaims in before && TotalPremium in before
    requires flag == Occurrence(before[TotalClaims])
    requires margin == MarginOf(before[TotalPremium], before[TotalClaims])
    ensures KpiRow(before, before[ClaimOccurred := flag][Margin := margin])
  {
  }

  /** The frame after the two KPI columns are assigned: `ClaimOccurred`
      first, then `Margin` from the unchanged monetary columns. */
  function WithKpiColumns(data: Frame): (d: Frame)
    requires Valid(data) && NumericColumn(data, TotalClaims) && NumericColumn(data, TotalPremium)
    ensures Valid(d) && d.kinds == data.kinds[ClaimOccurred := Numeric][Margin := Numeric]
    ensures |d.rows| == |data.rows|
    ensures forall i :: 0 <= i < |d.rows| ==>
      d.rows[i] == data.rows[i][ClaimOccurred := Occurrence(data.rows[i][TotalClaims])]
                               [Margin := MarginOf(data.rows[i][TotalPremium], data.rows[i][TotalClaims])]
  {
    var claims := Column(data, TotalClaims);
    var d1 := WithColumn(data, ClaimOccurred, Numeric, ClaimFlags(claims));
    WithColumn(d1, Margin, Numeric, Margins(Column(data, TotalPremium), claims))
  }

  /** The KPI columns read back from the updated frame. */
  lemma KpiColumns(data: Frame)
    requires Valid(data) && NumericColumn(data, TotalClaims) && NumericColumn(data, TotalPremium)
    ensures var d := WithKpiColumns(data);
      && Column(d, ClaimOccurred) == ClaimFlags(Column(data, TotalClaims))
      && Column(d, TotalClaims) == Column(data, TotalClaims)
      && Column(d, Margin) == Margins(Column(data, TotalPremium), Column(data, TotalClaims))
  {
    var d := WithKpiColumns(data);
    assert Column(d, ClaimOccurred) == ClaimFlags(Column(data, TotalClaims));
    assert Column(d, TotalClaims) == Column(data, TotalClaims);
    assert Column(d, Margin) == Margins(Column(data, TotalPremium), Column(data, TotalClaims));
  }

  lemma KpiColumnsRows(data: Frame)
    requires Valid(data) && NumericColumn(data, TotalClaims) && NumericColumn(data, TotalPremium)
    ensures forall i :: 0 <= i < |data.rows| ==> KpiRow(data.rows[i], WithKpiColumns(data).rows[i])
  {
    var d := WithKpiColumns(data);
    forall i | 0 <= i < |data.rows| ensures KpiRow(data.rows[i], d.rows[i]) {
      var before := data.rows[i];
      assert RowFits(data.kinds, before);
      KpiRowOf(before, Occurrence(before[TotalClaims]), MarginOf(before[TotalPremium], before[TotalClaims]));
    }
  }

  /** The KPIs as the source defines them, straight from the two monetary
      columns: the share of rows with a positive claim, the mean claim over
      those rows (0 if there are none), and the mean of premium minus claims
      over the rows where both are known. */
  function KpisOf(premiums: seq<Cell>, claims: seq<Cell>): Kpis
    requires |premiums| == |claims|
  {
    var k := |ClaimRows(claims)|;
    Kpis(Ratio(k as real, |claims| as real),
         if k == 0 then 0.0 else Total(Pick(claims, ClaimRows(claims))) / k as real,
         Mean(Margins(premiums, claims)))
  }

  /** `calculate_metrics`: adds `ClaimOccurred` and `Margin`, marks the tester
      ready and returns the three KPIs. A missing monetary column raises
      KeyError, `TotalClaims` being read first. */
  function CalculateMetrics(t: Tester): (r: Result<Metrics>)
    requires Consistent(t)
    ensures r.Success? <==> Has(t.data, TotalClaims) && Has(t.data, TotalPremium)
    ensures r.Failure? ==>
      r.error == KeyError(if Has(t.data, TotalClaims) then "TotalPremium" else "TotalClaims")
    ensures r.Success? ==>
      && r.value.tester == Tester(WithKpiColumns(t.data), true)
      && Consistent(r.value.tester)
    ensures r.Success? ==> r.value.kpis == KpisOf(Column(t.data, TotalPremium), Column(t.data, TotalClaims))
  {
    if !Has(t.data, TotalClaims) then Failure(KeyError("TotalClaims"))
    else if !Has(t.data, TotalPremium) then Failure(KeyError("TotalPremium"))
    else
      var d := WithKpiColumns(t.data);
      var claims := Column(t.data, TotalClaims);
      KpiColumns(t.data);
      var flags := Column(d, ClaimOccurred);
      Success(Metrics(Tester(d, true),
                      Kpis(Frequency(flags, claims), Severity(flags, Column(d, TotalClaims)),
                           Mean(Column(d, Margin)))))
  }

  /** `calculate_metrics` keeps the row count, sets `ClaimOccurred` to 1
      exactly on the rows with a positive claim (0 elsewhere), sets `Margin`
      to premium minus claims, and leaves every other cell as it was. */
  lemma MetricsColumns(t: Tester)
    requires Consistent(t) && CalculateMetrics(t).Success?
    ensures var t' := CalculateMetrics(t).value.tester;
      && t'.metricsCalculated
      && |t'.data.rows| == |t.data.rows|
      && t'.data.kinds == t.data.kinds[ClaimOccurred := Numeric][Margin := Numeric]
      && forall i :: 0 <= i < |t.data.rows| ==> KpiRow(t.data.rows[i], t'.data.rows[i])
  {
    KpiColumnsRows(t.data);
  }

  /** The KPI arithmetic on a column of claim amounts: the frequency is a
      fraction of the rows and the severity is positive exactly when some
      row has a claim. */
  lemma KpiArithmetic(claims: seq<Cell>)
    ensures var k := |ClaimRows(claims)|;
      && k <= |claims|
      && (|claims| > 0 ==> 0.0 <= k as real / |claims| as real <= 1.0)
      && (k > 0 ==> Total(Pick(claims, ClaimRows(claims))) / k as real > 0.0)
      && (k == 0 <==> forall i :: 0 <= i < |claims| ==> !Positive(claims[i]))
  {
    var ids := ClaimRows(claims);
    DistinctBelowBound(ids, |claims|);
    if |claims| > 0 {
      FractionBounds(|ids| as real, |claims| as real);
    }
    if |ids| > 0 {
      AllPositiveTotals(Pick(claims, ids));
      assert ids[0] in ids;
    } else {
      forall i | 0 <= i < |claims| ensures !Positive(claims[i]) {
        assert (i as nat) !in ids;
      }
    }
  }

  /** Claim frequency is the fraction of rows with a claim, so it lies in
      [0, 1] and is NaN only for an empty table; severity is 0 exactly when
      no row has a claim and positive otherwise. */
  lemma KpiRangesOf(premiums: seq<Cell>, claims: seq<Cell>)
    requires |premiums| == |claims|
    ensures var kpis := KpisOf(premiums, claims);
      && (kpis.claimFrequency.None? <==> |claims| == 0)
      && (kpis.claimFrequency.Some? ==> 0.0 <= kpis.claimFrequency.value <= 1.0)
      && (kpis.claimSeverity == 0.0 <==> forall i :: 0 <= i < |claims| ==> !Positive(claims[i]))
      && kpis.claimSeverity >= 0.0
  {
    KpiArithmetic(claims);
  }

  lemma {:induction false} MarginTotals(premiums: seq<Cell>, claims: seq<Cell>)
    requires |premiums| == |claims|
    requires forall i :: 0 <= i < |claims| ==> premiums[i].Num? && claims[i].Num?
    ensures Total(Margins(premiums, claims)) == Total(premiums) - Total(claims)
    ensures Present(Margins(premiums, claims)) == |claims|
  {
    if |claims| > 0 {
      var k := |claims| - 1;
      assert Margins(premiums, claims)[..k] == Margins(premiums[..k], claims[..k]);
      MarginTotals(premiums[..k], claims[..k]);
    }
  }

  /** Every cell of the column holds a number. */
  predicate Complete(cells: seq<Cell>) {
    forall i :: 0 <= i < |cells| ==> cells[i].Num?
  }

  /** Over complete columns, the mean margin is total premium minus total
      claims, over the number of rows. */
  lemma {:induction false} MeanOfCompleteMargins(premiums: seq<Cell>, claims: seq<Cell>)
    requires |premiums| == |claims| && Complete(premiums) && Complete(claims)
    ensures Mean(Margins(premiums, claims)) == Ratio(Total(premiums) - Total(claims), |claims| as real)
  {
    MarginTotals(premiums, claims);
  }

  /** A worked example: premiums 100 and 200 with claims 0 and 50 give claim
      frequency 0.5, claim severity 50 and average margin 125. */
  lemma KpisExample()
    ensures KpisOf([Num(100.0), Num(200.0)], [Num(0.0), Num(50.0)]) == Kpis(Some(0.5), 50.0, Some(125.0))
  {
    var premiums, claims := [Num(100.0), Num(200.0)], [Num(0.0), Num(50.0)];
    ExampleClaimRows(claims);
    ExampleTotals(premiums, claims);
    MeanOfCompleteMargins(premiums, claims);
  }

  lemma ExampleClaimRows(claims: seq<Cell>)
    requires claims == [Num(0.0), Num(50.0)]
    ensures ClaimRows(claims) == [1] && Pick(claims, [1]) == [Num(50.0)]
  {
    assert claims[..1] == [Num(0.0)] && claims[..1][..0] == [];
    assert Positions(claims[..1][..0], Positive) == [];
    assert Positions(claims[..1], Positive) == [];
  }

  lemma ExampleTotals(premiums: seq<Cell>, claims: seq<Cell>)
    requires premiums == [Num(100.0), Num(200.0)] && claims == [Num(0.0), Num(50.0)]
    ensures Total([Num(50.0)]) == 50.0 && Total(premiums) == 300.0 && Total(claims) == 50.0
    ensures Complete(premiums) && Complete(claims)
  {
    assert [Num(50.0)][..0] == [];
    assert premiums[..1] == [Num(100.0)] && claims[..1] == [Num(0.0)];
  }

  // ---------------------------------------------------------------------
  // Tests

  /** The scipy routines the tests rely on: the p-value of
      `chi2_contingency` on the crosstab of two columns (`None` when scipy
      raises), the p-value of `ttest_ind(equal_var=False)` on two samples
      (`None` for NaN), and the four-decimal rendering of a p-value. */
  datatype StatLib = StatLib(
    chiSquareP: (seq<Cell>, seq<Cell>) -> Option<real>,
    welchP: (seq<Cell>, seq<Cell>) -> Option<real>,
    formatP: Option<real> -> string)

  datatype TestKind =
    | ChiSquare
    | WelchT(valueColumn: string, groups: seq<Cell>, group1Mean: Option<real>, group2Mean: Option<real>)

  /** The result dictionary of `_chi_square` / `_t_test`. */
  datatype Verdict = Verdict(test: string, kind: TestKind, feature: string, pValue: Option<real>, rejectH0: bool)

  /** A verdict with its `Interpretation` entry. */
  datatype Outcome = Outcome(verdict: Verdict, interpretation: string)

  /** `p < 0.05`; a NaN p-value compares false. */
  predicate Significant(p: Option<real>) {
    p.Some? && p.value < Alpha
  }

  /** `_chi_square`: the chi-square test of independence between `feature`
      and `ClaimOccurred`. */
  function ChiSquareTest(lib: StatLib, data: Frame, feature: string): (r: Result<Verdict>)
    requires Valid(data)
    ensures r.Success? <==>
      Has(data, Col(feature)) && Has(data, ClaimOccurred) &&
      lib.chiSquareP(Column(data, Col(feature)), Column(data, ClaimOccurred)).Some?
    ensures !Has(data, Col(feature)) ==> r == Failure(KeyError(feature))
    ensures Has(data, Col(feature)) && !Has(data, ClaimOccurred) ==> r == Failure(KeyError("ClaimOccurred"))
    ensures r.Failure? ==> !r.error.RuntimeError?
    ensures r.Success? ==>
      && r.value.test == "Chi-Square (Claim Frequency)"
      && r.value.kind == ChiSquare && r.value.feature == feature
      && r.value.pValue == lib.chiSquareP(Column(data, Col(feature)), Column(data, ClaimOccurred))
      && (r.value.rejectH0 <==> r.value.pValue.value < Alpha)
  {
    if !Has(data, Col(feature)) then Failure(KeyError(feature))
    else if !Has(data, ClaimOccurred) then Failure(KeyError("ClaimOccurred"))
    else
      var p := lib.chiSquareP(Column(data, Col(feature)), Column(data, ClaimOccurred));
      if p.None? then Failure(LibraryError)
      else Success(Verdict("Chi-Square (Claim Frequency)", ChiSquare, feature, p, Significant(p)))
  }

  /** The rows whose cell in column `n` equals `g`. */
  function GroupRows(data: Frame, n: Name, g: Cell): (ids: seq<nat>)
    requires Valid(data) && Has(data, n)
    ensures InRange(ids, |data.rows|) && Increasing(ids)
    ensures forall i: nat :: i in ids <==> i < |data.rows| && data.rows[i][n] == g
  {
    Where(data, n, c => c == g)
  }

  function GroupCountMessage(feature: string, count: nat): string {
    "T-test requires exactly 2 groups in '" + feature + "', found " + NatToString(count)
  }

  /** `_t_test`: Welch's t-test of `valueColumn` between the two groups of
      `feature`; any other number of groups is a ValueError. */
  function TTest(lib: StatLib, data: Frame, feature: string, valueColumn: string): (r: Result<Verdict>)
    requires Valid(data)
    ensures r.Success? <==>
      Has(data, Col(feature)) && |Unique(Column(data, Col(feature)))| == 2 && Has(data, Col(valueColumn))
    ensures !Has(data, Col(feature)) ==> r == Failure(KeyError(feature))
    ensures Has(data, Col(feature)) && |Unique(Column(data, Col(feature)))| != 2 ==>
      r == Failure(ValueError(GroupCountMessage(feature, |Unique(Column(data, Col(feature)))|)))
    ensures r.Failure? ==> !r.error.RuntimeError?
    ensures r.Success? ==>
      && r.value.kind.WelchT? && r.value.feature == feature
      && r.value.kind.valueColumn == valueColumn
      && |r.value.kind.groups| == 2 && r.value.kind.groups[0] != r.value.kind.groups[1]
      && (forall x :: x in r.value.kind.groups <==> x in Column(data, Col(feature)) && x != Missing)
      && (r.value.rejectH0 <==> Significant(r.value.pValue))
    ensures r.Success? ==>
      var groups := Unique(Column(data, Col(feature)));
      var values := Column(data, Col(valueColumn));
      var sample1 := Pick(values, GroupRows(data, Col(feature), groups[0]));
      var sample2 := Pick(values, GroupRows(data, Col(feature), groups[1]));
      && r.value.test == "T-Test (" + valueColumn + ")"
      && r.value.kind == WelchT(valueColumn, groups, Mean(sample1), Mean(sample2))
      && r.value.pValue == lib.welchP(sample1, sample2)
  {
    if !Has(data, Col(feature)) then Failure(KeyError(feature))
    else
      var groups := Unique(Column(data, Col(feature)));
      if |groups| != 2 then Failure(ValueError(GroupCountMessage(feature, |groups|)))
      else if !Has(data, Col(valueColumn)) then Failure(KeyError(valueColumn))
      else
        var values := Column(data, Col(valueColumn));
        var g1 := Pick(values, GroupRows(data, Col(feature), groups[0]));
        var g2 := Pick(values, GroupRows(data, Col(feature), groups[1]));
        var p := lib.welchP(g1, g2);
        Success(Verdict("T-Test (" + valueColumn + ")", WelchT(valueColumn, groups, Mean(g1), Mean(g2)),
                        feature, p, Significant(p)))
  }

  /** The two samples of the t-test split the rows with a known group: each
      such row lies in exactly one of them, and no other row lies in either. */
  lemma TTestSamplesPartition(lib: StatLib, data: Frame, feature: string, valueColumn: string)
    requires Valid(data) && TTest(lib, data, feature, valueColumn).Success?
    ensures var groups := TTest(lib, data, feature, valueColumn).value.kind.groups;
      var rows1 := GroupRows(data, Col(feature), groups[0]);
      var rows2 := GroupRows(data, Col(feature), groups[1]);
      forall i: nat :: i < |data.rows| ==>
        ((i in rows1 || i in rows2) <==> data.rows[i][Col(feature)] != Missing) &&
        !(i in rows1 && i in rows2)
  {
    SamplesPartition(data, Col(feature), Unique(Column(data, Col(feature))));
  }

  /** Two distinct groups that are all the known values of a column split its
      rows with a known value between them. */
  lemma SamplesPartition(data: Frame, n: Name, groups: seq<Cell>)
    requires Valid(data) && Has(data, n)
    requires |groups| == 2 && groups[0] != groups[1]
    requires forall x :: x in groups <==> x in Column(data, n) && x != Missing
    ensures var rows1, rows2 := GroupRows(data, n, groups[0]), GroupRows(data, n, groups[1]);
      forall i: nat :: i < |data.rows| ==>
        ((i in rows1 || i in rows2) <==> data.rows[i][n] != Missing) && !(i in rows1 && i in rows2)
  {
    TwoGroupsCover(Column(data, n), groups);
  }

  /** With exactly two distinct groups drawn from a column, every known cell
      equals one of them. */
  lemma TwoGroupsCover(cells: seq<Cell>, groups: seq<Cell>)
    requires |groups| == 2 && groups[0] != groups[1]
    requires forall x :: x in groups <==> x in cells && x != Missing
    ensures forall i :: 0 <= i < |cells| ==> (cells[i] != Missing <==> cells[i] == groups[0] || cells[i] == groups[1])
  {
    forall i | 0 <= i < |cells|
      ensures cells[i] != Missing <==> cells[i] == groups[0] || cells[i] == groups[1]
    {
      assert cells[i] in cells;
      assert groups[0] in groups && groups[1] in groups;
    }
  }

  /** `_interpret`: the verdict's reading, opening with "Reject H₀" or
      "Fail to reject H₀" and naming the feature and the p-value. */
  function Interpret(lib: StatLib, v: Verdict): (o: Outcome)
    ensures o.verdict == v
    ensures StartsWith(o.interpretation, RejectPrefix) <==> v.rejectH0
    ensures StartsWith(o.interpretation, FailPrefix) <==> !v.rejectH0
    ensures OccursAt(o.interpretation, " for " + v.feature + " (p=" + lib.formatP(v.pValue) + ")",
                     if v.rejectH0 then |RejectPrefix| else |FailPrefix|)
  {
    var detail := " for " + v.feature + " (p=" + lib.formatP(v.pValue) + ")";
    var text :=
      if v.rejectH0 then RejectPrefix + detail + " \U{2192} Statistically significant difference."
      else FailPrefix + detail + " \U{2192} No evidence of difference.";
    assert text[..|RejectPrefix|] != RejectPrefix <== !v.rejectH0 by {
      if !v.rejectH0 { assert text[0] == 'F'; }
    }
    assert text[..|FailPrefix|] != FailPrefix <== v.rejectH0 by {
      if v.rejectH0 && |text| >= |FailPrefix| { assert text[0] == 'R'; }
    }
    Outcome(v, text)
  }

  /** The test of `isin(values)`. */
  function IsIn(values: seq<Cell>): Cell -> bool {
    c => c in values
  }

  /** `df[df[column].isin(values)]`: the rows whose cell is one of `values`,
      in their original order. */
  function RowsWith(data: Frame, column: Name, values: seq<Cell>): (d: Frame)
    requires Valid(data) && Has(data, column)
    ensures d == SelectRows(data, Where(data, column, IsIn(values)))
    ensures Valid(d) && d.names == data.names && d.kinds == data.kinds
    ensures |d.rows| <= |data.rows|
    ensures forall j :: 0 <= j < |d.rows| ==> d.rows[j] in data.rows && d.rows[j][column] in values
    ensures forall i :: 0 <= i < |data.rows| && data.rows[i][column] in values ==> data.rows[i] in d.rows
  {
    var ids := Where(data, column, IsIn(values));
    DistinctBelowBound(ids, |data.rows|);
    var d := SelectRows(data, ids);
    forall i | 0 <= i < |data.rows| && data.rows[i][column] in values ensures data.rows[i] in d.rows {
      assert (i as nat) in ids;
      var k :| 0 <= k < |ids| && ids[k] == i as nat;
      assert d.rows[k] == data.rows[i];
    }
    forall j | 0 <= j < |d.rows| ensures d.rows[j] in data.rows && d.rows[j][column] in values {
      assert ids[j] in ids;
    }
    d
  }

  /** `test_province_risk`. */
  function TestProvinceRisk(lib: StatLib, t: Tester): (r: Result<Outcome>)
    requires Consistent(t)
    ensures !t.metricsCalculated ==> r == Failure(NotReady)
    ensures t.metricsCalculated ==> r != Failure(NotReady)
    ensures t.metricsCalculated ==>
      (r.Success? <==> Has(t.data, Col("Province")) &&
                       lib.chiSquareP(Column(t.data, Col("Province")), Column(t.data, ClaimOccurred)).Some?)
    ensures t.metricsCalculated ==>
      var test := ChiSquareTest(lib, t.data, "Province");
      && (test.Failure? ==> r == Failure(test.error))
      && (test.Success? ==> r == Success(Interpret(lib, test.value)))
  {
    if !t.metricsCalculated then Failure(NotReady)
    else
      var v :- ChiSquareTest(lib, t.data, "Province");
      Success(Interpret(lib, v))
  }

  /** `test_zipcode_risk`: the chi-square test on the rows of the two postal codes. */
  function TestZipcodeRisk(lib: StatLib, t: Tester, zipA: Cell, zipB: Cell): (r: Result<Outcome>)
    requires Consistent(t)
    ensures !t.metricsCalculated ==> r == Failure(NotReady)
    ensures t.metricsCalculated ==> r != Failure(NotReady)
    ensures t.metricsCalculated && !Has(t.data, PostalCode) ==> r == Failure(KeyError("PostalCode"))
    ensures t.metricsCalculated && Has(t.data, PostalCode) ==>
      var d := RowsWith(t.data, PostalCode, [zipA, zipB]);
      var test := ChiSquareTest(lib, d, "PostalCode");
      && (r.Success? <==> lib.chiSquareP(Column(d, PostalCode), Column(d, ClaimOccurred)).Some?)
      && (test.Failure? ==> r == Failure(test.error))
      && (test.Success? ==> r == Success(Interpret(lib, test.value)))
  {
    if !t.metricsCalculated then Failure(NotReady)
    else if !Has(t.data, PostalCode) then Failure(KeyError("PostalCode"))
    else
      var v :- ChiSquareTest(lib, RowsWith(t.data, PostalCode, [zipA, zipB]), "PostalCode");
      Success(Interpret(lib, v))
  }

  /** `test_zipcode_margin`: Welch's t-test of `Margin` between the two postal codes. */
  function TestZipcodeMargin(lib: StatLib, t: Tester, zipA: Cell, zipB: Cell): (r: Result<Outcome>)
    requires Consistent(t)
    ensures !t.metricsCalculated ==> r == Failure(NotReady)
    ensures t.metricsCalculated ==> r != Failure(NotReady)
    ensures t.metricsCalculated && !Has(t.data, PostalCode) ==> r == Failure(KeyError("PostalCode"))
    ensures t.metricsCalculated && Has(t.data, PostalCode) ==>
      var test := TTest(lib, RowsWith(t.data, PostalCode, [zipA, zipB]), "PostalCode", "Margin");
      && (r.Success? <==> test.Success?)
      && (r.Success? ==> r.value == Interpret(lib, test.value))
  {
    if !t.metricsCalculated then Failure(NotReady)
    else if !Has(t.data, PostalCode) then Failure(KeyError("PostalCode"))
    else
      var v :- TTest(lib, RowsWith(t.data, PostalCode, [zipA, zipB]), "PostalCode", "Margin");
      Success(Interpret(lib, v))
  }

  const GenderValues := [Text("Male"), Text("Female")]

  /** `test_gender_risk`: on the rows whose gender is "Male" or "Female", the
      chi-square test of claim frequency and then Welch's t-test of
      `TotalClaims`; the first failure is raised. */
  function TestGenderRisk(lib: StatLib, t: Tester): (r: Result<(Outcome, Outcome)>)
    requires Consistent(t)
    ensures !t.metricsCalculated ==> r == Failure(NotReady)
    ensures t.metricsCalculated ==> r != Failure(NotReady)
    ensures t.metricsCalculated && !Has(t.data, Gender) ==> r == Failure(KeyError("Gender"))
    ensures t.metricsCalculated && Has(t.data, Gender) ==>
      var d := RowsWith(t.data, Gender, GenderValues);
      var frequency, severity := ChiSquareTest(lib, d, "Gender"), TTest(lib, d, "Gender", "TotalClaims");
      && (r.Success? <==> frequency.Success? && severity.Success?)
      && (r.Success? ==> r.value == (Interpret(lib, frequency.value), Interpret(lib, severity.value)))
  {
    if !t.metricsCalculated then Failure(NotReady)
    else if !Has(t.data, Gender) then Failure(KeyError("Gender"))
    else
      var d := RowsWith(t.data, Gender, GenderValues);
      var frequency :- ChiSquareTest(lib, d, "Gender");
      var severity :- TTest(lib, d, "Gender", "TotalClaims");
      Success((Interpret(lib, frequency), Interpret(lib, severity)))
  }

  /** Every test refuses to run before `calculate_metrics`. */
  lemma TestsNeedMetrics(lib: StatLib, t: Tester, zipA: Cell, zipB: Cell)
    requires Consistent(t) && !t.metricsCalculated
    ensures TestProvinceRisk(lib, t) == Failure(NotReady)
    ensures TestZipcodeRisk(lib, t, zipA, zipB) == Failure(NotReady)
    ensures TestZipcodeMargin(lib, t, zipA, zipB) == Failure(NotReady)
    ensures TestGenderRisk(lib, t) == Failure(NotReady)
  {
  }

  /** After a successful `calculate_metrics` no test fails for want of
      metrics, whatever it is given. */
  lemma MetricsUnlockTests(lib: StatLib, t: Tester, zipA: Cell, zipB: Cell)
    requires Consistent(t) && CalculateMetrics(t).Success?
    ensures var ready := CalculateMetrics(t).value.tester;
      && Consistent(ready)
      && TestProvinceRisk(lib, ready) != Failure(NotReady)
      && TestZipcodeRisk(lib, ready, zipA, zipB) != Failure(NotReady)
      && TestZipcodeMargin(lib, ready, zipA, zipB) != Failure(NotReady)
      && TestGenderRisk(lib, ready) != Failure(NotReady)
  {
  }

  /** The values of a column of the filtered rows are among the filter's values. */
  lemma FilteredValues(data: Frame, column: Name, values: seq<Cell>)
    requires Valid(data) && Has(data, column)
    ensures var d := RowsWith(data, column, values);
      forall x :: x in Column(d, column) ==> x in values
  {
    var d := RowsWith(data, column, values);
    var cells := Column(d, column);
    forall j | 0 <= j < |cells| ensures cells[j] in values {
      assert cells[j] == d.rows[j][column];
    }
  }

  /** Distinct groups drawn from a two-value list are exactly that list's values. */
  lemma GroupsOfPair(groups: seq<Cell>, a: Cell, b: Cell)
    requires |groups| == 2 && groups[0] != groups[1]
    requires forall x :: x in groups ==> x == a || x == b
    ensures a != b && (set x | x in groups) == {a, b}
  {
    assert groups[0] in groups && groups[1] in groups;
  }

  /** A column holding only the values `a` and `b` has two groups only if
      they differ, and its groups are then exactly those. */
  lemma PairGroups(cells: seq<Cell>, a: Cell, b: Cell)
    requires forall x :: x in cells ==> x in [a, b]
    requires |Unique(cells)| == 2
    ensures a != b
    ensures (set x | x in Unique(cells)) == {a, b}
  {
    var groups := Unique(cells);
    assert Distinct(groups);
    assert forall x :: x in groups ==> x in cells;
    GroupsOfPair(groups, a, b);
  }

  /** A t-test on the rows filtered to two values succeeds only if the
      values differ, and its groups are then exactly those values. */
  lemma FilteredPairGroups(lib: StatLib, data: Frame, feature: string, valueColumn: string, a: Cell, b: Cell)
    requires Valid(data) && Has(data, Col(feature))
    requires TTest(lib, RowsWith(data, Col(feature), [a, b]), feature, valueColumn).Success?
    ensures a != b
    ensures (set x | x in TTest(lib, RowsWith(data, Col(feature), [a, b]), feature, valueColumn).value.kind.groups) == {a, b}
  {
    var d := RowsWith(data, Col(feature), [a, b]);
    FilteredValues(data, Col(feature), [a, b]);
    PairGroups(Column(d, Col(feature)), a, b);
  }

  /** A margin t-test between two postal codes succeeds only if the codes
      differ, and its two groups are then exactly those codes. */
  lemma ZipMarginGroups(lib: StatLib, t: Tester, zipA: Cell, zipB: Cell)
    requires Consistent(t) && TestZipcodeMargin(lib, t, zipA, zipB).Success?
    ensures zipA != zipB
    ensures (set x | x in TestZipcodeMargin(lib, t, zipA, zipB).value.verdict.kind.groups) == {zipA, zipB}
  {
    FilteredPairGroups(lib, t.data, "PostalCode", "Margin", zipA, zipB);
  }

  /** Comparing a postal code with itself leaves one group at most, which
      `_t_test` rejects with ValueError. */
  lemma SameZipMarginFails(lib: StatLib, t: Tester, zip: Cell)
    requires Consistent(t) && t.metricsCalculated && Has(t.data, PostalCode)
    ensures var r := TestZipcodeMargin(lib, t, zip, zip);
      r.Failure? && r.error.ValueError?
  {
    if TTest(lib, RowsWith(t.data, PostalCode, [zip, zip]), "PostalCode", "Margin").Success? {
      FilteredPairGroups(lib, t.data, "PostalCode", "Margin", zip, zip);
    }
  }

  /** A successful gender test compares exactly "Male" with "Female". */
  lemma GenderGroups(lib: StatLib, t: Tester)
    requires Consistent(t) && TestGenderRisk(lib, t).Success?
    ensures (set x | x in TestGenderRisk(lib, t).value.1.verdict.kind.groups) == {Text("Male"), Text("Female")}
  {
    FilteredPairGroups(lib, t.data, "Gender", "TotalClaims", Text("Male"), Text("Female"));
  }
}

=== FILE: importance.dfy ===
/** `FeatureInterpreter` (scripts/feature_importance.py): the choice of SHAP
    explainer by model class name, the positive-class selection, the
    mean-absolute reduction per feature, and the ranked top-N table.

    shap itself is a parameter: a `Shap` value maps an explainer and the test
    features to the attributions `shap_values` returns (or to the exception
    it raises). The summary plot is a side effect and is not modelled. */
module Importance {
  import opened Wrappers
  import opened Seqs
  import opened Sorting
  import opened Frames
  import opened Strings

  // ---------------------------------------------------------------------
  // Explainer dispatch

  /** `TreeExplainer(model)`, `LinearExplainer(model, X_test)` with the test
      features as background data, or the generic `Explainer(model)`. */
  datatype Explainer = TreeExplainer | LinearExplainer(background: Frame) | GenericExplainer

  /** A fitted model, known by `type(model).__name__`, and the test features. */
  datatype Interpreter = Interpreter(modelName: string, xTest: Frame)

  predicate TreeFamily(name: string) {
    Contains(name, "XGB") || Contains(name, "RandomForest")
  }

  predicate LinearFamily(name: string) {
    Contains(name, "Linear") || Contains(name, "Logistic")
  }

  /** The tree test comes first, so a name matching both families gets the
      tree explainer. */
  function ChooseExplainer(fi: Interpreter): (e: Explainer)
    ensures e.TreeExplainer? <==> TreeFamily(fi.modelName)
    ensures e.LinearExplainer? <==> !TreeFamily(fi.modelName) && LinearFamily(fi.modelName)
    ensures e.LinearExplainer? ==> e.background == fi.xTest
  {
    if TreeFamily(fi.modelName) then TreeExplainer
    else if LinearFamily(fi.modelName) then LinearExplainer(fi.xTest)
    else GenericExplainer
  }

  /** Python's substring test, stated as "some window of the name spells the
      family marker": the explainer depends on exactly that. */
  lemma ExplainerByWindow(fi: Interpreter)
    ensures ChooseExplainer(fi).TreeExplainer? <==>
      (exists i :: OccursAt(fi.modelName, "XGB", i)) || (exists i :: OccursAt(fi.modelName, "RandomForest", i))
    ensures ChooseExplainer(fi).LinearExplainer? <==>
      && !(exists i :: OccursAt(fi.modelName, "XGB", i))
      && !(exists i :: OccursAt(fi.modelName, "RandomForest", i))
      && ((exists i :: OccursAt(fi.modelName, "Linear", i)) || (exists i :: OccursAt(fi.modelName, "Logistic", i)))
  {
    ContainsMeansOccurs(fi.modelName, "XGB");
    ContainsMeansOccurs(fi.modelName, "RandomForest");
    ContainsMeansOccurs(fi.modelName, "Linear");
    ContainsMeansOccurs(fi.modelName, "Logistic");
  }

  /** The tree-ensemble classes the training module fits get the tree
      explainer. */
  lemma TreeModelsExplainer(x: Frame)
    ensures ChooseExplainer(Interpreter("XGBClassifier", x)).TreeExplainer?
    ensures ChooseExplainer(Interpreter("XGBRegressor", x)).TreeExplainer?
    ensures ChooseExplainer(Interpreter("RandomForestClassifier", x)).TreeExplainer?
    ensures ChooseExplainer(Interpreter("RandomForestRegressor", x)).TreeExplainer?
  {
    assert StartsWith("XGBClassifier", "XGB");
    assert StartsWith("XGBRegressor", "XGB");
    assert StartsWith("RandomForestClassifier", "RandomForest");
    assert StartsWith("RandomForestRegressor", "RandomForest");
  }

  // ---------------------------------------------------------------------
  // Attributions

  datatype Grid = Grid(width: nat, rows: seq<seq<real>>)

  /** A 2-D numpy array: every row has `width` entries. */
  predicate Rectangular(g: Grid) {
    forall i :: 0 <= i < |g.rows| ==> |g.rows[i]| == g.width
  }

  /** One attribution per test row and feature. */
  type Matrix = g: Grid | Rectangular(g) witness Grid(0, [])

  /** What `shap_values` returns: a single array, or a list of per-class
      arrays for a classifier. */
  datatype Attributions = Single(values: Matrix) | PerClass(classes: seq<Matrix>)

  /** `explainer.shap_values(X_test)`. */
  type Shap = (Explainer, Frame) -> Result<Attributions>

  const OneDimensional := ValueError("Per-column arrays must each be 1-dimensional")

  /** The attributions the rest of `shap_summary` works on. A list of more
      than one array is replaced by its element 1; any other list is kept,
      and the reduction then fails: a one-element list averages to a 2-D
      array pandas refuses as a column, and the plot indexes into an empty
      list. */
  function PositiveClass(a: Attributions): (r: Result<Matrix>)
    ensures r.Success? <==> a.Single? || |a.classes| > 1
    ensures a.Single? ==> r == Success(a.values)
    ensures a.PerClass? && |a.classes| > 1 ==> r == Success(a.classes[1])
    ensures a.PerClass? && |a.classes| == 1 ==> r == Failure(OneDimensional)
  {
    match a
    case Single(m) => Success(m)
    case PerClass(cs) =>
      if |cs| > 1 then Success(cs[1])
      else if |cs| == 1 then Failure(OneDimensional)
      else Failure(LibraryError)
  }

  // ---------------------------------------------------------------------
  // Mean absolute attribution

  function Abs(x: real): real {
    if x < 0.0 then -x else x
  }

  /** Σ |m[i][j]| over the first n rows. */
  function AbsSum(m: Matrix, j: nat, n: nat): (s: real)
    requires j < m.width && n <= |m.rows|
    ensures s >= 0.0
  {
    if n == 0 then 0.0 else AbsSum(m, j, n - 1) + Abs(m.rows[n - 1][j])
  }

  /** `np.abs(values).mean(axis=0)[j]`: NaN when there are no rows. */
  function MeanAbsOf(m: Matrix, j: nat): (r: Option<real>)
    requires j < m.width
    ensures r.None? <==> |m.rows| == 0
    ensures r.Some? ==> r.value >= 0.0
  {
    var n := |m.rows| as real;
    if n == 0.0 then None
    else
      var s := AbsSum(m, j, |m.rows|);
      Ratio(s, n)
  }

  /** The whole reduction, one score per feature column. */
  function MeanAbsScores(m: Matrix): (r: seq<Option<real>>)
    ensures |r| == m.width
    ensures forall j :: 0 <= j < m.width ==> r[j] == MeanAbsOf(m, j)
  {
    seq(m.width, j requires 0 <= j < m.width => MeanAbsOf(m, j))
  }

  /** The reduction computed row by row, as numpy's accumulation does. */
  method MeanAbs(m: Matrix) returns (scores: seq<Option<real>>)
    ensures scores == MeanAbsScores(m)
  {
    var sums := seq(m.width, j => 0.0);
    var i := 0;
    while i < |m.rows|
      invariant 0 <= i <= |m.rows|
      invariant |sums| == m.width
      invariant forall j :: 0 <= j < m.width ==> sums[j] == AbsSum(m, j, i)
    {
      var row := m.rows[i];
      var next := [];
      var j := 0;
      while j < m.width
        invariant 0 <= j <= m.width
        invariant |next| == j
        invariant forall k :: 0 <= k < j ==> next[k] == sums[k] + Abs(row[k])
      {
        next := next + [sums[j] + Abs(row[j])];
        j := j + 1;
      }
      sums := next;
      i := i + 1;
    }
    scores := [];
    var j := 0;
    while j < m.width
      invariant 0 <= j <= m.width
      invariant |scores| == j
      invariant forall k :: 0 <= k < j ==> scores[k] == MeanAbsOf(m, k)
    {
      scores := scores + [Ratio(sums[j], |m.rows| as real)];
      j := j + 1;
    }
  }

  /** The absolute sum vanishes exactly when every entry in the column does. */
  lemma {:induction false} AbsSumZero(m: Matrix, j: nat, n: nat)
    requires j < m.width && n <= |m.rows|
    ensures AbsSum(m, j, n) == 0.0 <==> forall i :: 0 <= i < n ==> m.rows[i][j] == 0.0
  {
    if n > 0 {
      AbsSumZero(m, j, n - 1);
    }
  }

  /** A feature scores zero exactly when it has some rows and every one of
      its attributions is zero. */
  lemma ZeroScore(m: Matrix, j: nat)
    requires j < m.width
    ensures MeanAbsOf(m, j) == Some(0.0) <==>
      |m.rows| > 0 && forall i :: 0 <= i < |m.rows| ==> m.rows[i][j] == 0.0
  {
    AbsSumZero(m, j, |m.rows|);
    if |m.rows| > 0 {
      var s, n := AbsSum(m, j, |m.rows|), |m.rows| as real;
      assert s / n == 0.0 ==> s == 0.0 by {
        if s / n == 0.0 {
          assert s == (s / n) * n;
        }
      }
    }
  }

  // ---------------------------------------------------------------------
  // The ranked table

  /** A row of `feature_importance_df`. */
  datatype Importance = Importance(feature: Name, score: Option<real>)

  /** The `Mean_Abs_SHAP` sort key. Scores are never negative, so placing NaN
      at -1 puts it after every number, as `na_position='last'` does. */
  function SortKey(e: Importance): real {
    if e.score.Some? then e.score.value else -1.0
  }

  /** The unsorted table: feature names beside their scores. */
  function Pair(features: seq<Name>, scores: seq<Option<real>>): (t: seq<Importance>)
    requires |features| == |scores|
    ensures |t| == |features|
    ensures forall i :: 0 <= i < |t| ==> t[i] == Importance(features[i], scores[i])
  {
    seq(|features|, i requires 0 <= i < |features| => Importance(features[i], scores[i]))
  }

  /** `feature_importance_df` after `sort_values(ascending=False)`. */
  function Ranked(features: seq<Name>, m: Matrix): (t: seq<Importance>)
    requires |features| == m.width
    ensures NonIncreasing(t, SortKey)
    ensures multiset(t) == multiset(Pair(features, MeanAbsScores(m)))
  {
    SortDesc(Pair(features, MeanAbsScores(m)), SortKey)
  }

  /** The pair `shap_summary` returns. */
  datatype Summary = Summary(top: seq<Importance>, values: Matrix)

  const LengthMismatch := ValueError("All arrays must be of the same length")

  /** `shap_summary(top_n)`. It fails when shap raises, when the
      attributions are a list of at most one array, or when they do not have
      one column per feature; otherwise it returns the `top_n` highest-scoring
      features and the attributions it used. */
  method ShapSummary(shap: Shap, fi: Interpreter, topN: int) returns (r: Result<Summary>)
    ensures var a := shap(ChooseExplainer(fi), fi.xTest);
      r.Success? <==>
        && a.Success?
        && PositiveClass(a.value).Success?
        && PositiveClass(a.value).value.width == |fi.xTest.names|
    ensures var a := shap(ChooseExplainer(fi), fi.xTest);
      (a.Success? && PositiveClass(a.value).Success? && PositiveClass(a.value).value.width != |fi.xTest.names|)
        ==> r == Failure(LengthMismatch)
    ensures var a := shap(ChooseExplainer(fi), fi.xTest);
      a.Failure? ==> r == Failure(a.error)
    ensures var a := shap(ChooseExplainer(fi), fi.xTest);
      a.Success? && PositiveClass(a.value).Failure? ==> r == Failure(PositiveClass(a.value).error)
    ensures r.Success? ==>
      var m := r.value.values;
      && m == PositiveClass(shap(ChooseExplainer(fi), fi.xTest).value).value
      && r.value.top == Head(Ranked(fi.xTest.names, m), topN)
      && NonIncreasing(r.value.top, SortKey)
      && (topN >= 0 ==> |r.value.top| == if topN < m.width then topN else m.width)
  {
    var a := shap(ChooseExplainer(fi), fi.xTest);
    if a.Failure? {
      return Failure(a.error);
    }
    var selected := PositiveClass(a.value);
    if selected.Failure? {
      return Failure(selected.error);
    }
    var m := selected.value;
    var scores := MeanAbs(m);
    if m.width != |fi.xTest.names| {
      return Failure(LengthMismatch);
    }
    var table := SortDesc(Pair(fi.xTest.names, scores), SortKey);
    assert |table| == |multiset(table)| == m.width;
    var top := Head(table, topN);
    assert NonIncreasing(top, SortKey) by {
      assert top == table[..|top|];
    }
    return Success(Summary(top, m));
  }

  /** Every feature ranks once, with its own score: the sorted table is the
      feature list paired with the scores, in some order. */
  lemma RankedFeatures(features: seq<Name>, m: Matrix, k: nat)
    requires |features| == m.width && k < m.width
    ensures Importance(features[k], MeanAbsOf(m, k)) in Ranked(features, m)
    ensures forall e :: e in Ranked(features, m) ==>
      exists j :: 0 <= j < m.width && e == Importance(features[j], MeanAbsOf(m, j))
  {
    var table := Pair(features, MeanAbsScores(m));
    var t := Ranked(features, m);
    assert table[k] in multiset(table);
    forall e | e in t
      ensures exists j :: 0 <= j < m.width && e == Importance(features[j], MeanAbsOf(m, j))
    {
      assert e in multiset(t);
      var j :| 0 <= j < |table| && table[j] == e;
    }
  }

  /** A feature left out of the top `n` scores no higher than any feature
      kept. */
  lemma TopOutranksRest(features: seq<Name>, m: Matrix, n: nat, k: nat, e: Importance)
    requires |features| == m.width && k < m.width
    requires e in Head(Ranked(features, m), n)
    requires Importance(features[k], MeanAbsOf(m, k)) !in Head(Ranked(features, m), n)
    ensures SortKey(Importance(features[k], MeanAbsOf(m, k))) <= SortKey(e)
  {
    var t := Ranked(features, m);
    var x := Importance(features[k], MeanAbsOf(m, k));
    RankedFeatures(features, m, k);
    var top := Head(t, n);
    assert top == t[..|top|];
    PrefixOutranks(t, SortKey, |top|, e, x);
  }
}

=== FILE: preprocessing.dfy ===
/** `PreprocessData` (scripts/data_preprocessing.py): the missing-value
    report, the missing-value repair and the choice of columns converted to
    `category`. */
module Preprocessing {
  import opened Wrappers
  import opened Seqs
  import opened Cells
  import opened Frames
  import opened Sorting

  // ---------------------------------------------------------------------
  // handle_missing_values

  /** The two columns dropped for being almost entirely empty. */
  const SparseColumns: set<Name> := {Col("NumberOfVehiclesInFleet"), Col("CrossBorder")}

  /** The high-risk vehicle flags whose missing cells are read as "No". */
  const RiskFlags: seq<Name> := [Col("WrittenOff"), Col("Rebuilt"), Col("Converted")]

  const No := Text("No")

  const NewCategory := TypeError("Cannot setitem on a Categorical with a new category (No), set the categories first")

  /** `fillna('No')` on a `category` column whose categories lack "No"
      raises. The fill value is validated before looking for a missing cell,
      so the column raises whether or not it has one. */
  predicate FillRejected(f: Frame, n: Name)
    requires Valid(f) && Has(f, n)
  {
    f.kinds[n] == Categorical && No !in Column(f, n)
  }

  /** The dtype after `fillna('No')`: text columns keep theirs, any other
      column holding a missing cell becomes `object`. */
  function FilledKind(k: Kind, cells: seq<Cell>): Kind {
    if IsTextual(k) || Missing !in cells then k else Object
  }

  function FillCells(cells: seq<Cell>): (r: seq<Cell>)
    ensures |r| == |cells|
    ensures forall i :: 0 <= i < |r| ==> r[i] == if cells[i] == Missing then No else cells[i]
  {
    seq(|cells|, i requires 0 <= i < |cells| => if cells[i] == Missing then No else cells[i])
  }

  /** `data[n] = data[n].fillna('No')`. */
  function FillNo(f: Frame, n: Name): (r: Result<Frame>)
    requires Valid(f) && Has(f, n)
    ensures r.Success? <==> !FillRejected(f, n)
    ensures r.Failure? ==> r.error == NewCategory
    ensures r.Success? ==>
      && Valid(r.value) && r.value.names == f.names && |r.value.rows| == |f.rows|
      && r.value.kinds == f.kinds[n := FilledKind(f.kinds[n], Column(f, n))]
      && forall i :: 0 <= i < |f.rows| ==>
           r.value.rows[i] == f.rows[i][n := if f.rows[i][n] == Missing then No else f.rows[i][n]]
  {
    if FillRejected(f, n) then Failure(NewCategory)
    else
      var cells := Column(f, n);
      var k := FilledKind(f.kinds[n], cells);
      assert forall i :: 0 <= i < |cells| ==> Fits(k, FillCells(cells)[i]) by {
        forall i | 0 <= i < |cells| ensures Fits(k, FillCells(cells)[i]) {
          assert RowFits(f.kinds, f.rows[i]);
          if cells[i] == Missing { assert Missing in cells; }
        }
      }
      Success(WithColumn(f, n, k, FillCells(cells)))
  }

  /** A row after the flags in `flags` are filled: their missing cells read
      "No" and every other cell is kept. */
  function FillRow(flags: seq<Name>, row: Row): (r: Row)
    ensures r.Keys == row.Keys
    ensures forall n :: n in row ==> r[n] == if n in flags && row[n] == Missing then No else row[n]
  {
    map n | n in row :: if n in flags && row[n] == Missing then No else row[n]
  }

  /** The loop over the risk flags: each present flag is filled in turn. */
  function FillFlags(f: Frame, flags: seq<Name>): (r: Result<Frame>)
    requires Valid(f)
    ensures r.Success? ==>
      && Valid(r.value) && r.value.names == f.names && r.value.kinds.Keys == f.kinds.Keys
      && |r.value.rows| == |f.rows|
    ensures r.Failure? ==> r.error == NewCategory
    decreases |flags|
  {
    if |flags| == 0 then Success(f)
    else
      var g :- if Has(f, flags[0]) then FillNo(f, flags[0]) else Success(f);
      FillFlags(g, flags[1..])
  }

  /** Filling one flag leaves whether another column would reject the fill as it was. */
  lemma SameAfterFill(f: Frame, n: Name, m: Name)
    requires Valid(f) && Has(f, n) && FillNo(f, n).Success? && Has(f, m)
    ensures FillRejected(FillNo(f, n).value, m) <==> FillRejected(f, m)
  {
    var g := FillNo(f, n).value;
    if m == n {
      assert Missing !in Column(g, m);
    } else {
      assert Column(g, m) == Column(f, m);
    }
  }

  /** The flag loop fails exactly when some present flag rejects the fill. */
  lemma {:induction false} FillFlagsOutcome(f: Frame, flags: seq<Name>)
    requires Valid(f)
    ensures FillFlags(f, flags).Success? <==>
      forall j :: 0 <= j < |flags| && Has(f, flags[j]) ==> !FillRejected(f, flags[j])
    decreases |flags|
  {
    if |flags| > 0 {
      var n := flags[0];
      if Has(f, n) && FillNo(f, n).Failure? {
        assert FillRejected(f, flags[0]);
      } else {
        var g := if Has(f, n) then FillNo(f, n).value else f;
        FillFlagsOutcome(g, flags[1..]);
        forall j | 1 <= j < |flags| && Has(f, flags[j])
          ensures FillRejected(g, flags[j]) <==> FillRejected(f, flags[j])
        {
          if Has(f, n) { SameAfterFill(f, n, flags[j]); }
        }
        assert forall j :: 0 <= j < |flags| - 1 ==> flags[1..][j] == flags[j + 1];
      }
    }
  }

  lemma FillRowStep(flags: seq<Name>, row: Row, n: Name)
    requires |flags| > 0 && n == flags[0] && n in row
    ensures FillRow(flags[1..], row[n := if row[n] == Missing then No else row[n]]) == FillRow(flags, row)
  {
    assert flags == [n] + flags[1..];
  }

  /** Filling the first flag, then the rest, fills each row as filling them
      all at once does. */
  lemma FilledRowStep(f: Frame, flags: seq<Name>, i: nat)
    requires Valid(f) && |flags| > 0 && i < |f.rows|
    requires Has(f, flags[0]) ==> FillNo(f, flags[0]).Success?
    ensures var g := if Has(f, flags[0]) then FillNo(f, flags[0]).value else f;
      i < |g.rows| && FillRow(flags[1..], g.rows[i]) == FillRow(flags, f.rows[i])
  {
    var n := flags[0];
    assert RowFits(f.kinds, f.rows[i]);
    if Has(f, n) {
      FillRowStep(flags, f.rows[i], n);
    } else {
      assert FillRow(flags[1..], f.rows[i]) == FillRow(flags, f.rows[i]);
    }
  }

  /** What the flag loop leaves: every row filled as `FillRow` says, and the
      dtype of every column outside the flags kept. */
  lemma {:induction false} FillFlagsRows(f: Frame, flags: seq<Name>)
    requires Valid(f) && FillFlags(f, flags).Success?
    ensures var g := FillFlags(f, flags).value;
      && (forall i :: 0 <= i < |f.rows| ==> g.rows[i] == FillRow(flags, f.rows[i]))
      && forall n :: Has(f, n) && n !in flags ==> g.kinds[n] == f.kinds[n]
    decreases |flags|
  {
    if |flags| == 0 {
      forall i | 0 <= i < |f.rows| ensures f.rows[i] == FillRow(flags, f.rows[i]) {}
    } else {
      var g := if Has(f, flags[0]) then FillNo(f, flags[0]).value else f;
      FillFlagsRows(g, flags[1..]);
      forall i | 0 <= i < |f.rows| ensures FillFlags(f, flags).value.rows[i] == FillRow(flags, f.rows[i]) {
        FilledRowStep(f, flags, i);
      }
    }
  }

  /** `handle_missing_values`: drops the sparse columns that are present and
      fills the risk flags that are present. The commented-out replacement of
      `CustomValueEstimate` zeros is not part of the behaviour. */
  function HandleMissingValues(f: Frame): (r: Result<Frame>)
    requires Valid(f)
    ensures r.Failure? ==> r.error == NewCategory
    ensures r.Success? ==> Valid(r.value)
  {
    FillFlags(DropColumns(f, SparseColumns), RiskFlags)
  }

  lemma DropKeepsColumn(f: Frame, drop: set<Name>, n: Name)
    requires Valid(f) && Has(f, n) && n !in drop
    ensures Has(DropColumns(f, drop), n) && Column(DropColumns(f, drop), n) == Column(f, n)
  {
  }

  /** Dropping columns that are not flags changes nothing about which flags
      reject the fill. */
  lemma DropThenFillOutcome(f: Frame, drop: set<Name>, flags: seq<Name>)
    requires Valid(f) && forall n :: n in flags ==> n !in drop
    ensures FillFlags(DropColumns(f, drop), flags).Success? <==>
      forall j :: 0 <= j < |flags| && Has(f, flags[j]) ==> !FillRejected(f, flags[j])
  {
    var d := DropColumns(f, drop);
    FillFlagsOutcome(d, flags);
    forall j | 0 <= j < |flags|
      ensures Has(d, flags[j]) <==> Has(f, flags[j])
      ensures Has(f, flags[j]) ==> (FillRejected(d, flags[j]) <==> FillRejected(f, flags[j]))
    {
      if Has(f, flags[j]) { DropKeepsColumn(f, drop, flags[j]); }
    }
  }

  lemma FlagsAreNotSparse()
    ensures forall n :: n in RiskFlags ==> n !in SparseColumns
  {
  }

  /** `handle_missing_values` raises exactly when a present risk flag is a
      `category` column without a "No" category, gap or not. */
  lemma HandleMissingValuesOutcome(f: Frame)
    requires Valid(f)
    ensures HandleMissingValues(f).Success? <==>
      forall j :: 0 <= j < |RiskFlags| && Has(f, RiskFlags[j]) ==> !FillRejected(f, RiskFlags[j])
  {
    FlagsAreNotSparse();
    DropThenFillOutcome(f, SparseColumns, RiskFlags);
  }

  /** `g` is `f` with the columns in `drop` removed and the missing cells of
      the flags in `flags` filled with "No": the same rows, every other column
      with its dtype and its cells, every flag cell "No" where it was missing
      and unchanged where it was known. */
  ghost predicate DroppedAndFilled(f: Frame, drop: set<Name>, flags: seq<Name>, g: Frame) {
    && Valid(f) && Valid(g)
    && |g.rows| == |f.rows|
    && (forall n :: Has(g, n) <==> Has(f, n) && n !in drop)
    && (forall n :: Has(g, n) && n !in flags ==> g.kinds[n] == f.kinds[n])
    && (forall i, n :: 0 <= i < |f.rows| && Has(g, n) && n !in flags ==> g.rows[i][n] == f.rows[i][n])
    && (forall i, n :: 0 <= i < |f.rows| && Has(g, n) && n in flags ==>
          g.rows[i][n] == if f.rows[i][n] == Missing then No else f.rows[i][n])
  }

  lemma DropThenFillRows(f: Frame, drop: set<Name>, flags: seq<Name>)
    requires Valid(f) && FillFlags(DropColumns(f, drop), flags).Success?
    ensures DroppedAndFilled(f, drop, flags, FillFlags(DropColumns(f, drop), flags).value)
  {
    var d := DropColumns(f, drop);
    var g := FillFlags(d, flags).value;
    FillFlagsRows(d, flags);
    forall i, n | 0 <= i < |f.rows| && Has(g, n)
      ensures n in d.rows[i] && g.rows[i][n] == if n in flags && f.rows[i][n] == Missing then No else f.rows[i][n]
    {
      assert RowFits(d.kinds, d.rows[i]);
    }
  }

  /** After `handle_missing_values` the sparse columns are gone, every present
      risk flag is complete with its known cells kept, the rows are the same
      rows, and every other column keeps its dtype and its cells. */
  lemma HandledFrame(f: Frame)
    requires Valid(f) && HandleMissingValues(f).Success?
    ensures DroppedAndFilled(f, SparseColumns, RiskFlags, HandleMissingValues(f).value)
  {
    DropThenFillRows(f, SparseColumns, RiskFlags);
  }

  // ---------------------------------------------------------------------
  // check_missing_values

  /** One line of the report: the column, its missing count and percentage. */
  datatype MissingEntry = MissingEntry(column: Name, count: nat, percent: real)

  /** The sort key of the report. */
  function PercentOf(e: MissingEntry): real {
    e.percent
  }

  /** `isna().sum()` for one column. */
  function MissingCount(cells: seq<Cell>): (k: nat)
    ensures k <= |cells|
    ensures k > 0 <==> Missing in cells
  {
    if |cells| == 0 then 0
    else
      var last := cells[|cells| - 1];
      assert cells == cells[..|cells| - 1] + [last];
      MissingCount(cells[..|cells| - 1]) + (if last == Missing then 1 else 0)
  }

  /** Python's `round(x, 2)` on an exact value: to the nearest hundredth,
      ties to the even hundredth. */
  function Round2(x: real): (r: real) {
    var y := x * 100.0;
    var n := y.Floor;
    var frac := y - n as real;
    var m := if frac > 0.5 || (frac == 0.5 && n % 2 == 1) then n + 1 else n;
    m as real / 100.0
  }

  lemma Round2Bounds(x: real)
    requires 0.0 <= x <= 100.0
    ensures 0.0 <= Round2(x) <= 100.0
  {
    var y := x * 100.0;
    assert 0.0 <= y <= 10000.0;
    assert 0 <= y.Floor <= 10000;
  }

  /** `missing_count / len(data) * 100` rounded to two places. */
  function MissingPercent(count: nat, rows: nat): (p: real)
    requires 0 < count <= rows
    ensures 0.0 <= p <= 100.0
  {
    FractionBounds(count as real, rows as real);
    var share := count as real / rows as real;
    Round2Bounds(share * 100.0);
    Round2(share * 100.0)
  }

  /** The report line of a column that has a missing cell. */
  function Entry(f: Frame, n: Name): (e: MissingEntry)
    requires Valid(f) && Has(f, n) && Missing in Column(f, n)
    ensures e.column == n && 0 < e.count <= |f.rows| && 0.0 <= e.percent <= 100.0
  {
    var count := MissingCount(Column(f, n));
    MissingEntry(n, count, MissingPercent(count, |f.rows|))
  }

  /** `e` is the report line of a column of `f` with a missing cell. */
  predicate Reported(f: Frame, e: MissingEntry)
    requires Valid(f)
  {
    Has(f, e.column) && Missing in Column(f, e.column) && e == Entry(f, e.column)
  }

  /** One entry per column with a missing cell, in column order. */
  function MissingEntries(f: Frame, names: seq<Name>): (es: seq<MissingEntry>)
    requires Valid(f) && forall n :: n in names ==> Has(f, n)
    ensures forall e :: e in es ==> Reported(f, e) && e.column in names
    ensures forall n :: n in names && Missing in Column(f, n) ==> Entry(f, n) in es
    ensures Distinct(names) ==> Distinct(es)
  {
    if |names| == 0 then []
    else
      var rest := MissingEntries(f, names[1..]);
      assert names == [names[0]] + names[1..];
      if Missing in Column(f, names[0]) then
        PrependEntry(f, names, rest);
        [Entry(f, names[0])] + rest
      else rest
  }

  /** Putting a fresh column's entry in front keeps the entries duplicate-free. */
  lemma PrependEntry(f: Frame, names: seq<Name>, rest: seq<MissingEntry>)
    requires Valid(f) && |names| > 0 && Has(f, names[0]) && Missing in Column(f, names[0])
    requires forall e :: e in rest ==> e.column in names[1..]
    requires Distinct(names[1..]) ==> Distinct(rest)
    ensures Distinct(names) ==> Distinct([Entry(f, names[0])] + rest)
  {
    if Distinct(names) {
      forall i, j | 0 <= i < j < |names[1..]| ensures names[1..][i] != names[1..][j] {
        assert names[1..][i] == names[i + 1] && names[1..][j] == names[j + 1];
      }
      forall k | 0 <= k < |names[1..]| ensures names[1..][k] != names[0] {
        assert names[1..][k] == names[k + 1];
      }
      DistinctConcat([Entry(f, names[0])], rest);
    }
  }

  /** `check_missing_values`: the report sorted by descending percentage. It
      holds a line for exactly the columns with a missing cell, each with its
      count and its percentage of the rows. */
  function CheckMissingValues(f: Frame): (report: seq<MissingEntry>)
    requires Valid(f)
    ensures NonIncreasing(report, PercentOf)
    ensures forall j :: 0 <= j < |report| ==> Reported(f, report[j])
    ensures forall n :: Has(f, n) && Missing in Column(f, n) ==> Entry(f, n) in report
    ensures forall j, k :: 0 <= j < k < |report| ==> report[j].column != report[k].column
  {
    var entries := MissingEntries(f, f.names);
    var report := SortDesc(entries, PercentOf);
    SortedMembers(entries, PercentOf);
    PermutationKeepsDistinct(entries, report);
    ColumnsDistinct(f, report);
    report
  }

  /** Distinct report lines name distinct columns, since a line is determined
      by its column. */
  lemma ColumnsDistinct(f: Frame, report: seq<MissingEntry>)
    requires Valid(f) && Distinct(report)
    requires forall j :: 0 <= j < |report| ==> Reported(f, report[j])
    ensures forall j, k :: 0 <= j < k < |report| ==> report[j].column != report[k].column
  {
    forall j, k | 0 <= j < k < |report| ensures report[j].column != report[k].column {
      assert report[j] != report[k];
      assert Reported(f, report[j]) && Reported(f, report[k]);
    }
  }

  /** No column is reported twice, and every percentage lies in [0, 100]. */
  lemma ReportIsFunctional(f: Frame)
    requires Valid(f)
    ensures var report := CheckMissingValues(f);
      && (forall j, k :: 0 <= j < |report| && 0 <= k < |report| && report[j].column == report[k].column ==> j == k)
      && forall j :: 0 <= j < |report| ==> 0.0 <= report[j].percent <= 100.0
  {
  }

  // ---------------------------------------------------------------------
  // convert_data_types: the columns turned into `category`

  /** The list exactly as the source writes it: two adjacent literals with no
      comma between them are one string, so "StatutoryRiskType" and
      "WrittenOff" are missing and "StatutoryRiskTypeWrittenOff" is listed. */
  const CategoricalColumns: seq<string> := [
    "IsVATRegistered", "Citizenship", "LegalType", "Title", "Language",
    "Bank", "AccountType", "MaritalStatus", "Gender", "Country",
    "Province", "MainCrestaZone", "SubCrestaZone", "ItemType", "VehicleType",
    "make", "Model", "bodytype", "AlarmImmobiliser", "TrackingDevice",
    "TermFrequency", "CoverCategory", "CoverType", "CoverGroup",
    "Section", "Product", "StatutoryClass", "StatutoryRiskType" + "WrittenOff", "Rebuilt", "Converted"]

  /** The list with the missing comma restored. */
  const IntendedCategoricalColumns: seq<string> := [
    "IsVATRegistered", "Citizenship", "LegalType", "Title", "Language",
    "Bank", "AccountType", "MaritalStatus", "Gender", "Country",
    "Province", "MainCrestaZone", "SubCrestaZone", "ItemType", "VehicleType",
    "make", "Model", "bodytype", "AlarmImmobiliser", "TrackingDevice",
    "TermFrequency", "CoverCategory", "CoverType", "CoverGroup",
    "Section", "Product", "StatutoryClass", "StatutoryRiskType", "WrittenOff", "Rebuilt", "Converted"]

  /** Whether a column ends up `category`: it is listed and held `object`
      values. */
  predicate Converted(listed: seq<string>, n: Name, k: Kind) {
    n.Col? && n.header in listed && k == Object
  }

  /** The dtypes after the loop `for col in cols_to_convert: if dtype ==
      'object': astype('category')`; the cells are untouched. */
  function ConvertKinds(kinds: map<Name, Kind>, cols: seq<string>): (r: map<Name, Kind>)
    ensures r.Keys == kinds.Keys
    ensures forall n :: n in kinds ==> r[n] == if Converted(cols, n, kinds[n]) then Categorical else kinds[n]
    decreases |cols|
  {
    if |cols| == 0 then kinds
    else
      var n := Col(cols[0]);
      var k1 := if n in kinds && kinds[n] == Object then kinds[n := Categorical] else kinds;
      assert cols == [cols[0]] + cols[1..];
      ConvertKinds(k1, cols[1..])
  }

  /** `[col for col in categorical_cols if col in data.columns]`. */
  function PresentColumns(f: Frame, listed: seq<string>): (cols: seq<string>)
    ensures forall c :: c in cols <==> c in listed && Has(f, Col(c))
  {
    Filter(listed, c => Has(f, Col(c)))
  }

  /** The categorical conversion of `convert_data_types` for a given list:
      dtypes change only for listed, present `object` columns. */
  function ConvertCategoricals(f: Frame, listed: seq<string>): (g: Frame)
    requires Valid(f)
    ensures Valid(g) && g.names == f.names && g.rows == f.rows && g.kinds.Keys == f.kinds.Keys
    ensures forall n :: n in f.kinds ==>
      (g.kinds[n] == Categorical <==> f.kinds[n] == Categorical || Converted(listed, n, f.kinds[n]))
    ensures forall n :: n in f.kinds && !Converted(listed, n, f.kinds[n]) ==> g.kinds[n] == f.kinds[n]
  {
    var g := Frame(f.names, ConvertKinds(f.kinds, PresentColumns(f, listed)), f.rows);
    assert forall i :: 0 <= i < |g.rows| ==> RowFits(g.kinds, g.rows[i]) by {
      forall i | 0 <= i < |g.rows| ensures RowFits(g.kinds, g.rows[i]) {
        assert RowFits(f.kinds, f.rows[i]);
      }
    }
    g
  }

  /** The columns `convert_data_types` reads before the categorical loop, in
      order; reading an absent one raises `KeyError`. */
  const ParsedColumns: seq<string> := ["PostalCode", "TransactionMonth", "VehicleIntroDate", "CapitalOutstanding"]

  /** `g` is `f` after the categorical conversion for `listed`: the same
      names and cells, and exactly the listed `object` columns made
      `category`. */
  ghost predicate ConvertedFrom(f: Frame, listed: seq<string>, g: Frame) {
    && Valid(g) && g.names == f.names && g.rows == f.rows && g.kinds.Keys == f.kinds.Keys
    && forall n :: n in f.kinds ==> g.kinds[n] == if Converted(listed, n, f.kinds[n]) then Categorical else f.kinds[n]
  }

  /** `convert_data_types` for a given list: fails with `KeyError` on the
      first absent parsed column, and otherwise converts the listed columns. */
  function ConvertWith(f: Frame, listed: seq<string>): (r: Result<Frame>)
    requires Valid(f)
    ensures r.Success? <==> forall c :: c in ParsedColumns ==> Has(f, Col(c))
    ensures r.Failure? ==> exists j :: (0 <= j < |ParsedColumns| && r.error == KeyError(ParsedColumns[j])
      && !Has(f, Col(ParsedColumns[j])) && forall i :: 0 <= i < j ==> Has(f, Col(ParsedColumns[i])))
    ensures r.Success? ==> ConvertedFrom(f, listed, r.value)
  {
    var absent := FirstAbsent(f, ParsedColumns);
    if absent.Some? then Failure(KeyError(absent.value))
    else
      var g := ConvertCategoricals(f, listed);
      assert forall n :: n in f.kinds ==> g.kinds[n] == if Converted(listed, n, f.kinds[n]) then Categorical else f.kinds[n];
      Success(g)
  }

  /** `convert_data_types` as written. */
  function ConvertDataTypes(f: Frame): (r: Result<Frame>)
    requires Valid(f)
    ensures r.Success? <==> forall c :: c in ParsedColumns ==> Has(f, Col(c))
    ensures r.Failure? ==> exists j :: (0 <= j < |ParsedColumns| && r.error == KeyError(ParsedColumns[j])
      && !Has(f, Col(ParsedColumns[j])) && forall i :: 0 <= i < j ==> Has(f, Col(ParsedColumns[i])))
    ensures r.Success? ==> ConvertedFrom(f, CategoricalColumns, r.value)
  {
    ConvertWith(f, CategoricalColumns)
  }

  /** `convert_data_types` with the comma restored. */
  function ConvertDataTypesIntended(f: Frame): (r: Result<Frame>)
    requires Valid(f)
    ensures r.Success? <==> forall c :: c in ParsedColumns ==> Has(f, Col(c))
    ensures r.Failure? ==> exists j :: (0 <= j < |ParsedColumns| && r.error == KeyError(ParsedColumns[j])
      && !Has(f, Col(ParsedColumns[j])) && forall i :: 0 <= i < j ==> Has(f, Col(ParsedColumns[i])))
    ensures r.Success? ==> ConvertedFrom(f, IntendedCategoricalColumns, r.value)
  {
    ConvertWith(f, IntendedCategoricalColumns)
  }

  lemma RiskTypeUnlisted()
    ensures "StatutoryRiskType" !in CategoricalColumns
  {
  }

  lemma WrittenOffUnlisted()
    ensures "WrittenOff" !in CategoricalColumns
  {
  }

  /** As written, neither `StatutoryRiskType` nor `WrittenOff` is ever
      converted: an `object` column of either name stays `object`. */
  lemma WrittenListSkipsTwoColumns(f: Frame)
    requires Valid(f)
    ensures ConvertDataTypes(f).Success? && Has(f, Col("StatutoryRiskType")) ==>
      ConvertDataTypes(f).value.kinds[Col("StatutoryRiskType")] == f.kinds[Col("StatutoryRiskType")]
    ensures ConvertDataTypes(f).Success? && Has(f, Col("WrittenOff")) ==>
      ConvertDataTypes(f).value.kinds[Col("WrittenOff")] == f.kinds[Col("WrittenOff")]
  {
    RiskTypeUnlisted();
    WrittenOffUnlisted();
  }

  /** With the comma restored every listed `object` column present becomes
      `category`, these two included. */
  lemma IntendedListConvertsAll(f: Frame, c: string)
    requires Valid(f) && c in IntendedCategoricalColumns && Has(f, Col(c)) && f.kinds[Col(c)] == Object
    ensures ConvertDataTypesIntended(f).Success? ==> ConvertDataTypesIntended(f).value.kinds[Col(c)] == Categorical
  {
  }
}

=== FILE: seqs.dfy ===
/** Generic sequence helpers: distinctness, filtering, index ranges, `head(n)`. */
module Seqs {

  predicate Distinct<T(==)>(s: seq<T>) {
    forall i, j :: 0 <= i < j < |s| ==> s[i] != s[j]
  }

  /** The elements satisfying `keep`, in their original order. */
  function Filter<T(==)>(s: seq<T>, keep: T -> bool): (r: seq<T>)
    ensures |r| <= |s|
    ensures forall i :: 0 <= i < |r| ==> r[i] in s && keep(r[i])
    ensures forall i :: 0 <= i < |s| && keep(s[i]) ==> s[i] in r
    ensures Distinct(s) ==> Distinct(r)
  {
    if |s| == 0 then []
    else
      var rest := Filter(s[1..], keep);
      assert s == [s[0]] + s[1..];
      if keep(s[0]) then [s[0]] + rest else rest
  }

  /** `Filter` decides the first element, then filters the rest. */
  lemma FilterCons<T>(s: seq<T>, keep: T -> bool)
    requires |s| > 0
    ensures Filter(s, keep) == (if keep(s[0]) then [s[0]] else []) + Filter(s[1..], keep)
  {
  }

  /** `Filter` keeps every kept value as often as it occurs and drops the rest. */
  lemma {:induction false} FilterCount<T>(s: seq<T>, keep: T -> bool, x: T)
    ensures multiset(Filter(s, keep))[x] == if keep(x) then multiset(s)[x] else 0
  {
    if |s| > 0 {
      FilterCount(s[1..], keep, x);
      assert s == [s[0]] + s[1..];
      assert multiset(s) == multiset([s[0]]) + multiset(s[1..]);
    }
  }

  /** The row positions 0, 1, ..., n - 1 of a table with n rows. */
  function Range(n: nat): (r: seq<nat>)
    ensures |r| == n
    ensures forall i :: 0 <= i < n ==> r[i] == i
  {
    seq(n, i => i)
  }

  lemma RangeIsDistinct(n: nat)
    ensures Distinct(Range(n))
    ensures forall i: nat :: i in Range(n) <==> i < n
  {
    var r := Range(n);
    forall i: nat | i < n ensures i in r { assert r[i] == i; }
  }

  /** pandas `head(n)`: the first n rows, or all but the last -n rows when n is negative. */
  function Head<T>(s: seq<T>, n: int): (r: seq<T>)
    ensures n >= 0 ==> |r| == if n < |s| then n else |s|
    ensures n < 0 ==> |r| == if |s| + n > 0 then |s| + n else 0
    ensures r == s[..|r|]
  {
    if n >= 0 then (if n < |s| then s[..n] else s)
    else if |s| + n > 0 then s[..|s| + n]
    else []
  }

  lemma {:induction false} DistinctCardinality<T>(s: seq<T>)
    requires Distinct(s)
    ensures |set x | x in s| == |s|
  {
    if |s| > 0 {
      var init := s[..|s| - 1];
      DistinctCardinality(init);
      assert (set x | x in s) == (set x | x in init) + {s[|s| - 1]};
    }
  }

  /** A sequence of distinct indices below n has at most n entries. */
  lemma DistinctBelowBound(ids: seq<nat>, n: nat)
    requires forall j :: 0 <= j < |ids| ==> ids[j] < n
    requires Distinct(ids)
    ensures |ids| <= n
  {
    RangeIsDistinct(n);
    DistinctCardinality(ids);
    DistinctCardinality(Range(n));
    var a: set<nat>, b: set<nat> := set x: nat | x in ids, set x: nat | x in Range(n);
    forall x | x in a ensures x in b {
      assert x < n;
    }
    assert b == a + (b - a);
    assert |b| == |a| + |b - a|;
  }

  /** Two duplicate-free sequences with no common element concatenate to a duplicate-free one. */
  lemma DistinctConcat<T>(a: seq<T>, b: seq<T>)
    requires Distinct(a) && Distinct(b) && forall x :: x in a ==> x !in b
    ensures Distinct(a + b)
  {
    forall i, j | 0 <= i < j < |a + b| ensures (a + b)[i] != (a + b)[j] {
      if i < |a| && j >= |a| {
        assert (a + b)[i] in a && (a + b)[j] in b;
      }
    }
  }

  /** In a duplicate-free sequence every value occurs at most once. */
  lemma {:induction false} DistinctCount<T>(s: seq<T>)
    requires Distinct(s)
    ensures forall x :: multiset(s)[x] <= 1
  {
    if |s| > 0 {
      var pre := s[..|s| - 1];
      assert s == pre + [s[|s| - 1]];
      DistinctCount(pre);
      assert s[|s| - 1] !in pre;
    }
  }

  /** A value at two positions occurs at least twice. */
  lemma TwoPositions<T>(t: seq<T>, i: nat, j: nat)
    requires i < j < |t|
    ensures t[i] == t[j] ==> multiset(t)[t[i]] >= 2
  {
    assert t == t[..j] + [t[j]] + t[j + 1..];
    assert t[i] == t[..j][i];
    assert multiset(t[..j])[t[i]] >= 1;
  }

  /** A rearrangement of a duplicate-free sequence is duplicate-free. */
  lemma PermutationKeepsDistinct<T>(s: seq<T>, t: seq<T>)
    requires multiset(s) == multiset(t) && Distinct(s)
    ensures Distinct(t)
  {
    DistinctCount(s);
    forall i, j | 0 <= i < j < |t| ensures t[i] != t[j] {
      TwoPositions(t, i, j);
    }
  }
}

=== FILE: sorting.dfy ===
/** Descending sort by a real-valued key, as `sort_values(ascending=False)`
    performs it. pandas' default sort is not stable, so nothing is promised
    about the relative order of equal keys. */
module Sorting {

  predicate NonIncreasing<T>(s: seq<T>, key: T -> real) {
    forall i, j :: 0 <= i < j < |s| ==> key(s[i]) >= key(s[j])
  }

  function InsertDesc<T(==)>(x: T, s: seq<T>, key: T -> real): (r: seq<T>)
    requires NonIncreasing(s, key)
    ensures NonIncreasing(r, key)
    ensures |r| == |s| + 1 && (r[0] == x || (|s| > 0 && r[0] == s[0]))
    ensures multiset(r) == multiset(s) + multiset{x}
  {
    if |s| == 0 || key(x) >= key(s[0]) then [x] + s
    else
      var rest := InsertDesc(x, s[1..], key);
      assert s == [s[0]] + s[1..];
      assert key(s[0]) >= key(rest[0]);
      [s[0]] + rest
  }

  function SortDesc<T(==)>(s: seq<T>, key: T -> real): (r: seq<T>)
    ensures NonIncreasing(r, key)
    ensures multiset(r) == multiset(s)
  {
    if |s| == 0 then []
    else
      assert s == [s[0]] + s[1..];
      InsertDesc(s[0], SortDesc(s[1..], key), key)
  }

  /** Sorting keeps exactly the elements it was given. */
  lemma SortedMembers<T>(s: seq<T>, key: T -> real)
    ensures forall x :: x in SortDesc(s, key) <==> x in s
  {
    var r := SortDesc(s, key);
    forall x ensures x in r <==> x in s {
      assert x in r <==> x in multiset(r);
      assert x in s <==> x in multiset(s);
    }
  }

  /** In a non-increasing sequence, an element outside the first `n` has a
      key no larger than any element inside them. */
  lemma PrefixOutranks<T>(s: seq<T>, key: T -> real, n: nat, e: T, x: T)
    requires NonIncreasing(s, key) && n <= |s| && e in s[..n] && x in s && x !in s[..n]
    ensures key(x) <= key(e)
  {
    var p :| 0 <= p < |s| && s[p] == x;
    var q :| 0 <= q < n && s[..n][q] == e;
    forall j | 0 <= j < n ensures s[j] != x {
      assert s[..n][j] == s[j];
    }
    assert q < p;
  }
}

=== FILE: strings.dfy ===
/** The string operations the modelled code relies on: Python's `in` on
    strings, `startswith`, and decimal rendering of a count. */
module Strings {

  predicate StartsWith(s: string, prefix: string) {
    |prefix| <= |s| && s[..|prefix|] == prefix
  }

  predicate OccursAt(s: string, sub: string, i: int) {
    0 <= i <= |s| - |sub| && s[i..i + |sub|] == sub
  }

  /** `sub in s`. */
  function Contains(s: string, sub: string): bool
    decreases |s|
  {
    StartsWith(s, sub) || (|s| > |sub| && Contains(s[1..], sub))
  }

  lemma OccursShift(s: string, sub: string, i: int)
    requires |s| > 0 && i >= 0
    ensures OccursAt(s[1..], sub, i) <==> OccursAt(s, sub, i + 1)
  {
    if 0 <= i <= |s| - 1 - |sub| {
      var a, b := s[1..][i..i + |sub|], s[i + 1..i + 1 + |sub|];
      assert |a| == |b| && forall k :: 0 <= k < |a| ==> a[k] == b[k];
      assert a == b;
    }
  }

  /** `sub in s` holds exactly when some window of `s` equals `sub`. */
  lemma {:induction false} ContainsMeansOccurs(s: string, sub: string)
    ensures Contains(s, sub) <==> exists i :: OccursAt(s, sub, i)
    decreases |s|
  {
    if StartsWith(s, sub) {
      assert OccursAt(s, sub, 0);
    } else if |s| <= |sub| {
      forall i ensures !OccursAt(s, sub, i) {
        if 0 <= i <= |s| - |sub| {
          assert i == 0;
        }
      }
    } else {
      ContainsMeansOccurs(s[1..], sub);
      if Contains(s[1..], sub) {
        var i :| OccursAt(s[1..], sub, i);
        OccursShift(s, sub, i);
      } else {
        forall i ensures !OccursAt(s, sub, i) {
          if i > 0 {
            OccursShift(s, sub, i - 1);
          }
        }
      }
    }
  }

  function Digit(d: nat): char
    requires d < 10
  {
    "0123456789"[d]
  }

  function DigitValue(c: char): nat {
    if '0' <= c <= '9' then (c as int - '0' as int) as nat else 0
  }

  /** `str(n)` for a non-negative int. */
  function NatToString(n: nat): (r: string)
    ensures |r| > 0
    ensures forall i :: 0 <= i < |r| ==> '0' <= r[i] <= '9'
  {
    (if n < 10 then "" else NatToString(n / 10)) + [Digit(n % 10)]
  }

  function ParseDigits(s: string): nat {
    if |s| == 0 then 0 else 10 * ParseDigits(s[..|s| - 1]) + DigitValue(s[|s| - 1])
  }

  /** The rendered count reads back as the same number. */
  lemma DigitRoundTrip(d: nat)
    requires d < 10
    ensures DigitValue(Digit(d)) == d
  {
  }

  lemma {:induction false} NatToStringRoundTrip(n: nat)
    ensures ParseDigits(NatToString(n)) == n
  {
    var r := NatToString(n);
    var prefix := if n < 10 then "" else NatToString(n / 10);
    assert r == prefix + [Digit(n % 10)];
    assert r[..|r| - 1] == prefix;
    DigitRoundTrip(n % 10);
    assert ParseDigits(r) == 10 * ParseDigits(prefix) + n % 10;
    if n >= 10 {
      NatToStringRoundTrip(n / 10);
    }
  }
}

=== FILE: wrappers.dfy ===
/** Failure-compatible wrappers shared by the whole model.

    `Option<real>` stands for a pandas float that may be NaN or infinite:
    `None` is the non-finite value (a mean over no values, a division by zero).
    `Result` carries the Python exception an operation raises instead of
    returning. */
module Wrappers {

  datatype Option<+T> = None | Some(value: T) {
    predicate IsFailure() {
      None?
    }

    function PropagateFailure<U>(): Option<U>
      requires None?
    {
      None
    }

    function Extract(): T
      requires Some?
    {
      value
    }
  }

  /** The Python exception classes the modelled code raises, and any
      exception raised inside a library routine the model takes as a parameter. */
  datatype Error =
    | KeyError(column: string)
    | RuntimeError(message: string)
    | ValueError(message: string)
    | TypeError(message: string)
    | LibraryError

  datatype Result<+T> = Success(value: T) | Failure(error: Error) {
    predicate IsFailure() {
      Failure?
    }

    function PropagateFailure<U>(): Result<U>
      requires Failure?
    {
      Failure(error)
    }

    function Extract(): T
      requires Success?
    {
      value
    }
  }

  /** Float division as numpy performs it: a zero divisor gives inf or NaN. */
  function Ratio(numerator: real, denominator: real): (r: Option<real>)
    ensures r.None? <==> denominator == 0.0
  {
    if denominator == 0.0 then None else Some(numerator / denominator)
  }

  /** A part over its whole lies in [0, 1]. */
  lemma FractionBounds(part: real, whole: real)
    requires 0.0 <= part <= whole && whole > 0.0
    ensures 0.0 <= part / whole <= 1.0
  {
    var q := part / whole;
    assert q * whole == part;
  }
}
